=== FILE: README.md ===
# PoE credit tracker — verified model of the credit ledger

`poe_tracker.py` is a desktop tracker for a monthly quota of Poe credits. The user records the
remaining balance once a day. The tracker keeps a sparse map from dates to entries
`{remaining, used}`, a per-date note map, the quota settings, a cached "latest balance" and the
stored next reset date. From these it derives:

- each day's usage, from the nearest earlier entry;
- the billing period and the pro-rata "ideal" usage;
- the dashboard's pacing status;
- the history table, with its filters, search and column sort;
- the daily series that feeds the analytics charts;
- the analytics statistics and end-of-period projection;
- CSV export and import, settings validation, and the defaults backfilled into a loaded document.

This project models that logic as immutable Dafny values and pure functions. The current date is
always passed in as a parameter. Exact `real` arithmetic stands in for Python floats.

Modules (one per file):

| module | file | models |
|---|---|---|
| `Wrappers` | wrappers.dfy | `Option` / `Result` for the error paths |
| `Dates` | dates.dfy | Gregorian calendar, `toordinal` day numbers, weekdays, month stepping |
| `KeyOrder` | keyorder.dfy | the order of ledger keys: `max`, sorting, the greatest earlier key |
| `Numerals` | numerals.dfy | `int()` on signed decimals, `.replace(',', '')`, `{:,}` grouping |
| `Text` | text.dfy | string order, `lower()`, `in` on strings, `strip()` |
| `DateText` | datetext.dfy | `YYYY-MM-DD` formatting and parsing; key order is date order |
| `Period` | period.dfy | `calculate_ideal_usage` and the stored `next_reset` rule |
| `CreditLedger` | ledger.dfy | the ledger, usage derivation, edits, deletes, notes, reset, defaults |
| `LedgerLaws` | ledger_laws.dfy | multi-step laws: telescoping usage; edits do not cascade |
| `Pacing` | pacing.dfy | status rules, dashboard numbers, `update_analytics_stats` |
| `Query` | query.dfy | history / analytics date ranges, search filter, history rows |
| `ColumnSort` | sorting.dfy | `sort_history_by_column` |
| `Series` | series.dfy | the day-by-day series with carried-forward balances |
| `Calendar` | calendar.dfy | the 6×7 month grid |
| `CsvExchange` | csv.dfy | export rows, import rows, and the round trip between them |
| `SettingsPanel` | settings.dfy | `save_settings` validation |
| `StoredDocument` | document.dfy | `load_data` backfill, default initialisation, restore validation |

Dates are `Date(year, month, day)` values. They are ordered lexicographically, which is exactly the
order of the zero-padded `YYYY-MM-DD` key strings that the source compares with `max` and
`sorted`. `DateText.KeyOrderIsDateOrder` proves the two orders agree.

## Model

| member | source | states |
|---|---|---|
| Dates.DaysInMonth | poe_tracker.py:850 | a month has 28–31 days; only February has fewer than 30; February has 29 exactly in leap years |
| Dates.DayNumberOrder | poe_tracker.py:1375 | comparing calendar dates agrees with comparing their ordinal day numbers, in both directions, so date differences count days |
| Dates.NextDay | poe_tracker.py:1684 | adding one day gives the date whose ordinal is one larger, and it is later |
| Dates.PrevDay | poe_tracker.py:2069 | subtracting one day gives the date whose ordinal is one smaller, and it is earlier |
| Dates.NothingBetweenDays | poe_tracker.py:1684 | no calendar date lies strictly between a day and the next day |
| Dates.DaysBack | poe_tracker.py:1341 | `today - timedelta(days=n)` is the date exactly n ordinals earlier |
| Dates.PrevMonth | poe_tracker.py:1136-1146 | the previous month, wrapping January to December of the previous year, is one month-index earlier |
| Dates.NextMonth | poe_tracker.py:1148-1158 | the next month, wrapping December to January of the next year, is one month-index later |
| Dates.MonthStepsInverse | poe_tracker.py:1136-1158 | going back a month and then forward returns to the same month, and vice versa |
| Dates.DayNumberNextMonth | poe_tracker.py:2112 | the same day one month later lies exactly the month's length in days further on |
| KeyOrder.Latest | poe_tracker.py:1282 | `max(keys)` is the unique key that no other key follows |
| KeyOrder.LatestIs | poe_tracker.py:1304 | a key is the latest exactly when `Latest` returns it |
| KeyOrder.GreatestBefore | poe_tracker.py:2076-2082 | returns None iff no key is earlier than the date; otherwise the returned key is earlier than the date and no earlier key follows it |
| KeyOrder.Ascending | poe_tracker.py:2368-2369 | `sorted(keys)` holds exactly the keys, each once, strictly increasing |
| KeyOrder.Descending | poe_tracker.py:1367-1369 | `sorted(keys, reverse=True)` holds exactly the keys, each once, strictly decreasing |
| KeyOrder.LatestOfAscending | poe_tracker.py:2368-2383 | the last row of the ascending order is the latest key |
| Numerals.ParseInt | poe_tracker.py:2013 | `int()` accepts exactly an optional `-` or `+` sign followed by a non-empty run of digits; the value is the digits' decimal value, negated after `-` |
| Numerals.ParseFormatInt | poe_tracker.py:2379-2380 | an integer written as text and read back with `int()` is the same integer |
| Numerals.StripCommas | poe_tracker.py:2013 | `.replace(',', '')` leaves no comma and leaves comma-free text unchanged |
| Numerals.StripCommasKeeps | poe_tracker.py:2013 | stripping commas keeps every other character and adds none |
| Numerals.StripCommasConcat | poe_tracker.py:2161 | stripping commas distributes over concatenation |
| Numerals.GroupedReadsBack | poe_tracker.py:1398 | an amount shown with `{:,}` grouping reads back, after comma removal, as the same integer |
| Text.LexLessTransitive | poe_tracker.py:1411 | Python string order is transitive |
| Text.LexLessTotal | poe_tracker.py:1411 | any two different strings are ordered one way or the other |
| Text.Lower | poe_tracker.py:1364 | `lower()` keeps the length and maps each upper-case ASCII letter to lower case |
| Text.LowerIdempotent | poe_tracker.py:1364 | lowering twice is lowering once |
| Text.ContainsIffOccurs | poe_tracker.py:1385 | `needle in hay` holds iff the needle occurs at some index of hay |
| Text.Strip | poe_tracker.py:1172 | `strip()` is empty iff the text is all white space; otherwise it neither starts nor ends with white space |
| DateText.ParseFormatDate | poe_tracker.py:2017 | formatting a valid date as `YYYY-MM-DD` and parsing it back gives the same date |
| DateText.FormatParseDate | poe_tracker.py:2017 | a key that parses formats back to the same text, so key strings and dates correspond one to one |
| DateText.KeyOrderIsDateOrder | poe_tracker.py:1367-1369 | comparing key strings agrees with comparing the dates they denote |
| DateText.PaddedOrder | poe_tracker.py:1367-1369 | zero-padded numbers of equal width sort as text exactly as they do as numbers |
| Period.CurrentPeriod | poe_tracker.py:2089-2109 | the period starts on the reset day at or before today and ends on the reset day one month later, with year wrap; it starts today iff today is the reset day |
| Period.PeriodLength | poe_tracker.py:2099-2112 | the period is as long as its starting month, and the days passed lie in 0 up to (not including) that length |
| Period.PeriodProgress | poe_tracker.py:2099-2112 | `(total_days, days_passed)` with `0 <= days_passed < total_days`; no day has passed iff today is the reset day |
| Period.IdealUsage | poe_tracker.py:2084-2117 | the ideal usage is ≥ 0 and below the quota for a positive quota; it is 0 iff today is the reset day or the quota is 0 |
| Period.ProRata | poe_tracker.py:2115 | a share `total / length * elapsed`, with `elapsed < length`, lies in `[0, total)` |
| Period.StoredNextReset | poe_tracker.py:2184-2191 | the stored next reset has the reset day and is not before today; it is in today's month iff `today.day <= reset_day` |
| Period.StoredResetVersusPeriod | poe_tracker.py:108-114 | the stored reset differs from the ideal-usage period end exactly on the reset day itself, when it equals today |
| Period.DaysUntilStoredReset | poe_tracker.py:846 | the days until the stored reset are never negative, and are zero iff today is the reset day |
| CreditLedger.YesterdayIsGreatestBefore | poe_tracker.py:2069-2074 | when yesterday's key exists, the direct check gives the same answer as the general scan |
| CreditLedger.PreviousDate | poe_tracker.py:2067-2082 | the predecessor key is earlier than the date; for a ledger of valid keys it is the greatest earlier key, or None when there is none |
| CreditLedger.DerivedUsage | poe_tracker.py:2019-2037 | used = predecessor's remaining − remaining, or total_credits − remaining when there is no predecessor |
| CreditLedger.UsageDependsOnlyOnEarlierEntries | poe_tracker.py:2019-2037 | two ledgers that agree on all earlier entries and on the quota derive the same usage for a date |
| CreditLedger.Record | poe_tracker.py:2040-2046 | recording adds or replaces only that date's entry, with the derived usage; it always overwrites the cached balance; settings, notes and the reset are untouched |
| CreditLedger.UpdateUsage | poe_tracker.py:2010-2053 | the data step of `update_usage` (the refresh after it is `Handlers.UpdateUsageHandler`): it applies iff the date and the comma-stripped balance parse; then it records the entry, sets the cache and last-updated date, stores a stripped, non-empty note and keeps the other notes, the settings and the next reset |
| CreditLedger.RecordCacheConsistency | poe_tracker.py:2046 | after recording, the cache equals the latest entry's balance iff no existing key is later than the new date, or the new balance happens to equal the old latest one |
| CreditLedger.Put | poe_tracker.py:1275-1284 | storing an entry replaces it; the cached balance changes to the entry's balance exactly when the date is the latest key |
| CreditLedger.PutKeepsCacheConsistent | poe_tracker.py:1282-1284 | the edit path keeps the cache equal to the latest entry's balance |
| CreditLedger.EditUsage | poe_tracker.py:1250-1284 | the data step of `save_edited_usage` (the refresh after it is `Handlers.EditUsageHandler`): it applies iff the balance parses; then it stores the derived entry, updates the cache iff the date is the latest key, keeps cache consistency, and leaves notes, settings, next reset and last-updated date alone |
| CreditLedger.DeleteEntry | poe_tracker.py:1299-1307 | deleting an existing date removes only that entry and resets the cache to the new latest balance, or to total_credits when no entry remains; deleting a missing date changes nothing |
| CreditLedger.DeleteUndoesRecord | poe_tracker.py:1451-1459 | recording a new date and then deleting it restores the entries and the cached balance |
| CreditLedger.SaveNote | poe_tracker.py:1519-1524 | the date has a note iff the stripped text is non-empty, and then it is that text; other notes, entries, the cache, settings, next reset and last-updated date are untouched |
| CreditLedger.SaveDayNote | poe_tracker.py:1160-1184 | without a selected day nothing changes; otherwise the selected day has a note iff the stripped text is non-empty, the note is that text, and every other note, entry and setting is untouched |
| CreditLedger.SaveNoteIdempotent | poe_tracker.py:1179-1184 | saving the same note twice equals saving it once |
| CreditLedger.ResetData | poe_tracker.py:2242-2279 | the data step of `reset_data` (the refresh after it is `Handlers.ResetHandler`): it applies iff the new reset date exists; then entries and notes are empty, the settings are kept, the balance is the full quota and the reset is not behind today |
| CreditLedger.DefaultLedger | poe_tracker.py:103-129 | succeeds iff day 29 exists in the reset month; then it gives an empty, cache-consistent ledger with a quota of 1,000,000, reset day 29 and threshold 20 |
| CreditLedger.DefaultLedgerFailsInFebruary | poe_tracker.py:108-114 | first-run initialisation on 2025-02-10 fails, because 2025-02-29 does not exist |
| LedgerLaws.RecordAllEntries | poe_tracker.py:2040-2044 | recording readings with increasing dates stores exactly those dates with their balances, and keeps the settings |
| LedgerLaws.Telescoping | poe_tracker.py:2022-2046 | for increasing dates, the used values sum to total_credits − the last remaining, and the cache is the last balance |
| LedgerLaws.EditsDoNotCascade | poe_tracker.py:2040-2044 | the derived usage depends on entry order: the same three readings, recorded in two orders, give day 3 a usage of 10 and of 30 |
| Pacing.UsageStatusOf | poe_tracker.py:2119-2127 | Critical iff extra < −5·target; for target ≥ 0, Over Budget, On Track and Under Budget are exactly the bands [−5t, 0), [0, 3t) and [3t, ∞) |
| Pacing.UsageStatusMonotone | poe_tracker.py:2119-2127 | for target ≥ 0, more extra credits never give a more severe status |
| Pacing.DayStatusOf | poe_tracker.py:1389-1394 | Over Budget iff used > 1.2·target; for target ≥ 0, Warning iff target < used ≤ 1.2·target, On Track iff used ≤ target |
| Pacing.DayStatusMonotone | poe_tracker.py:1103-1112 | for target ≥ 0, a larger usage never gives a less severe day status |
| Pacing.DisplayTarget | poe_tracker.py:850-851 | the dashboard target times the days of the next-reset month is the quota |
| Pacing.DashboardOf | poe_tracker.py:841-896 | used = quota − balance; extra = ideal usage − used; the shown extra is extra clamped at 0; status is taken from the unclamped extra |
| Pacing.RefreshDashboard | poe_tracker.py:827-858 | the refresh fails with a division by zero iff the quota is 0; otherwise it fails with a ValueError iff the stored next reset or an end of the current period is not a date; otherwise it shows `DashboardOf` |
| Pacing.ResetDay29Gap | poe_tracker.py:2084-2095 | with reset day 29 in a common year, the current period has a day that does not exist exactly from 29 January to 28 March |
| Pacing.UnusedQuotaIsOnPace | poe_tracker.py:857-896 | with nothing used, the status is On Track or Under Budget |
| Pacing.ShownExtraHidesDeficit | poe_tracker.py:857-896 | a deficit is shown as 0 while the status reports Over Budget or Critical |
| Pacing.TargetBasesDiffer | poe_tracker.py:2112 | on 2025-04-15 with reset day 29, the dashboard divides by 30 days and the ideal usage by 31 |
| Pacing.Positives | poe_tracker.py:1947 | keeps exactly the positive usages |
| Pacing.AvgDailyAsWritten | poe_tracker.py:1947 | the average as written fails exactly when some usage is non-zero but none is positive |
| Pacing.AvgDailyDivisionByZero | poe_tracker.py:1947 | usage `[-5]` makes the average as written divide by zero |
| Pacing.AvgDaily | poe_tracker.py:1947 | the corrected average is 0 without positive days, else total / positive-day count |
| Pacing.AvgDailyCorrected | poe_tracker.py:1947 | wherever the written average is defined, the corrected one agrees with it |
| Pacing.HighestDay | poe_tracker.py:1951-1952 | the index of the first maximal usage |
| Pacing.LowestPositiveDay | poe_tracker.py:1953-1956 | the index of the first smallest positive usage, or 0 when none is positive |
| Pacing.DayCountsPartition | poe_tracker.py:1967-1968 | for target ≥ 0, days over target, days under target (but used) and idle days partition the range |
| Pacing.LastSeven | poe_tracker.py:1982 | `usage[-7:]` is the suffix of length min(7, n) |
| Pacing.RecentAverage | poe_tracker.py:1982-1984 | the recent average is positive and is the mean of the positive usages among the last seven |
| Pacing.ProjectionOf | poe_tracker.py:1974-2004 | no data without balances; "reset day reached" when days ≤ 0; "insufficient data" without positive recent usage; a projection exactly in the remaining case, where the end balance is max(0, last − avg·days), between 0 and the last balance, and recommended·days = last |
| Pacing.AnalyticsStats | poe_tracker.py:1929-2008 | no data iff the series is empty; otherwise the total, the guarded average, the first highest day and the first lowest positive day (day 0 when some usage is non-zero but none positive; none when all are zero), the over/under counts and the projection |
| Query.CurrentMonthRange | poe_tracker.py:1329-1331 | a date is in range iff it is in today's month and not after today |
| Query.PreviousMonthRange | poe_tracker.py:1332-1339 | a date is in range iff it lies in the previous month, with January wrap |
| Query.LastDaysMembership | poe_tracker.py:1340-1345 | "last n days" holds exactly the n days ending today |
| Query.HistoryDisplay | poe_tracker.py:1315-1355 | the list is cleared first, so it is empty when the custom range does not parse; otherwise it lists exactly the entries the chosen range and search show |
| Query.HistoryRange | poe_tracker.py:1329-1361 | a custom range fails iff a bound does not parse and is otherwise the parsed bounds; all time is 1900-01-01 to today; current month, previous month and the last 7 / 30 days are the ranges characterised above |
| Query.AnalyticsRange | poe_tracker.py:1618-1642 | current month, previous month and the last 30 / 90 days are the ranges characterised above; all time starts at the earliest entry |
| Query.AllTimeRange | poe_tracker.py:1636-1642 | starts at the earliest entry (or 30 days back when empty) and covers every entry up to today |
| Query.SearchIgnoresCase | poe_tracker.py:1364 | the search result does not depend on the case of the search text |
| Query.ShownAmong | poe_tracker.py:1371-1386 | keeps exactly the dates in range that match the search, preserving descending order |
| Query.HistoryRows | poe_tracker.py:1367-1403 | the table lists exactly the shown entries, newest first, each with its entry, note and status |
| ColumnSort.SortDescending | poe_tracker.py:1405-1414 | `sort(reverse=True)` returns a permutation in non-increasing order |
| ColumnSort.SortedUnique | poe_tracker.py:1405-1414 | two non-increasing permutations of the same items are equal, so the sort result is determined |
| ColumnSort.SortCharacterised | poe_tracker.py:1405-1414 | any non-increasing permutation of the items is the sort's result |
| ColumnSort.ShortNote | poe_tracker.py:1402 | notes up to 50 characters are shown whole; longer ones are cut to 50 characters plus "..." |
| ColumnSort.SortByDateKeepsOrder | poe_tracker.py:1405-1414 | sorting by the date column leaves the newest-first table as it is |
| ColumnSort.SortByTargetReverses | poe_tracker.py:1405-1414 | sorting by the (constant) target column reverses the table |
| ColumnSort.AmountsSortAsText | poe_tracker.py:1398 | grouped amounts sort as text, so "10,000" comes before "9,000" in a descending sort |
| Series.Days | poe_tracker.py:1654-1684 | the loop visits every day from start to end once, in order; empty when end is before start |
| Series.DaysCoverRange | poe_tracker.py:1654-1655 | a date is visited iff it lies in the inclusive range |
| Series.SeriesOf | poe_tracker.py:1655-1684 | one point per day: a recorded day shows its usage and balance; a missing day shows usage 0 |
| Series.SeriesCarriesBalance | poe_tracker.py:1663-1682 | each point's balance is the balance of the latest recorded day in the range up to it, or the quota when there is none |
| Series.RangeSeries | poe_tracker.py:1655-1684 | the range's series carries balances forward from the range start |
| Series.DashboardSeries | poe_tracker.py:928-945 | the 14 days ending today, each with its recorded usage or 0, and (for valid keys) the balance as of that day within the 14, the quota before any entry |
| Series.Analytics | poe_tracker.py:1608-1700 | the series over the chosen range carries balances forward; its statistics are none iff it is empty, and otherwise summarise its usage and balance columns against the dashboard target and the days until the stored reset |
| Calendar.CellDay | poe_tracker.py:1033-1040 | cell i shows day `i − first_weekday + 1` iff it lies within the month |
| Calendar.FillGrid | poe_tracker.py:1030-1082 | fills a 6×7 grid cell by cell with `CellDay` |
| Calendar.EveryDayPlacedOnce | poe_tracker.py:1030-1082 | every day of the month is in exactly one cell, `first_weekday + d − 1` |
| Calendar.MonthGrid | poe_tracker.py:1030-1082 | every day appears in the column of its weekday |
| CsvExchange.Export | poe_tracker.py:2365-2383 | the header, then one four-field row per entry |
| CsvExchange.ParseRow | poe_tracker.py:2422-2427 | a row is used iff it has ≥ 3 fields, a date and two integers |
| CsvExchange.RowNote | poe_tracker.py:2436-2437 | a note is taken iff a fourth field exists and is non-empty |
| CsvExchange.ImportRow | poe_tracker.py:2420-2444 | a bad row changes nothing; a good row stores its entry (and note) and updates the cache iff its date is the latest, leaving settings, next reset and last-updated date alone |
| CsvExchange.Import | poe_tracker.py:2411-2444 | the data step of `import_data` (the refresh after it is `Handlers.ImportHandler`): an empty file fails (no header); otherwise the header is skipped and the remaining rows are imported |
| CsvExchange.ImportKeepsCacheConsistent | poe_tracker.py:2439-2441 | importing keeps the cache equal to the latest entry's balance |
| CsvExchange.SkippedRowIsIgnored | poe_tracker.py:2443-2444 | a skipped row does not stop the import; the outcome is the same as without it |
| CsvExchange.ExportRowReadsBack | poe_tracker.py:2378-2383 | an exported row reads back as its entry and note |
| CsvExchange.CsvRoundTrip | poe_tracker.py:2365-2444 | importing an export into an empty ledger reproduces every entry and every non-empty note, and the cache is the latest balance |
| SettingsPanel.SaveSettings | poe_tracker.py:2159-2205 | invalid numbers or an out-of-range reset day / threshold change nothing; a missing reset date applies the settings but keeps the old next reset; otherwise all is saved, and the dashboard refresh that follows decides the outcome: success iff the quota is non-zero and the current period exists, an uncaught division by zero iff the quota is 0, and otherwise the invalid-numbers error |
| SettingsPanel.SavedResetIsAhead | poe_tracker.py:2184-2191 | after a successful save, the next reset is on the new reset day, not behind today, and is today iff today is that day |
| SettingsPanel.StaleResetOnMissingDay | poe_tracker.py:2184-2191 | reset day 29 saved on 2025-01-30 reports an error, yet the new reset day is kept and next reset is stale |
| SettingsPanel.MissingPeriodStartReported | poe_tracker.py:2194-2205 | reset day 29 saved on 2025-03-10 is stored with next reset 2025-03-29, yet the refresh reports invalid numbers, since the period would start on 2025-02-29 |
| SettingsPanel.ZeroQuotaSavedThenAborts | poe_tracker.py:2194-2197 | a zero quota is saved with the new next reset, and the refresh then divides by it |
| SettingsPanel.NegativeQuotaAccepted | poe_tracker.py:2166-2173 | a negative total is accepted, because the total is not range-checked |
| StoredDocument.Backfill | poe_tracker.py:89-97 | missing defaults are added and present keys keep their values |
| StoredDocument.BackfillIdempotent | poe_tracker.py:89-97 | backfilling twice is backfilling once |
| StoredDocument.BackfillFixesComplete | poe_tracker.py:89-97 | a document with every default key is left unchanged |
| StoredDocument.LoadData | poe_tracker.py:83-101 | a file that parses keeps all its keys and values and gains the missing defaults; a missing file or invalid JSON falls back to the default ledger |
| StoredDocument.FirstRefresh | poe_tracker.py:827-872 | the reads of the settings tab and the first dashboard refresh pass iff every key they read is present, the quota is not 0, and the next reset and both ends of the current period are dates; a missing quota, reset day or balance is a KeyError, and a zero quota after them a division by zero |
| StoredDocument.LaunchAsWritten | poe_tracker.py:36-81 | as the constructor is written, start-up succeeds exactly from a file that parses and survives those reads, loading it backfilled; a file that parses but fails them aborts with that read's KeyError, division by zero or ValueError; without such a file it aborts for the missing status bar, or earlier when the default reset day does not exist in the stored month |
| StoredDocument.LaunchIntended | poe_tracker.py:36-81 | with the status bar created first, a file that parses starts exactly as before; without one, start-up completes iff the default next reset and the current period for day 29 both exist, loading the default ledger; it never fails for the status bar |
| StoredDocument.CorrectedFirstRunInMarch | poe_tracker.py:2088-2095 | without a data file on 2025-03-10 the default ledger builds, yet the first refresh fails on the period start 2025-02-29 |
| StoredDocument.DefaultStartWindow | poe_tracker.py:103-114 | without a data file, the corrected start-up completes in a common year on every day except 29 January to 28 March |
| StoredDocument.EmptyObjectAborts | poe_tracker.py:727 | a file holding `{}` parses but aborts start-up at the quota's KeyError |
| StoredDocument.ZeroQuotaFileAborts | poe_tracker.py:832-836 | a complete file with a zero quota aborts start-up at the usage percentage |
| StoredDocument.FirstRunAborts | poe_tracker.py:131-134 | the first start, without a data file, on 2025-01-10 aborts for the missing status bar |
| StoredDocument.LaunchCorrected | poe_tracker.py:83-101 | where the constructor starts, it agrees with `LoadData`; where it aborts for the missing status bar, `LoadData` loads the empty default ledger (whether start-up then completes is `LaunchIntended`) |
| StoredDocument.Restore | poe_tracker.py:2308-2340 | the data step of `restore_data` (the refresh after it is `Handlers.RestoreHandler`): a backup is restored iff it parses and has the four required keys; its values are kept and the defaults are backfilled |
| Handlers.UpdateUsageHandler | poe_tracker.py:2010-2065 | input that does not read changes nothing and shows the input error; otherwise the entry is saved, and the handler succeeds iff the refresh passes, escapes with a division by zero iff the quota is 0, and otherwise shows the input error |
| Handlers.ReadingSavedYetReported | poe_tracker.py:2055-2065 | with resets on the 29th, a reading for 2025-03-10 entered that day is saved and then reported as invalid input |
| Handlers.EditUsageHandler | poe_tracker.py:1250-1295 | a balance that does not read changes nothing and shows the input error; otherwise the edit is saved, with the same three outcomes of the refresh |
| Handlers.DeleteHandler | poe_tracker.py:1297-1313 | a date without an entry changes and refreshes nothing; otherwise the entry is deleted and saved, and the handler succeeds iff the refresh passes, else raises uncaught |
| Handlers.ResetHandler | poe_tracker.py:2242-2284 | a missing next reset raises before anything changes; otherwise the reset ledger is saved, and the handler succeeds iff the quota is non-zero and the current period exists, else raises uncaught |
| Handlers.ResetSavedThenAborts | poe_tracker.py:2280-2284 | with resets on the 29th, a reset on 2025-03-10 saves the empty ledger with next reset 2025-03-29 and then raises |
| Handlers.ImportHandler | poe_tracker.py:2400-2454 | a file without a header shows the import error and changes nothing; otherwise the rows are saved, and the handler succeeds iff the refresh passes, else shows the import error |
| Handlers.RestoreHandler | poe_tracker.py:2308-2343 | the data file is replaced iff the backup parses with the required keys, by the backup as `load_data` reads it; the handler succeeds iff the restored document also passes the start-up reads, else shows the restore error |

## Left out

- GUI, charts and files:
  - All widget construction, layout, dialogs, message boxes, themes and notifications are left out.
  - Confirmation dialogs are taken as answered "yes".
  - matplotlib/numpy rendering is left out; only the series builders are modelled.
- Stored document:
  - JSON reading and writing, `shutil` backup and copy, and the `csv` module's quoting and encoding are not modelled.
  - Documents are values, and CSV files are sequences of rows of string fields.
  - A loaded document is modelled by its keys and by the quota, reset-day and next-reset values start-up reads, not by the typing of its JSON values.
- `datetime.now()` is the `today` parameter everywhere.
- Floats: Python floats and their formatting (`{:,.2f}`, percentages) are replaced by exact `real`.
  - The history table's target text is a parameter of the column sort.
  - The dashboard's usage percentage and average labels are not modelled.
- Date parsing:
  - Only the canonical zero-padded `YYYY-MM-DD` form is parsed.
  - `strptime` also accepts unpadded fields; the model rejects them.
  - Only years 1 to 9999 are valid; datetime's out-of-range errors at the ends of that range are not modelled.
- CsvExchange.ParseRow: only canonical `YYYY-MM-DD` dates are accepted, so a row whose date does not parse that way is skipped. The source would store it under the raw string key, which the model's `Date` keys cannot hold.
- Numerals.ParseInt: surrounding white space and `_` digit separators are rejected here, although Python's `int()` accepts them; only ASCII digits are read.
- Text.Lower: only ASCII letters are lowered.
- Text.Strip: only ASCII white space is stripped.
- StoredDocument.LaunchAsWritten: a value of a JSON type other than the one the tracker writes is taken to pass, although it raises TypeError; malformed entries under `daily_usage`, the chart drawing of the first refresh, and a next reset in an unpadded spelling that `strptime` reads are not modelled (the last is reported as not a date).
- Handlers.RestoreHandler: the restored document is judged by the same reads, with the same JSON-type and entry-shape gaps as `StoredDocument.LaunchAsWritten`.
- The calendar and history displays refreshed after the dashboard read the same quota and next reset and raise nothing the dashboard refresh has not already raised; they are not modelled. Only the kind of message a handler ends with is modelled (success, its error box, or an escaped exception), not the wording.
- Pacing.DashboardOf: its `PeriodExists` requirement, and that of `Period.IdealUsage`, stands for the ValueError `calculate_ideal_usage` raises; `Pacing.RefreshDashboard` models that failure.
- StoredDocument.LoadData: only a missing file and invalid JSON are modelled as failed reads. Other read errors (an unreadable file, bad text encoding) escape `load_data` and are not modelled.
- History tree items are identified by their position, not by tkinter's `I001`-style ids.
- The branch at poe_tracker.py:1670 is not modelled. It is reached only when no balance has been appended yet and the day is after the start, which cannot happen because every earlier day appended one.
- The analytics charts other than the series (monthly summary, heatmap, weekday chart) are rendering only.
- `update_dashboard_display` labels for today's, yesterday's and the weekly usage are lookups without logic.
- install.py is a GUI installer with threads, subprocesses and OS calls and holds no ledger logic.
- Calendar cells for days with an entry show that entry's values; this is covered by the history row and day status functions rather than a separate calendar function.

## Findings

| source | as written | input that shows it | evidently intended | confidence | as-written member | corrected member |
|---|---|---|---|---|---|---|
| poe_tracker.py:1947 | `total_used / len([u for u in usage_data if u > 0]) if any(usage_data) else 0` guards on a non-zero usage but divides by the count of positive usages | usage `[-5]` (a day whose balance rose, e.g. after a correction) raises ZeroDivisionError | guard on the count of positive usages, giving 0 when there are none | not executed | Pacing.AvgDailyAsWritten | Pacing.AvgDaily |
| poe_tracker.py:131-134 | the constructor calls `load_data` at line 38 but creates `self.status_bar` only at line 80; without a data file, or with invalid JSON, `initialize_default_data` calls `save_data`, which writes the defaults and then reads `self.status_bar` | the first start, with no data file, on 2025-01-10 raises AttributeError after the defaults are written | create the status bar before loading, so `load_data` falls back to the default ledger; the first refresh then still fails from 29 January to 28 March of a common year | not executed | StoredDocument.LaunchAsWritten | StoredDocument.LaunchIntended |

The rest of the model uses the corrected members: `Pacing.AnalyticsStats` uses `Pacing.AvgDaily`, and start-up is modelled by `StoredDocument.LaunchIntended`, which loads with `StoredDocument.LoadData` (`StoredDocument.LaunchCorrected` relates that to the constructor as written).

Behaviour that the code exhibits and the model follows, rather than a repaired design:

- Edits do not cascade. Recording or editing one day leaves the stored `used` of later days
  unchanged, so the derived usages depend on the order of entry (`LedgerLaws.EditsDoNotCascade`).
- `update_usage` overwrites the cached balance even for a back-dated entry. The edit, delete and
  import paths update it only for the latest key (`CreditLedger.RecordCacheConsistency`).
- A negative balance is not rejected, and neither is a negative total quota.
- `save_settings` writes the new settings before computing the next reset date. When that date
  does not exist, the settings stay applied and `next_reset` stays stale
  (`SettingsPanel.StaleResetOnMissingDay`). After a successful save, the dashboard refresh can still
  fail, but the settings and the next reset have been saved by then
  (`SettingsPanel.MissingPeriodStartReported`, `SettingsPanel.ZeroQuotaSavedThenAborts`).
- Every handler that changes the data saves it before refreshing the dashboard, so a failing refresh
  leaves the change saved while the user sees an error or nothing (`Handlers.ReadingSavedYetReported`,
  `Handlers.ResetSavedThenAborts`).
- First-run initialisation fails when day 29 does not exist in the reset month
  (`CreditLedger.DefaultLedgerFailsInFebruary`).
- The stored next reset uses `day <= reset_day`, while the ideal-usage period uses `day < reset_day`.
  The two disagree on the reset day itself (`Period.StoredResetVersusPeriod`).

=== FILE: calendar.dfy ===
/** The calendar tab's month grid: six weeks of seven days, Monday first,
    with day 1 under its weekday and the other days following it. */
module Calendar {
  import opened Dates
  import opened Wrappers

  /** What cell `i` (row-major, from 0) shows when the month's first day
      falls on `firstWeekday` and the month has `length` days. */
  function CellDay(firstWeekday: int, length: int, i: int): (r: Option<int>)
    ensures r.Some? <==> firstWeekday <= i < firstWeekday + length
    ensures r.Some? ==> 1 <= r.value <= length && r.value == i - firstWeekday + 1
  {
    if firstWeekday <= i < firstWeekday + length then Some(i - firstWeekday + 1) else None
  }

  /** How many days have been placed before cell `i`. */
  function PlacedBefore(firstWeekday: int, length: int, i: int): int
  {
    if i <= firstWeekday then 0
    else if i - firstWeekday < length then i - firstWeekday
    else length
  }

  /** The fill loop of `update_calendar_display`: skip the cells of the first
      row before the first weekday and every cell after the last day, and
      number the others 1, 2, ... in reading order. */
  method FillGrid(firstWeekday: int, length: int) returns (grid: seq<seq<Option<int>>>)
    requires 0 <= firstWeekday < 7 && 0 <= length
    ensures |grid| == 6
    ensures forall r :: 0 <= r < 6 ==> |grid[r]| == 7
    ensures forall r, c :: 0 <= r < 6 && 0 <= c < 7 ==>
      grid[r][c] == CellDay(firstWeekday, length, 7 * r + c)
  {
    grid := [];
    var day := 1;
    var row := 0;
    while row < 6
      invariant 0 <= row <= 6 && |grid| == row
      invariant forall r :: 0 <= r < row ==> |grid[r]| == 7
      invariant forall r, c :: 0 <= r < row && 0 <= c < 7 ==>
        grid[r][c] == CellDay(firstWeekday, length, 7 * r + c)
      invariant day == PlacedBefore(firstWeekday, length, 7 * row) + 1
    {
      var cells: seq<Option<int>> := [];
      var col := 0;
      while col < 7
        invariant 0 <= col <= 7 && |cells| == col
        invariant forall c :: 0 <= c < col ==> cells[c] == CellDay(firstWeekday, length, 7 * row + c)
        invariant day == PlacedBefore(firstWeekday, length, 7 * row + col) + 1
      {
        if (row == 0 && col < firstWeekday) || day > length {
          cells := cells + [None];
        } else {
          cells := cells + [Some(day)];
          day := day + 1;
        }
        col := col + 1;
      }
      grid := grid + [cells];
      row := row + 1;
    }
  }

  /** Every day of a month fits the six-week grid, in exactly one cell. */
  lemma EveryDayPlacedOnce(firstWeekday: int, length: int, d: int)
    requires 0 <= firstWeekday < 7 && 28 <= length <= 31 && 1 <= d <= length
    ensures 0 <= firstWeekday + d - 1 < 42
    ensures CellDay(firstWeekday, length, firstWeekday + d - 1) == Some(d)
    ensures forall i :: 0 <= i < 42 && CellDay(firstWeekday, length, i) == Some(d) ==> i == firstWeekday + d - 1
  {
  }

  /** Day `d` of a month is `d - 1` days after its first. */
  lemma DayNumberWithinMonth(m: Month, d: int)
    requires 1 <= m.month <= 12
    ensures DayNumber(DayOf(m, d)) == DayNumber(DayOf(m, 1)) + d - 1
  {
  }

  /** The calendar of month `m`: day 1 goes under its weekday. */
  method MonthGrid(m: Month) returns (grid: seq<seq<Option<int>>>)
    requires 1 <= m.month <= 12
    ensures |grid| == 6 && forall r :: 0 <= r < 6 ==> |grid[r]| == 7
    ensures forall r, c :: 0 <= r < 6 && 0 <= c < 7 && grid[r][c].Some? ==>
      1 <= grid[r][c].value <= DaysIn(m) && Weekday(DayOf(m, grid[r][c].value)) == c
    ensures forall r, c :: 0 <= r < 6 && 0 <= c < 7 ==>
      grid[r][c] == CellDay(Weekday(DayOf(m, 1)), DaysIn(m), 7 * r + c)
  {
    var first := Weekday(DayOf(m, 1));
    grid := FillGrid(first, DaysIn(m));
    forall r, c | 0 <= r < 6 && 0 <= c < 7 && grid[r][c].Some?
      ensures Weekday(DayOf(m, grid[r][c].value)) == c
    {
      WeekdayColumn(m, grid[r][c].value, r, c);
    }
  }

  /** A day in cell (r, c) of its month's grid falls on weekday c. */
  lemma WeekdayColumn(m: Month, d: int, r: int, c: int)
    requires 1 <= m.month <= 12 && 0 <= c < 7
    requires 7 * r + c == Weekday(DayOf(m, 1)) + d - 1
    ensures Weekday(DayOf(m, d)) == c
  {
    DayNumberWithinMonth(m, d);
    WeekdayAfter(DayNumber(DayOf(m, 1)), d - 1, r, c);
  }

  /** Counting `k` days on from a day with weekday `w` lands on column
      `(w + k) % 7` of the grid's row-major numbering. */
  lemma WeekdayAfter(n: int, k: int, r: int, c: int)
    requires 0 <= c < 7 && 7 * r + c == (n + 6) % 7 + k
    ensures (n + k + 6) % 7 == c
  {
  }
}

=== FILE: csv.dfy ===
/** The CSV export and import of the ledger, at the level of rows of text
    fields: the header, one row per entry in date order, and the import that
    writes each well-formed row into the ledger and skips the others. */
module CsvExchange {
  import opened Dates
  import opened KeyOrder
  import opened Wrappers
  import opened Numerals
  import opened DateText
  import opened CreditLedger

  type Row = seq<string>

  const Header: Row := ["Date", "Remaining Credits", "Used Today", "Note"]

  /** An entry's row: its key, its balance, its usage and its note or the
      empty text. */
  function ExportRow(l: Ledger, d: Date): (row: Row)
    requires d in l.dailyUsage && ValidDate(d)
    ensures |row| == |Header|
  {
    [FormatDate(d), FormatInt(l.dailyUsage[d].remaining), FormatInt(l.dailyUsage[d].used),
     if d in l.notes then l.notes[d] else ""]
  }

  /** `export_data`: the header, then the entries earliest first. */
  function Export(l: Ledger): (rows: seq<Row>)
    requires KeysValid(l)
    ensures |rows| == |l.dailyUsage| + 1 && rows[0] == Header
    ensures forall i :: 1 <= i < |rows| ==> |rows[i]| == 4
  {
    var ds := Ascending(l.dailyUsage.Keys);
    var body := seq(|ds|, i requires 0 <= i < |ds| => ExportRow(l, ds[i]));
    assert forall i :: 0 <= i < |body| ==> |body[i]| == 4;
    [Header] + body
  }

  /** What a data row of `import_data` says when it is accepted: at least
      three fields, a date and two integers. */
  function ParseRow(row: Row): (r: Option<(Date, Entry)>)
    ensures r.Some? <==>
      |row| >= 3 && ParseDate(row[0]).Some? && ParseInt(row[1]).Some? && ParseInt(row[2]).Some?
    ensures r.Some? ==>
      r.value == (ParseDate(row[0]).value, Entry(ParseInt(row[1]).value, ParseInt(row[2]).value))
  {
    if |row| < 3 then None
    else
      match (ParseDate(row[0]), ParseInt(row[1]), ParseInt(row[2]))
      case (Some(d), Some(remaining), Some(used)) => Some((d, Entry(remaining, used)))
      case _ => None
  }

  /** The note of a data row: a non-empty fourth field. */
  function RowNote(row: Row): (note: Option<string>)
    ensures note.Some? <==> |row| >= 4 && row[3] != []
    ensures note.Some? ==> note.value == row[3]
  {
    if |row| >= 4 && row[3] != [] then Some(row[3]) else None
  }

  /** One data row of `import_data`. An accepted row is written with `Put`,
      together with its note when it has one; any other row leaves the
      ledger as it was. */
  function ImportRow(l: Ledger, row: Row): (r: Ledger)
    ensures ParseRow(row).None? ==> r == l
    ensures ParseRow(row).Some? ==>
      var (d, e) := ParseRow(row).value;
      && r.dailyUsage == l.dailyUsage[d := e]
      && r.notes == (if RowNote(row).Some? then l.notes[d := RowNote(row).value] else l.notes)
      && r.remainingCredits == Put(l, d, e).remainingCredits
      && r.settings == l.settings
      && r.nextReset == l.nextReset && r.lastUpdated == l.lastUpdated
  {
    match ParseRow(row)
    case None => l
    case Some((d, e)) =>
      var stored := Put(l, d, e);
      match RowNote(row)
      case Some(note) => stored.(notes := stored.notes[d := note])
      case None => stored
  }

  /** The data rows, in file order. */
  function ImportRows(l: Ledger, rows: seq<Row>): Ledger
    decreases |rows|
  {
    if rows == [] then l else ImportRow(ImportRows(l, rows[..|rows| - 1]), rows[|rows| - 1])
  }

  /** A file without even a header line: `next(reader)` fails and nothing is
      imported. */
  datatype ImportError = EmptyFile

  /** `import_data` (after the user has confirmed): skip the header line,
      then import the data rows into the current ledger. */
  function Import(l: Ledger, rows: seq<Row>): (r: Result<Ledger, ImportError>)
    ensures r.Err? <==> rows == []
    ensures r.Ok? ==> r.value == ImportRows(l, rows[1..])
  {
    if rows == [] then Err(EmptyFile) else Ok(ImportRows(l, rows[1..]))
  }

  /** Each imported row goes through `Put`, so an import keeps the cached
      balance equal to the latest entry's. */
  lemma {:induction false} ImportKeepsCacheConsistent(l: Ledger, rows: seq<Row>)
    requires CacheConsistent(l)
    ensures CacheConsistent(ImportRows(l, rows))
    decreases |rows|
  {
    if rows != [] {
      var prev := ImportRows(l, rows[..|rows| - 1]);
      ImportKeepsCacheConsistent(l, rows[..|rows| - 1]);
      match ParseRow(rows[|rows| - 1])
      case None =>
      case Some((d, e)) =>
        PutKeepsCacheConsistent(prev, d, e);
    }
  }

  /** A row that is skipped is skipped on its own: the rows around it are
      imported as if it were not there. */
  lemma {:induction false} SkippedRowIsIgnored(l: Ledger, before: seq<Row>, bad: Row, after: seq<Row>)
    requires ImportRow(ImportRows(l, before), bad) == ImportRows(l, before)
    ensures ImportRows(l, before + [bad] + after) == ImportRows(l, before + after)
    decreases |after|
  {
    if after == [] {
      assert before + [bad] + after == before + [bad];
      assert (before + [bad])[..|before|] == before;
      assert before + after == before;
    } else {
      var init := after[..|after| - 1];
      SkippedRowIsIgnored(l, before, bad, init);
      assert (before + [bad] + after)[..|before + [bad] + after| - 1] == before + [bad] + init;
      assert (before + after)[..|before + after| - 1] == before + init;
    }
  }

  /** `row` is read as the entry of `l` on `d`, with its note if it has one. */
  predicate ReadsAs(row: Row, l: Ledger, d: Date)
    requires d in l.dailyUsage
  {
    && ParseRow(row) == Some((d, l.dailyUsage[d]))
    && RowNote(row) == (if d in l.notes then Some(l.notes[d]) else None)
  }

  /** `r` holds exactly the entries `ds` of `l` with their notes, and the
      last one's balance as the cached balance. */
  ghost predicate HoldsEntries(r: Ledger, l: Ledger, ds: seq<Date>)
    requires forall i :: 0 <= i < |ds| ==> ds[i] in l.dailyUsage
  {
    && (forall d :: d in r.dailyUsage <==> d in ds)
    && (forall d :: d in r.dailyUsage ==> d in l.dailyUsage && r.dailyUsage[d] == l.dailyUsage[d])
    && (forall d :: d in r.notes <==> d in ds && d in l.notes)
    && (forall d :: d in r.notes ==> d in l.notes && r.notes[d] == l.notes[d])
    && (ds != [] ==> r.remainingCredits == l.dailyUsage[ds[|ds| - 1]].remaining)
  }

  /** Importing rows that read as entries in increasing date order into a
      ledger without entries or notes reproduces those entries, their notes,
      and the latest one's balance as the cached balance. */
  lemma {:induction false} ImportIncreasingRows(l: Ledger, l0: Ledger, ds: seq<Date>, rows: seq<Row>)
    requires l0.dailyUsage == map[] && l0.notes == map[]
    requires StrictlyIncreasing(ds) && |rows| == |ds|
    requires forall i :: 0 <= i < |ds| ==> ds[i] in l.dailyUsage && ReadsAs(rows[i], l, ds[i])
    ensures HoldsEntries(ImportRows(l0, rows), l, ds)
    ensures ImportRows(l0, rows).settings == l0.settings
    decreases |ds|
  {
    if ds != [] {
      var n := |ds|;
      var init := ds[..n - 1];
      DropLastRow(l, ds, rows);
      ImportIncreasingRows(l, l0, init, rows[..n - 1]);
      ImportNextRow(l, l0, ds, rows);
    }
  }

  lemma DropLastRow(l: Ledger, ds: seq<Date>, rows: seq<Row>)
    requires ds != [] && StrictlyIncreasing(ds) && |rows| == |ds|
    requires forall i :: 0 <= i < |ds| ==> ds[i] in l.dailyUsage && ReadsAs(rows[i], l, ds[i])
    ensures var init := ds[..|ds| - 1];
      && StrictlyIncreasing(init)
      && forall i :: 0 <= i < |init| ==> init[i] in l.dailyUsage && ReadsAs(rows[..|ds| - 1][i], l, init[i])
  {
    assert forall i :: 0 <= i < |ds| - 1 ==> ds[..|ds| - 1][i] == ds[i] && rows[..|ds| - 1][i] == rows[i];
  }

  /** The induction step of `ImportIncreasingRows`. */
  lemma ImportNextRow(l: Ledger, l0: Ledger, ds: seq<Date>, rows: seq<Row>)
    requires ds != [] && StrictlyIncreasing(ds) && |rows| == |ds|
    requires forall i :: 0 <= i < |ds| ==> ds[i] in l.dailyUsage && ReadsAs(rows[i], l, ds[i])
    requires HoldsEntries(ImportRows(l0, rows[..|ds| - 1]), l, ds[..|ds| - 1])
    requires ImportRows(l0, rows[..|ds| - 1]).settings == l0.settings
    ensures HoldsEntries(ImportRows(l0, rows), l, ds)
    ensures ImportRows(l0, rows).settings == l0.settings
  {
    var n := |ds|;
    var prev := ImportRows(l0, rows[..n - 1]);
    EarlierKeys(prev, l, ds);
    ImportLaterRow(prev, l, ds[n - 1], rows[n - 1]);
    HoldsEntriesStep(prev, ImportRow(prev, rows[n - 1]), l, ds);
  }

  /** Entries imported from the rows before the last date are all earlier. */
  lemma EarlierKeys(prev: Ledger, l: Ledger, ds: seq<Date>)
    requires ds != [] && StrictlyIncreasing(ds) && forall i :: 0 <= i < |ds| ==> ds[i] in l.dailyUsage
    requires HoldsEntries(prev, l, ds[..|ds| - 1])
    ensures forall k :: k in prev.dailyUsage ==> Before(k, ds[|ds| - 1])
  {
    var init := ds[..|ds| - 1];
    forall k | k in prev.dailyUsage
      ensures Before(k, ds[|ds| - 1])
    {
      var i :| 0 <= i < |init| && init[i] == k;
      assert ds[i] == k;
    }
  }

  /** Importing the row of an entry later than every imported one adds the
      entry and its note, and makes its balance the cached one. */
  lemma ImportLaterRow(prev: Ledger, l: Ledger, d: Date, row: Row)
    requires d in l.dailyUsage && ReadsAs(row, l, d)
    requires forall k :: k in prev.dailyUsage ==> Before(k, d)
    ensures var r := ImportRow(prev, row);
      && r.dailyUsage == prev.dailyUsage[d := l.dailyUsage[d]]
      && r.notes == (if d in l.notes then prev.notes[d := l.notes[d]] else prev.notes)
      && r.remainingCredits == l.dailyUsage[d].remaining
      && r.settings == prev.settings
  {
    var r := ImportRow(prev, row);
    assert IsLatest(r.dailyUsage.Keys, d);
  }

  /** One more entry imported. */
  lemma HoldsEntriesStep(prev: Ledger, r: Ledger, l: Ledger, ds: seq<Date>)
    requires ds != [] && forall i :: 0 <= i < |ds| ==> ds[i] in l.dailyUsage
    requires HoldsEntries(prev, l, ds[..|ds| - 1])
    requires r.dailyUsage == prev.dailyUsage[ds[|ds| - 1] := l.dailyUsage[ds[|ds| - 1]]]
    requires r.notes == (if ds[|ds| - 1] in l.notes then prev.notes[ds[|ds| - 1] := l.notes[ds[|ds| - 1]]] else prev.notes)
    requires r.remainingCredits == l.dailyUsage[ds[|ds| - 1]].remaining
    ensures HoldsEntries(r, l, ds)
  {
    var init := ds[..|ds| - 1];
    assert forall x :: x in ds <==> x in init || x == ds[|ds| - 1];
  }

  /** An exported row reads back as its entry and, notes being non-empty,
      its note. */
  lemma ExportRowReadsBack(l: Ledger, d: Date)
    requires d in l.dailyUsage && ValidDate(d) && NotesNonEmpty(l)
    ensures ReadsAs(ExportRow(l, d), l, d)
  {
    ParseFormatDate(d);
    ParseFormatInt(l.dailyUsage[d].remaining);
    ParseFormatInt(l.dailyUsage[d].used);
  }

  /** Exporting a ledger and importing the file into a ledger without entries
      or notes gives the same entries, the notes of those entries, and a
      cached balance equal to the latest entry's. */
  lemma CsvRoundTrip(l: Ledger, l0: Ledger)
    requires KeysValid(l) && NotesNonEmpty(l)
    requires l0.dailyUsage == map[] && l0.notes == map[]
    ensures Import(l0, Export(l)).Ok?
    ensures var r := Import(l0, Export(l)).value;
      && r.dailyUsage == l.dailyUsage
      && (forall d :: d in r.notes <==> d in l.dailyUsage && d in l.notes)
      && (forall d :: d in r.notes ==> r.notes[d] == l.notes[d])
      && (l.dailyUsage != map[] ==> r.remainingCredits == LatestBalance(l))
  {
    var ds := Ascending(l.dailyUsage.Keys);
    var rows := Export(l);
    ExportedRowsReadBack(l);
    ImportIncreasingRows(l, l0, ds, rows[1..]);
    HoldsEveryEntry(Import(l0, rows).value, l);
  }

  /** Each data row of the export reads as its entry. */
  lemma ExportedRowsReadBack(l: Ledger)
    requires KeysValid(l) && NotesNonEmpty(l)
    ensures var ds := Ascending(l.dailyUsage.Keys);
      |Export(l)[1..]| == |ds| &&
      forall i :: 0 <= i < |ds| ==> ds[i] in l.dailyUsage && ReadsAs(Export(l)[1..][i], l, ds[i])
  {
    var ds := Ascending(l.dailyUsage.Keys);
    var rows := Export(l);
    forall i | 0 <= i < |ds|
      ensures ds[i] in l.dailyUsage && ReadsAs(rows[1..][i], l, ds[i])
    {
      assert rows[1..][i] == ExportRow(l, ds[i]);
      ExportRowReadsBack(l, ds[i]);
    }
  }

  /** Holding every entry of `l` means holding the same entry map. */
  lemma HoldsSameEntries(r: Ledger, l: Ledger, ds: seq<Date>)
    requires forall x :: x in ds <==> x in l.dailyUsage
    requires HoldsEntries(r, l, ds)
    ensures r.dailyUsage == l.dailyUsage
  {
    assert r.dailyUsage.Keys == l.dailyUsage.Keys;
  }

  /** Holding every entry in date order means holding the same entries, the
      notes of those entries, and the latest balance. */
  lemma HoldsEveryEntry(r: Ledger, l: Ledger)
    requires HoldsEntries(r, l, Ascending(l.dailyUsage.Keys))
    ensures r.dailyUsage == l.dailyUsage
    ensures forall d :: d in r.notes <==> d in l.dailyUsage && d in l.notes
    ensures forall d :: d in r.notes ==> r.notes[d] == l.notes[d]
    ensures l.dailyUsage != map[] ==> r.remainingCredits == LatestBalance(l)
  {
    var ds := Ascending(l.dailyUsage.Keys);
    HoldsSameEntries(r, l, ds);
    if l.dailyUsage != map[] {
      LatestOfAscending(l.dailyUsage.Keys);
    }
  }
}

=== FILE: dates.dfy ===
/** The proleptic Gregorian calendar as Python's `datetime` module implements
    it: leap years, month lengths, day numbers (`date.toordinal()`), weekdays,
    one-day steps and month steps. Dates are the keys of the credit ledger. */
module Dates {

  /** A calendar date, the value behind the ledger's `YYYY-MM-DD` keys. Any
      triple is representable; `ValidDate` says which ones `datetime` accepts. */
  datatype Date = Date(year: int, month: int, day: int)

  /** A year and a month: the calendar view's cursor and a period's month. */
  datatype Month = Month(year: int, month: int)

  /** The year range of Python's `datetime` (`MINYEAR`, `MAXYEAR`). */
  const MinYear: int := 1
  const MaxYear: int := 9999

  predicate IsLeapYear(y: int)
  {
    y % 4 == 0 && (y % 100 != 0 || y % 400 == 0)
  }

  function DaysInYear(y: int): (n: int)
    ensures n == 365 || n == 366
    ensures n == 366 <==> IsLeapYear(y)
  {
    if IsLeapYear(y) then 366 else 365
  }

  /** `calendar.monthrange(y, m)[1]`. */
  function DaysInMonth(y: int, m: int): (n: int)
    requires 1 <= m <= 12
    ensures 28 <= n <= 31
    ensures n < 30 <==> m == 2
    ensures m == 2 ==> (n == 29 <==> IsLeapYear(y))
  {
    if m == 2 then (if IsLeapYear(y) then 29 else 28)
    else if m == 4 || m == 6 || m == 9 || m == 11 then 30
    else 31
  }

  /** A month/day combination that exists in the given year. */
  predicate IsCalendarDate(d: Date)
  {
    1 <= d.month <= 12 && 1 <= d.day <= DaysInMonth(d.year, d.month)
  }

  /** A date `datetime` can represent. */
  predicate ValidDate(d: Date)
  {
    MinYear <= d.year <= MaxYear && IsCalendarDate(d)
  }

  predicate ValidMonth(m: Month)
  {
    MinYear <= m.year <= MaxYear && 1 <= m.month <= 12
  }

  function MonthOf(d: Date): Month
  {
    Month(d.year, d.month)
  }

  /** The date with the given day number inside month `m`. */
  function DayOf(m: Month, day: int): Date
  {
    Date(m.year, m.month, day)
  }

  function DaysIn(m: Month): int
    requires 1 <= m.month <= 12
  {
    DaysInMonth(m.year, m.month)
  }

  /** Strict chronological order. It is the lexicographic order on
      (year, month, day), which is also the order of the zero-padded key
      strings that the source compares with `max`. */
  predicate Before(a: Date, b: Date)
  {
    a.year < b.year || (a.year == b.year && (a.month < b.month || (a.month == b.month && a.day < b.day)))
  }

  predicate NotAfter(a: Date, b: Date)
  {
    !Before(b, a)
  }

  /** Days in the years before `y`, counting from year 1 (negative before it). */
  function DaysBeforeYear(y: int): int
  {
    var p := y - 1;
    365 * p + p / 4 - p / 100 + p / 400
  }

  /** Days in the months of year `y` before month `m`. */
  function DaysBeforeMonth(y: int, m: int): int
    requires 1 <= m <= 12
  {
    var cumulative := [0, 31, 59, 90, 120, 151, 181, 212, 243, 273, 304, 334];
    cumulative[m - 1] + (if m > 2 && IsLeapYear(y) then 1 else 0)
  }

  /** Python's `date.toordinal()`: 0001-01-01 is day 1. Differences of day
      numbers are the source's `(a - b).days`. */
  function DayNumber(d: Date): int
    requires 1 <= d.month <= 12
  {
    DaysBeforeYear(d.year) + DaysBeforeMonth(d.year, d.month) + d.day
  }

  /** `date.weekday()`: Monday is 0, Sunday is 6. */
  function Weekday(d: Date): (w: int)
    requires 1 <= d.month <= 12
    ensures 0 <= w < 7
  {
    (DayNumber(d) + 6) % 7
  }

  /** One more day in the numerator adds one to a floor quotient exactly
      when the new numerator is a multiple of the divisor. */
  lemma FloorDivStep(p: int, k: int)
    requires k == 4 || k == 100 || k == 400
    ensures (p + 1) / k == p / k + (if (p + 1) % k == 0 then 1 else 0)
  {
    var q, r := p / k, p % k;
    assert p == k * q + r && 0 <= r < k;
    if r == k - 1 {
      assert p + 1 == k * (q + 1) + 0;
    } else {
      assert p + 1 == k * q + (r + 1);
    }
  }

  lemma DaysBeforeNextYear(y: int)
    ensures DaysBeforeYear(y + 1) == DaysBeforeYear(y) + DaysInYear(y)
  {
    FloorDivStep(y - 1, 4);
    FloorDivStep(y - 1, 100);
    FloorDivStep(y - 1, 400);
  }

  lemma DaysBeforeMonthNext(y: int, m: int)
    requires 1 <= m < 12
    ensures DaysBeforeMonth(y, m + 1) == DaysBeforeMonth(y, m) + DaysInMonth(y, m)
  {
  }

  lemma DaysBeforeMonthLast(y: int)
    ensures DaysBeforeMonth(y, 12) + DaysInMonth(y, 12) == DaysInYear(y)
  {
  }

  /** Month starts grow by at least the length of each month passed. */
  lemma DaysBeforeMonthMonotone(y: int, m1: int, m2: int)
    requires 1 <= m1 < m2 <= 12
    ensures DaysBeforeMonth(y, m1) + DaysInMonth(y, m1) <= DaysBeforeMonth(y, m2)
  {
  }

  /** Year starts grow by at least the length of each year passed. */
  lemma {:induction false} DaysBeforeYearMonotone(a: int, b: int)
    requires a < b
    ensures DaysBeforeYear(a) + DaysInYear(a) <= DaysBeforeYear(b)
    decreases b - a
  {
    DaysBeforeNextYear(a);
    if a + 1 < b {
      DaysBeforeYearMonotone(a + 1, b);
    }
  }

  /** A calendar date lies inside its year's block of day numbers. */
  lemma DayNumberInYear(d: Date)
    requires IsCalendarDate(d)
    ensures DaysBeforeYear(d.year) < DayNumber(d) <= DaysBeforeYear(d.year) + DaysInYear(d.year)
  {
    if d.month < 12 {
      DaysBeforeMonthMonotone(d.year, d.month, 12);
    }
    DaysBeforeMonthLast(d.year);
  }

  lemma DayNumberIncreasing(a: Date, b: Date)
    requires IsCalendarDate(a) && IsCalendarDate(b)
    requires Before(a, b)
    ensures DayNumber(a) < DayNumber(b)
  {
    if a.year < b.year {
      DayNumberInYear(a);
      DayNumberInYear(b);
      DaysBeforeYearMonotone(a.year, b.year);
    } else if a.month < b.month {
      DaysBeforeMonthMonotone(a.year, a.month, b.month);
    }
  }

  /** Day numbers order calendar dates exactly as `Before` does, so `(b - a).days`
      is positive iff `a` is earlier, and zero iff the dates are equal. */
  lemma DayNumberOrder(a: Date, b: Date)
    requires IsCalendarDate(a) && IsCalendarDate(b)
    ensures Before(a, b) <==> DayNumber(a) < DayNumber(b)
    ensures a == b <==> DayNumber(a) == DayNumber(b)
  {
    if Before(a, b) {
      DayNumberIncreasing(a, b);
    } else if Before(b, a) {
      DayNumberIncreasing(b, a);
    }
  }

  /** `d + timedelta(days=1)`. */
  function NextDay(d: Date): (r: Date)
    requires IsCalendarDate(d)
    ensures IsCalendarDate(r)
    ensures DayNumber(r) == DayNumber(d) + 1
    ensures Before(d, r)
    ensures ValidDate(d) && d != Date(MaxYear, 12, 31) ==> ValidDate(r)
  {
    if d.day < DaysInMonth(d.year, d.month) then Date(d.year, d.month, d.day + 1)
    else if d.month < 12 then
      DaysBeforeMonthNext(d.year, d.month);
      Date(d.year, d.month + 1, 1)
    else
      DaysBeforeMonthLast(d.year);
      DaysBeforeNextYear(d.year);
      Date(d.year + 1, 1, 1)
  }

  /** `d - timedelta(days=1)`. */
  function PrevDay(d: Date): (r: Date)
    requires IsCalendarDate(d)
    ensures IsCalendarDate(r)
    ensures DayNumber(r) == DayNumber(d) - 1
    ensures Before(r, d)
    ensures ValidDate(d) && d != Date(MinYear, 1, 1) ==> ValidDate(r)
  {
    if d.day > 1 then Date(d.year, d.month, d.day - 1)
    else if d.month > 1 then
      DaysBeforeMonthNext(d.year, d.month - 1);
      Date(d.year, d.month - 1, DaysInMonth(d.year, d.month - 1))
    else
      DaysBeforeMonthLast(d.year - 1);
      DaysBeforeNextYear(d.year - 1);
      Date(d.year - 1, 12, 31)
  }

  /** No calendar date lies strictly between a date and the next one. */
  lemma NothingBetweenDays(d: Date, x: Date)
    requires IsCalendarDate(d) && IsCalendarDate(x)
    ensures !(Before(d, x) && Before(x, NextDay(d)))
  {
    DayNumberOrder(d, x);
    DayNumberOrder(x, NextDay(d));
  }

  /** `d - timedelta(days=n)`. */
  function DaysBack(d: Date, n: nat): (r: Date)
    requires IsCalendarDate(d)
    ensures IsCalendarDate(r)
    ensures DayNumber(r) == DayNumber(d) - n
  {
    if n == 0 then d else PrevDay(DaysBack(d, n - 1))
  }

  /** The month before `m`, wrapping January to December of the year before. */
  function PrevMonth(m: Month): (r: Month)
    requires 1 <= m.month <= 12
    ensures 1 <= r.month <= 12
    ensures MonthIndex(r) == MonthIndex(m) - 1
  {
    if m.month == 1 then Month(m.year - 1, 12) else Month(m.year, m.month - 1)
  }

  /** The month after `m`, wrapping December to January of the year after. */
  function NextMonth(m: Month): (r: Month)
    requires 1 <= m.month <= 12
    ensures 1 <= r.month <= 12
    ensures MonthIndex(r) == MonthIndex(m) + 1
  {
    if m.month == 12 then Month(m.year + 1, 1) else Month(m.year, m.month + 1)
  }

  /** Months counted from year 0, so that consecutive months differ by one. */
  function MonthIndex(m: Month): int
  {
    12 * m.year + m.month - 1
  }

  /** Two months in range with the same index are the same month. */
  lemma MonthIndexInjective(a: Month, b: Month)
    requires 1 <= a.month <= 12 && 1 <= b.month <= 12
    requires MonthIndex(a) == MonthIndex(b)
    ensures a == b
  {
  }

  /** Stepping back a month and forward again (or the other way round)
      returns to the starting month, across year boundaries too. */
  lemma MonthStepsInverse(m: Month)
    requires 1 <= m.month <= 12
    ensures NextMonth(PrevMonth(m)) == m
    ensures PrevMonth(NextMonth(m)) == m
  {
    MonthIndexInjective(NextMonth(PrevMonth(m)), m);
    MonthIndexInjective(PrevMonth(NextMonth(m)), m);
  }

  /** The same day of the following month is later by exactly the length of
      the earlier month, including from December into January. */
  lemma DayNumberNextMonth(m: Month, day: int)
    requires 1 <= m.month <= 12
    ensures DayNumber(DayOf(NextMonth(m), day)) == DayNumber(DayOf(m, day)) + DaysIn(m)
  {
    if m.month == 12 {
      DaysBeforeMonthLast(m.year);
      DaysBeforeNextYear(m.year);
    } else {
      DaysBeforeMonthNext(m.year, m.month);
    }
  }
}

=== FILE: datetext.dfy ===
/** The `YYYY-MM-DD` spelling of ledger keys: `strftime("%Y-%m-%d")` and its
    canonical `strptime` reading, with proofs that the two are inverse and
    that comparing key strings compares the dates. */
module DateText {
  import opened Dates
  import opened Numerals
  import opened Text
  import opened Wrappers

  function Pow10(w: nat): (p: nat)
    ensures p >= 1
  {
    if w == 0 then 1 else 10 * Pow10(w - 1)
  }

  /** `n` written in exactly `width` digits with leading zeros. */
  function Padded(n: nat, width: nat): (s: string)
    requires n < Pow10(width)
    ensures |s| == width && AllDigits(s)
    ensures DigitsValue(s) == n
  {
    if width == 0 then []
    else
      var prefix := Padded(n / 10, width - 1);
      DigitsValueSnoc(prefix, DigitChar(n % 10));
      prefix + [DigitChar(n % 10)]
  }

  /** A digit string is the padded spelling of its own value. */
  lemma {:induction false} PaddedOfDigits(s: string)
    requires AllDigits(s)
    ensures DigitsValue(s) < Pow10(|s|)
    ensures Padded(DigitsValue(s), |s|) == s
    decreases |s|
  {
    if s != [] {
      var init := s[..|s| - 1];
      PaddedOfDigits(init);
      assert s == init + [s[|s| - 1]];
      assert DigitsValue(s) / 10 == DigitsValue(init);
      assert DigitsValue(s) % 10 == DigitValue(s[|s| - 1]);
      assert DigitChar(DigitValue(s[|s| - 1])) == s[|s| - 1];
    }
  }

  /** Equally long padded numbers compare as strings as the numbers do. */
  lemma {:induction false} PaddedOrder(a: nat, b: nat, width: nat)
    requires a < Pow10(width) && b < Pow10(width)
    ensures LexLess(Padded(a, width), Padded(b, width)) <==> a < b
    decreases width
  {
    if width > 0 {
      var pa, pb := Padded(a / 10, width - 1), Padded(b / 10, width - 1);
      PaddedOrder(a / 10, b / 10, width - 1);
      LexLessConcat(pa, [DigitChar(a % 10)], pb, [DigitChar(b % 10)]);
      if pa == pb {
        PaddedInjective(a / 10, b / 10, width - 1);
      }
    }
  }

  lemma PaddedInjective(a: nat, b: nat, width: nat)
    requires a < Pow10(width) && b < Pow10(width)
    requires Padded(a, width) == Padded(b, width)
    ensures a == b
  {
  }

  /** `date.strftime("%Y-%m-%d")`. */
  function FormatDate(d: Date): (s: string)
    requires ValidDate(d)
    ensures |s| == 10 && s[4] == '-' && s[7] == '-'
  {
    Padded(d.year, 4) + "-" + Padded(d.month, 2) + "-" + Padded(d.day, 2)
  }

  /** `datetime.strptime(s, "%Y-%m-%d")` on the zero-padded spelling; `None`
      is the `ValueError` for text that is not a real calendar date. */
  function ParseDate(s: string): (r: Option<Date>)
    ensures r.Some? ==> ValidDate(r.value)
  {
    if |s| == 10 && s[4] == '-' && s[7] == '-'
       && AllDigits(s[..4]) && AllDigits(s[5..7]) && AllDigits(s[8..])
    then
      var d := Date(DigitsValue(s[..4]), DigitsValue(s[5..7]), DigitsValue(s[8..]));
      if ValidDate(d) then Some(d) else None
    else None
  }

  /** A date written as a key reads back as the same date. */
  lemma ParseFormatDate(d: Date)
    requires ValidDate(d)
    ensures ParseDate(FormatDate(d)) == Some(d)
  {
    var s := FormatDate(d);
    assert s[..4] == Padded(d.year, 4);
    assert s[5..7] == Padded(d.month, 2);
    assert s[8..] == Padded(d.day, 2);
  }

  /** Text that reads as a date is that date's only spelling. */
  lemma FormatParseDate(s: string)
    requires ParseDate(s).Some?
    ensures FormatDate(ParseDate(s).value) == s
  {
    PaddedOfDigits(s[..4]);
    PaddedOfDigits(s[5..7]);
    PaddedOfDigits(s[8..]);
    assert s == s[..4] + "-" + s[5..7] + "-" + s[8..];
  }

  /** Comparing two key strings compares the dates they spell. This is why
      the source's `max(daily_usage.keys())` on strings finds the latest
      date, and why the model may key the ledger by `Date`. */
  lemma KeyOrderIsDateOrder(a: Date, b: Date)
    requires ValidDate(a) && ValidDate(b)
    ensures LexLess(FormatDate(a), FormatDate(b)) <==> Before(a, b)
  {
    var ya, yb := Padded(a.year, 4), Padded(b.year, 4);
    var ra := "-" + Padded(a.month, 2) + "-" + Padded(a.day, 2);
    var rb := "-" + Padded(b.month, 2) + "-" + Padded(b.day, 2);
    assert FormatDate(a) == ya + ra;
    assert FormatDate(b) == yb + rb;
    LexLessConcat(ya, ra, yb, rb);
    PaddedOrder(a.year, b.year, 4);
    if ya == yb {
      PaddedInjective(a.year, b.year, 4);
      MonthDayOrder(a.month, a.day, b.month, b.day);
    }
  }

  /** The month-and-day tail of a key orders by month, then day. */
  lemma MonthDayOrder(m1: nat, d1: nat, m2: nat, d2: nat)
    requires m1 < 100 && d1 < 100 && m2 < 100 && d2 < 100
    ensures LexLess("-" + Padded(m1, 2) + "-" + Padded(d1, 2), "-" + Padded(m2, 2) + "-" + Padded(d2, 2))
            <==> m1 < m2 || (m1 == m2 && d1 < d2)
  {
    var ma, mb := Padded(m1, 2), Padded(m2, 2);
    var da, db := Padded(d1, 2), Padded(d2, 2);
    assert "-" + ma + "-" + da == "-" + (ma + ("-" + da));
    assert "-" + mb + "-" + db == "-" + (mb + ("-" + db));
    LexLessConcat("-", ma + ("-" + da), "-", mb + ("-" + db));
    LexLessIrreflexive("-");
    LexLessConcat(ma, "-" + da, mb, "-" + db);
    PaddedOrder(m1, m2, 2);
    if ma == mb {
      PaddedInjective(m1, m2, 2);
      LexLessConcat("-", da, "-", db);
      PaddedOrder(d1, d2, 2);
    }
  }
}

=== FILE: document.dfy ===
/** The stored document at the level of its top-level keys: the defaults
    `load_data` fills in, and the required keys a backup must carry. */
module StoredDocument {
  import opened Dates
  import opened Wrappers
  import CreditLedger
  import Period
  import DateText
  import Pacing

  /** A top-level value, as far as the checks below look at it. */
  datatype Value = Num(n: int) | Flag(b: bool) | Text(s: string) | Other

  type Document = map<string, Value>

  /** What reading the data file yields. */
  datatype Stored = Missing | Malformed | Parsed(doc: Document)

  /** The optional keys and the value each gets when absent. */
  const Defaults: Document := map[
    "theme" := Text("light"),
    "show_projections" := Flag(true),
    "notifications" := Flag(true),
    "low_credit_threshold" := Num(20)]

  /** The keys a backup must hold to be accepted. */
  const Required: set<string> := {"total_credits", "remaining_credits", "reset_day", "next_reset"}

  /** Adds each absent optional key with its default; keys already present,
      whatever their value, are kept as they are. */
  function Backfill(doc: Document): (r: Document)
    ensures r.Keys == doc.Keys + Defaults.Keys
    ensures forall k :: k in doc ==> r[k] == doc[k]
    ensures forall k :: k in Defaults && k !in doc ==> r[k] == Defaults[k]
  {
    map k | k in doc.Keys + Defaults.Keys :: if k in doc then doc[k] else Defaults[k]
  }

  /** Loading a backfilled document again changes nothing. */
  lemma BackfillIdempotent(doc: Document)
    ensures Backfill(Backfill(doc)) == Backfill(doc)
  {
    var once := Backfill(doc);
    var twice := Backfill(once);
    assert twice.Keys == once.Keys;
    forall k | k in once ensures twice[k] == once[k] { }
  }

  /** A document that already has every optional key is loaded unchanged. */
  lemma BackfillFixesComplete(doc: Document)
    requires Defaults.Keys <= doc.Keys
    ensures Backfill(doc) == doc
  {
    var r := Backfill(doc);
    assert r.Keys == doc.Keys;
    forall k | k in doc ensures r[k] == doc[k] { }
  }

  /** What `load_data` ends up with. */
  datatype Loaded = FromFile(doc: Document) | Initialised(initial: Result<CreditLedger.Ledger, CreditLedger.CalendarError>)

  /** `load_data`: a file that parses is backfilled; a missing file or one
      that is not valid JSON is replaced by the default ledger. */
  function LoadData(stored: Stored, today: Date): (r: Loaded)
    requires ValidDate(today)
    ensures r.FromFile? <==> stored.Parsed?
    ensures r.FromFile? ==> r.doc.Keys == stored.doc.Keys + Defaults.Keys
    ensures r.FromFile? ==> forall k :: k in stored.doc ==> r.doc[k] == stored.doc[k]
    ensures r.FromFile? ==> forall k :: k in Defaults && k !in stored.doc ==> r.doc[k] == Defaults[k]
    ensures r.Initialised? ==>
      && (r.initial.Ok? <==> ValidDate(Period.StoredNextReset(today, CreditLedger.DefaultResetDay)))
      && (r.initial.Ok? ==>
            && r.initial.value.dailyUsage == map[] && r.initial.value.notes == map[]
            && r.initial.value.settings.resetDay == CreditLedger.DefaultResetDay
            && r.initial.value.remainingCredits == CreditLedger.DefaultTotalCredits)
  {
    match stored
    case Parsed(doc) => FromFile(Backfill(doc))
    case _ => Initialised(CreditLedger.DefaultLedger(today))
  }

  datatype RestoreError = UnreadableBackup | InvalidBackup

  /** `restore_data`: a backup that does not read, or lacks one of the
      required keys, is refused; otherwise the data file becomes the backup
      and is loaded again, so the result is the backup backfilled. */
  function Restore(backup: Stored): (r: Result<Document, RestoreError>)
    ensures r.Ok? <==> backup.Parsed? && Required <= backup.doc.Keys
    ensures backup.Parsed? && !(Required <= backup.doc.Keys) ==> r == Err(InvalidBackup)
    ensures r.Ok? ==>
      && Required + Defaults.Keys + backup.doc.Keys <= r.value.Keys
      && forall k :: k in backup.doc ==> r.value[k] == backup.doc[k]
  {
    match backup
    case Parsed(doc) =>
      if Required <= doc.Keys then Ok(Backfill(doc)) else Err(InvalidBackup)
    case _ => Err(UnreadableBackup)
  }

  /** A restored document is what loading the backup as the data file gives. */
  lemma RestoreIsReload(backup: Stored, today: Date)
    requires ValidDate(today)
    requires Restore(backup).Ok?
    ensures LoadData(backup, today) == FromFile(Restore(backup).value)
  {
  }

  /** Why the tracker fails to start. */
  datatype LaunchError =
    | InvalidResetDate  // the default next reset (day 29) does not exist
    | NoStatusBar       // `save_data` reports to a status bar not yet created
    | MissingKey        // a key start-up reads is absent: KeyError
    | ZeroQuota         // the dashboard divides by a zero quota: ZeroDivisionError
    | NoSuchDate        // the next reset or a period end is not a date: ValueError

  /** The keys start-up reads besides the optional ones. */
  const StartupKeys: set<string> := Required + {"daily_usage"}

  /** The document survives the reads of start-up: every key is there, the
      quota is not zero, the stored next reset is a date, and so are both
      ends of the current period for the stored reset day. */
  predicate Startable(doc: Document, today: Date)
    requires ValidDate(today)
  {
    && StartupKeys <= doc.Keys
    && doc["total_credits"] != Num(0)
    && (doc["next_reset"].Text? ==> DateText.ParseDate(doc["next_reset"].s).Some?)
    && (doc["reset_day"].Num? ==> Period.PeriodExists(today, doc["reset_day"].n))
  }

  /** Backfilling adds only optional keys, so it does not change whether
      the start-up reads pass. */
  lemma StartableBackfilled(doc: Document, today: Date)
    requires ValidDate(today)
    ensures Startable(Backfill(doc), today) <==> Startable(doc, today)
  {
    assert forall k :: k in StartupKeys ==> k !in Defaults;
  }

  /** The document reads of start-up after `load_data`, in their order:
      `setup_settings` reads the quota and the reset day, then
      `update_dashboard_display` reads the balance, divides by the quota,
      parses the next reset, builds the current period and reads the
      entries. The first read that fails ends start-up. */
  function FirstRefresh(doc: Document, today: Date): (r: Option<LaunchError>)
    requires ValidDate(today)
    ensures r.None? <==> Startable(doc, today)
    ensures r.Some? ==> r.value in {MissingKey, ZeroQuota, NoSuchDate}
    ensures r == Some(ZeroQuota) <==>
      {"total_credits", "reset_day", "remaining_credits"} <= doc.Keys && doc["total_credits"] == Num(0)
    ensures !({"total_credits", "reset_day", "remaining_credits"} <= doc.Keys) ==> r == Some(MissingKey)
    ensures r == Some(MissingKey) ==> !(StartupKeys <= doc.Keys)
  {
    if "total_credits" !in doc || "reset_day" !in doc || "remaining_credits" !in doc then Some(MissingKey)
    else if doc["total_credits"] == Num(0) then Some(ZeroQuota)
    else if "next_reset" !in doc then Some(MissingKey)
    else if doc["next_reset"].Text? && DateText.ParseDate(doc["next_reset"].s).None? then Some(NoSuchDate)
    else if doc["reset_day"].Num? && !Period.PeriodExists(today, doc["reset_day"].n) then Some(NoSuchDate)
    else if "daily_usage" !in doc then Some(MissingKey)
    else None
  }

  /** Starting the tracker as the constructor is written. `load_data` runs
      before the status bar exists, so whenever it falls back to the
      defaults, the `save_data` that `initialize_default_data` ends with
      fails after writing the file, and start-up is aborted. A file that
      parses gets the tracker running only when it survives the reads of the
      settings tab and the first dashboard refresh. */
  function LaunchAsWritten(stored: Stored, today: Date): (r: Result<Loaded, LaunchError>)
    requires ValidDate(today)
    ensures r.Ok? <==> stored.Parsed? && Startable(stored.doc, today)
    ensures r.Ok? ==> r.value == FromFile(Backfill(stored.doc))
    ensures stored.Parsed? && !({"total_credits", "reset_day", "remaining_credits"} <= stored.doc.Keys) ==>
      r == Err(MissingKey)
    ensures !stored.Parsed? ==>
      r == Err(if ValidDate(Period.StoredNextReset(today, CreditLedger.DefaultResetDay))
               then NoStatusBar else InvalidResetDate)
  {
    match stored
    case Parsed(doc) =>
      var loaded := Backfill(doc);
      StartableBackfilled(doc, today);
      (match FirstRefresh(loaded, today)
       case None => Ok(FromFile(loaded))
       case Some(e) => Err(e))
    case _ =>
      match CreditLedger.DefaultLedger(today)
      case Ok(_) => Err(NoStatusBar)
      case Err(_) => Err(InvalidResetDate)
  }

  /** A file holding `{}` parses but stops start-up at the first read of
      the quota. */
  lemma EmptyObjectAborts()
    ensures LaunchAsWritten(Parsed(map[]), Date(2025, 6, 1)) == Err(MissingKey)
  {
  }

  /** A complete file with a zero quota stops start-up at the dashboard's
      usage percentage. */
  lemma ZeroQuotaFileAborts()
    ensures var doc := map["total_credits" := Num(0), "remaining_credits" := Num(0),
                           "reset_day" := Num(1), "next_reset" := Text("2025-07-01"),
                           "daily_usage" := Other];
      LaunchAsWritten(Parsed(doc), Date(2025, 6, 1)) == Err(ZeroQuota)
  {
  }

  /** The first start, with no data file, on 10 January 2025 aborts. */
  lemma FirstRunAborts()
    ensures LaunchAsWritten(Missing, Date(2025, 1, 10)) == Err(NoStatusBar)
  {
    assert Period.StoredNextReset(Date(2025, 1, 10), 29) == Date(2025, 1, 29);
  }

  /** With the status bar in place first, loading is `LoadData`: it agrees
      with the constructor as written whenever that starts, and where the
      written one aborts for the missing status bar it loads the default
      ledger. Whether start-up then completes is `LaunchIntended`. */
  lemma LaunchCorrected(stored: Stored, today: Date)
    requires ValidDate(today)
    ensures LaunchAsWritten(stored, today).Ok? ==>
      LaunchAsWritten(stored, today).value == LoadData(stored, today)
    ensures LaunchAsWritten(stored, today) == Err(NoStatusBar) ==>
      && LoadData(stored, today).Initialised?
      && LoadData(stored, today).initial.Ok?
      && LoadData(stored, today).initial.value.dailyUsage == map[]
  {
  }

  /** Start-up with the status bar created before loading. A file that
      parses goes through the same reads as before. Without one, the default
      ledger is built and saved, and the first dashboard refresh must still
      find its current period. */
  function LaunchIntended(stored: Stored, today: Date): (r: Result<Loaded, LaunchError>)
    requires ValidDate(today)
    ensures stored.Parsed? ==> r == LaunchAsWritten(stored, today)
    ensures !stored.Parsed? ==>
      (r.Ok? <==> ValidDate(Period.StoredNextReset(today, CreditLedger.DefaultResetDay))
                  && Period.PeriodExists(today, CreditLedger.DefaultResetDay))
    ensures r.Ok? ==> r.value == LoadData(stored, today)
    ensures r.Err? ==> r.error != NoStatusBar
  {
    match stored
    case Parsed(_) => LaunchAsWritten(stored, today)
    case _ =>
      match CreditLedger.DefaultLedger(today)
      case Err(_) => Err(InvalidResetDate)
      case Ok(l) =>
        if Pacing.RefreshDashboard(l, today).Ok? then Ok(Initialised(Ok(l))) else Err(NoSuchDate)
  }

  /** Even with the status bar in place, a first start without a data file
      on 10 March 2025 stops at the first refresh: its period would begin on
      29 February 2025. */
  lemma CorrectedFirstRunInMarch()
    ensures CreditLedger.DefaultLedger(Date(2025, 3, 10)).Ok?
    ensures LaunchIntended(Missing, Date(2025, 3, 10)) == Err(NoSuchDate)
  {
    assert Period.StoredNextReset(Date(2025, 3, 10), 29) == Date(2025, 3, 29);
    Period.MarchTenthHasNoPeriod();
  }

  /** Without a data file, the corrected start-up completes in a common year
      on every day except 29 January to 28 March. */
  lemma {:induction false} DefaultStartWindow(today: Date)
    requires ValidDate(today) && !IsLeapYear(today.year) && MinYear < today.year < MaxYear
    ensures LaunchIntended(Missing, today).Ok? <==>
      !(|| (today.month == 1 && today.day >= 29)
        || today.month == 2
        || (today.month == 3 && today.day < 29))
  {
    Pacing.ResetDay29Gap(today);
    var next := Period.StoredNextReset(today, CreditLedger.DefaultResetDay);
    if today.month == 1 && today.day >= 29 {
    } else if today.month == 2 {
    } else if today.month == 3 && today.day < 29 {
    } else {
      assert next.month != 2 && next.day == 29;
      assert next.year <= MaxYear;
    }
  }
}

=== FILE: handlers.dfy ===
/** The user actions as whole handlers: each changes and saves the data,
    then refreshes the dashboard, and that refresh can still raise after the
    change has been saved. What the user sees is the success message, the
    error box of the handler's `except` clause, or an exception that nothing
    catches. */
module Handlers {
  import opened Dates
  import opened Wrappers
  import opened Numerals
  import opened DateText
  import opened CreditLedger
  import CsvExchange
  import StoredDocument
  import Pacing
  import Period

  /** How a handler ends when it does not reach its success message. */
  datatype Failure =
    | ErrorShown  // the handler's `except` clause shows its error box
    | Uncaught    // the exception escapes the handler

  /** The refresh after a save passes: a non-zero quota, a next reset that
      is a date, and a current period whose two ends exist. */
  predicate RefreshPasses(l: Ledger, today: Date)
    requires ValidDate(today)
  {
    l.settings.totalCredits != 0 && ValidDate(l.nextReset) && Period.PeriodExists(today, l.settings.resetDay)
  }

  /** How a handler whose `except` catches only ValueError ends after a
      save: the refresh's ValueError is shown as the input error, and its
      division by zero escapes. */
  function AfterSave(saved: Ledger, today: Date): (f: Option<Failure>)
    requires ValidDate(today)
    ensures f.None? <==> RefreshPasses(saved, today)
    ensures f == Some(Uncaught) <==> saved.settings.totalCredits == 0
  {
    match Pacing.RefreshDashboard(saved, today)
    case Ok(_) => None
    case Err(ZeroQuota) => Some(Uncaught)
    case Err(NoSuchDate) => Some(ErrorShown)
  }

  /** `update_usage`: input that does not read changes nothing and shows the
      input error. Otherwise the entry is recorded and saved, and the refresh
      decides the outcome; the entry stays saved either way. */
  function UpdateUsageHandler(l: Ledger, dateText: string, remainingText: string, noteText: string,
                              today: Date): (r: (Ledger, Option<Failure>))
    requires ValidDate(today)
    ensures UpdateUsage(l, dateText, remainingText, noteText).Err? ==> r == (l, Some(ErrorShown))
    ensures UpdateUsage(l, dateText, remainingText, noteText).Ok? ==>
      r.0 == UpdateUsage(l, dateText, remainingText, noteText).value
    ensures r.1.None? <==>
      UpdateUsage(l, dateText, remainingText, noteText).Ok? && RefreshPasses(l, today)
    ensures r.1 == Some(Uncaught) <==>
      UpdateUsage(l, dateText, remainingText, noteText).Ok? && l.settings.totalCredits == 0
  {
    match UpdateUsage(l, dateText, remainingText, noteText)
    case Err(_) => (l, Some(ErrorShown))
    case Ok(saved) => (saved, AfterSave(saved, today))
  }

  /** With resets on the 29th, a reading entered for 10 March 2025 on that
      day is saved, yet the user is told the input is invalid: the refresh
      builds a period starting on 29 February 2025. */
  lemma ReadingSavedYetReported(l: Ledger, dateText: string)
    requires l.settings.resetDay == 29 && l.settings.totalCredits != 0
    requires ParseDate(dateText) == Some(Date(2025, 3, 10))
    ensures var r := UpdateUsageHandler(l, dateText, "500", "", Date(2025, 3, 10));
      && r.1 == Some(ErrorShown)
      && r.0.remainingCredits == 500
      && Date(2025, 3, 10) in r.0.dailyUsage
  {
    FiveHundredReads();
    Period.MarchTenthHasNoPeriod();
  }

  lemma FiveHundredReads()
    ensures ParseInt(StripCommas("500")) == Some(500)
  {
    assert StripCommas("500") == "500";
    assert "500"[..2] == "50" && "50"[..1] == "5" && "5"[..0] == [];
    assert DigitsValue("500") == 500;
  }

  /** `save_edited_usage`: a balance that does not read changes nothing and
      shows the input error; otherwise the edit is saved and the refresh
      decides the outcome. */
  function EditUsageHandler(l: Ledger, d: Date, remainingText: string, today: Date)
    : (r: (Ledger, Option<Failure>))
    requires IsCalendarDate(d) && ValidDate(today)
    ensures EditUsage(l, d, remainingText).Err? ==> r == (l, Some(ErrorShown))
    ensures EditUsage(l, d, remainingText).Ok? ==> r.0 == EditUsage(l, d, remainingText).value
    ensures r.1.None? <==> EditUsage(l, d, remainingText).Ok? && RefreshPasses(l, today)
    ensures r.1 == Some(Uncaught) <==> EditUsage(l, d, remainingText).Ok? && l.settings.totalCredits == 0
  {
    match EditUsage(l, d, remainingText)
    case Err(_) => (l, Some(ErrorShown))
    case Ok(saved) => (saved, AfterSave(saved, today))
  }

  /** `delete_usage_entry` and `delete_history_item` (after the user has
      confirmed): a date without an entry changes nothing and refreshes
      nothing; otherwise the entry is deleted and saved, and nothing catches
      a failing refresh. */
  function DeleteHandler(l: Ledger, d: Date, today: Date): (r: (Ledger, Option<Failure>))
    requires ValidDate(today)
    ensures d !in l.dailyUsage ==> r == (l, None)
    ensures r.0 == DeleteEntry(l, d)
    ensures r.1.None? <==> d !in l.dailyUsage || RefreshPasses(l, today)
    ensures r.1.Some? ==> r.1 == Some(Uncaught)
  {
    if d !in l.dailyUsage then (l, None)
    else
      var saved := DeleteEntry(l, d);
      (saved, if RefreshPasses(saved, today) then None else Some(Uncaught))
  }

  /** `reset_data` (after the user has confirmed): a next reset that does
      not exist raises before anything changes; otherwise the reset ledger
      is saved, and nothing catches a failing refresh. */
  function ResetHandler(l: Ledger, today: Date): (r: (Ledger, Option<Failure>))
    requires ValidDate(today)
    ensures ResetData(l, today).Err? ==> r == (l, Some(Uncaught))
    ensures ResetData(l, today).Ok? ==> r.0 == ResetData(l, today).value
    ensures r.1.None? <==>
      && ValidDate(Period.StoredNextReset(today, l.settings.resetDay))
      && l.settings.totalCredits != 0
      && Period.PeriodExists(today, l.settings.resetDay)
    ensures r.1.Some? ==> r.1 == Some(Uncaught)
  {
    match ResetData(l, today)
    case Err(_) => (l, Some(Uncaught))
    case Ok(saved) => (saved, if RefreshPasses(saved, today) then None else Some(Uncaught))
  }

  /** With resets on the 29th, resetting on 10 March 2025 saves the empty
      ledger with next reset 29 March, and then the refresh raises. */
  lemma ResetSavedThenAborts(l: Ledger)
    requires l.settings.resetDay == 29
    ensures var r := ResetHandler(l, Date(2025, 3, 10));
      && r.1 == Some(Uncaught)
      && r.0.dailyUsage == map[]
      && r.0.nextReset == Date(2025, 3, 29)
  {
    assert Period.StoredNextReset(Date(2025, 3, 10), 29) == Date(2025, 3, 29);
    Period.MarchTenthHasNoPeriod();
  }

  /** `import_data` (after the user has confirmed): a file without a header
      line shows the import error and changes nothing; otherwise the rows
      are imported and saved, and any failure of the refresh is caught by
      `except Exception` and shown as the import error. */
  function ImportHandler(l: Ledger, rows: seq<CsvExchange.Row>, today: Date): (r: (Ledger, Option<Failure>))
    requires ValidDate(today)
    ensures rows == [] ==> r == (l, Some(ErrorShown))
    ensures rows != [] ==> r.0 == CsvExchange.Import(l, rows).value
    ensures r.1.None? <==> rows != [] && RefreshPasses(r.0, today)
    ensures r.1.Some? ==> r.1 == Some(ErrorShown)
  {
    match CsvExchange.Import(l, rows)
    case Err(_) => (l, Some(ErrorShown))
    case Ok(saved) => (saved, if RefreshPasses(saved, today) then None else Some(ErrorShown))
  }

  /** `restore_data`: a backup that does not read or lacks a required key is
      refused and the data file is kept. Otherwise the data file becomes the
      backup and is loaded again, and a failing refresh is caught by
      `except Exception` and shown as the restore error, with the backup
      already in place. */
  function RestoreHandler(backup: StoredDocument.Stored, today: Date)
    : (r: (Option<StoredDocument.Document>, Option<Failure>))
    requires ValidDate(today)
    ensures r.0.Some? <==> backup.Parsed? && StoredDocument.Required <= backup.doc.Keys
    ensures r.0.Some? ==> r.0.value == StoredDocument.LoadData(backup, today).doc
    ensures r.1.None? <==> r.0.Some? && StoredDocument.Startable(backup.doc, today)
    ensures r.1.Some? ==> r.1 == Some(ErrorShown)
  {
    match StoredDocument.Restore(backup)
    case Err(_) => (None, Some(ErrorShown))
    case Ok(doc) =>
      StoredDocument.StartableBackfilled(backup.doc, today);
      (Some(doc), if StoredDocument.Startable(doc, today) then None else Some(ErrorShown))
  }
}

=== FILE: keyorder.dfy ===
/** Ordered views of the ledger's date keys: the latest key, the greatest key
    before a date, and the keys listed in chronological order. The source
    gets these from `max(...)` and `sorted(...)` over the key strings. */
module KeyOrder {
  import opened Dates
  import opened Wrappers

  /** `m` is the chronologically last element of `s`. */
  predicate IsLatest(s: set<Date>, m: Date)
  {
    m in s && forall x :: x in s ==> NotAfter(x, m)
  }

  /** Every non-empty finite set of dates has a last element. */
  lemma {:induction false} LatestExists(s: set<Date>)
    requires s != {}
    ensures exists m :: IsLatest(s, m)
    decreases |s|
  {
    var x :| x in s;
    if s == {x} {
      assert IsLatest(s, x);
    } else {
      LatestExists(s - {x});
      var m :| IsLatest(s - {x}, m);
      if Before(m, x) {
        forall y | y in s
          ensures NotAfter(y, x)
        {
          if y != x {
            assert NotAfter(y, m);
          }
        }
        assert IsLatest(s, x);
      } else {
        assert IsLatest(s, m);
      }
    }
  }

  /** A set has at most one last element. */
  lemma LatestUnique(s: set<Date>, a: Date, b: Date)
    requires IsLatest(s, a) && IsLatest(s, b)
    ensures a == b
  {
  }

  /** Being the last element and being `Latest` are the same thing. */
  lemma LatestIs(s: set<Date>, m: Date)
    requires s != {}
    ensures IsLatest(s, m) <==> Latest(s) == m
  {
    if IsLatest(s, m) {
      LatestUnique(s, m, Latest(s));
    }
  }

  /** `max(s)`. */
  function Latest(s: set<Date>): (m: Date)
    requires s != {}
    ensures IsLatest(s, m)
  {
    LatestExists(s);
    var m :| IsLatest(s, m);
    m
  }

  /** The greatest key strictly earlier than `d`, if any: the value that
      `get_previous_date` is meant to find. */
  function GreatestBefore(keys: set<Date>, d: Date): (r: Option<Date>)
    ensures r.None? <==> forall k :: k in keys ==> !Before(k, d)
    ensures r.Some? ==> r.value in keys && Before(r.value, d)
    ensures r.Some? ==> forall k :: k in keys && Before(k, d) ==> NotAfter(k, r.value)
  {
    var earlier := set k | k in keys && Before(k, d);
    assert forall k :: k in keys && Before(k, d) ==> k in earlier;
    if earlier == {} then None else Some(Latest(earlier))
  }

  /** When every key is before `d`, the greatest key before `d` is the last key. */
  lemma GreatestBeforeOfEarlierKeys(keys: set<Date>, d: Date, last: Date)
    requires IsLatest(keys, last)
    requires forall k :: k in keys ==> Before(k, d)
    ensures GreatestBefore(keys, d) == Some(last)
  {
    var g := GreatestBefore(keys, d);
    assert g.Some?;
    LatestUnique(keys, g.value, last);
  }

  predicate StrictlyIncreasing(xs: seq<Date>)
  {
    forall i, j :: 0 <= i < j < |xs| ==> Before(xs[i], xs[j])
  }

  predicate StrictlyDecreasing(xs: seq<Date>)
  {
    forall i, j :: 0 <= i < j < |xs| ==> Before(xs[j], xs[i])
  }

  /** A date after every element extends an increasing listing. */
  lemma AppendLater(xs: seq<Date>, m: Date)
    requires StrictlyIncreasing(xs) && forall x :: x in xs ==> Before(x, m)
    ensures StrictlyIncreasing(xs + [m])
  {
    var ys := xs + [m];
    forall i, j | 0 <= i < j < |ys|
      ensures Before(ys[i], ys[j])
    {
      assert ys[i] == xs[i];
    }
  }

  /** A date after every element heads a decreasing listing. */
  lemma PrependLater(m: Date, xs: seq<Date>)
    requires StrictlyDecreasing(xs) && forall x :: x in xs ==> Before(x, m)
    ensures StrictlyDecreasing([m] + xs)
  {
    var ys := [m] + xs;
    forall i, j | 0 <= i < j < |ys|
      ensures Before(ys[j], ys[i])
    {
      assert ys[j] == xs[j - 1];
    }
  }

  /** `sorted(keys)`: each key once, earliest first. */
  function Ascending(s: set<Date>): (xs: seq<Date>)
    ensures |xs| == |s|
    ensures forall x :: x in xs <==> x in s
    ensures StrictlyIncreasing(xs)
    decreases |s|
  {
    if s == {} then []
    else
      var m := Latest(s);
      var rest := Ascending(s - {m});
      assert forall x :: x in rest ==> Before(x, m);
      AppendLater(rest, m);
      rest + [m]
  }

  /** `sorted(keys, reverse=True)`: each key once, latest first. */
  function Descending(s: set<Date>): (xs: seq<Date>)
    ensures |xs| == |s|
    ensures forall x :: x in xs <==> x in s
    ensures StrictlyDecreasing(xs)
    decreases |s|
  {
    if s == {} then []
    else
      var m := Latest(s);
      var rest := Descending(s - {m});
      assert forall x :: x in rest ==> Before(x, m);
      PrependLater(m, rest);
      [m] + rest
  }

  /** The chronological listing ends with the latest key. */
  lemma LatestOfAscending(s: set<Date>)
    requires s != {}
    ensures Ascending(s)[|s| - 1] == Latest(s)
  {
    var xs := Ascending(s);
    assert IsLatest(s, xs[|xs| - 1]);
    LatestIs(s, xs[|xs| - 1]);
  }

  /** `min(s)`: the first element of the chronological listing. */
  function Earliest(s: set<Date>): (m: Date)
    requires s != {}
    ensures m in s && forall x :: x in s ==> NotAfter(m, x)
  {
    var xs := Ascending(s);
    assert xs[0] in s;
    xs[0]
  }
}

=== FILE: ledger.dfy ===
/** The credit ledger: sparse daily balance readings keyed by date, the usage
    derived from them, notes, the settings, and the cached latest balance
    (`remaining_credits`). Each GUI handler of the source that changes the
    store is a pure function here from the old ledger to the new one. */
module CreditLedger {
  import opened Dates
  import opened KeyOrder
  import opened Wrappers
  import opened Numerals
  import opened Text
  import opened DateText
  import Period

  /** One day's reading: the balance seen and the usage derived for the day. */
  datatype Entry = Entry(remaining: int, used: int)

  /** The settings kept across a data reset. */
  datatype Settings = Settings(
    totalCredits: int,
    resetDay: int,
    lowCreditThreshold: int,
    theme: string,
    showProjections: bool,
    notifications: bool)

  /** The whole store. `remainingCredits` is meant to cache the balance of the
      latest entry (see `CacheConsistent`); not every operation keeps it so. */
  datatype Ledger = Ledger(
    settings: Settings,
    remainingCredits: int,
    nextReset: Date,
    lastUpdated: Date,
    dailyUsage: map<Date, Entry>,
    notes: map<Date, string>)

  /** Rejected user input: the source's `ValueError` message box. */
  datatype InputError = InvalidInput

  /** A `datetime(...)` call on a reset day the month does not have. */
  datatype CalendarError = NoSuchResetDate

  const DefaultTotalCredits: int := 1000000
  const DefaultResetDay: int := 29
  const DefaultThreshold: int := 20

  /** Every key is a date `strptime` could have produced. */
  predicate KeysValid(l: Ledger)
  {
    forall d :: d in l.dailyUsage ==> ValidDate(d)
  }

  /** Notes are only ever stored non-empty. */
  predicate NotesNonEmpty(l: Ledger)
  {
    forall d :: d in l.notes ==> l.notes[d] != []
  }

  /** The balance of the latest entry, or the whole quota when there is none. */
  function LatestBalance(l: Ledger): int
  {
    if l.dailyUsage == map[] then l.settings.totalCredits
    else l.dailyUsage[Latest(l.dailyUsage.Keys)].remaining
  }

  /** The ledger invariant: the cached balance is the latest entry's. */
  predicate CacheConsistent(l: Ledger)
  {
    l.remainingCredits == LatestBalance(l)
  }

  /** The day before a date, when it is a key, is the greatest key before it. */
  lemma YesterdayIsGreatestBefore(keys: set<Date>, d: Date)
    requires IsCalendarDate(d) && PrevDay(d) in keys
    requires forall k :: k in keys ==> ValidDate(k)
    ensures GreatestBefore(keys, d) == Some(PrevDay(d))
  {
    var g := GreatestBefore(keys, d).value;
    DayNumberOrder(g, d);
    DayNumberOrder(g, PrevDay(d));
  }

  /** `get_previous_date`: the day before if it has an entry, otherwise the
      latest entry before `d`. The shortcut agrees with the general scan. */
  function PreviousDate(l: Ledger, d: Date): (r: Option<Date>)
    requires IsCalendarDate(d)
    ensures r.Some? ==> r.value in l.dailyUsage && Before(r.value, d)
    ensures KeysValid(l) ==> r == GreatestBefore(l.dailyUsage.Keys, d)
  {
    var yesterday := PrevDay(d);
    if yesterday in l.dailyUsage then
      if KeysValid(l) then YesterdayIsGreatestBefore(l.dailyUsage.Keys, d); Some(yesterday)
      else Some(yesterday)
    else GreatestBefore(l.dailyUsage.Keys, d)
  }

  /** The usage recorded with a reading of `remaining` on `d`: the previous
      entry's balance minus this one, or the quota minus this one when no
      earlier entry exists. */
  function DerivedUsage(l: Ledger, d: Date, remaining: int): (used: int)
    requires IsCalendarDate(d)
    ensures KeysValid(l) ==> used == (match GreatestBefore(l.dailyUsage.Keys, d)
                                      case Some(p) => l.dailyUsage[p].remaining
                                      case None => l.settings.totalCredits) - remaining
  {
    match PreviousDate(l, d)
    case Some(p) => l.dailyUsage[p].remaining - remaining
    case None => l.settings.totalCredits - remaining
  }

  /** The entries strictly before `d` and the quota are all the derivation
      reads: the reading's own old entry (the source's "update existing
      entry" branch) and any later entry make no difference, so both of the
      source's branches compute the same value. */
  lemma UsageDependsOnlyOnEarlierEntries(l1: Ledger, l2: Ledger, d: Date, remaining: int)
    requires IsCalendarDate(d) && KeysValid(l1) && KeysValid(l2)
    requires l1.settings.totalCredits == l2.settings.totalCredits
    requires forall k :: Before(k, d) ==> (k in l1.dailyUsage <==> k in l2.dailyUsage)
    requires forall k :: Before(k, d) && k in l1.dailyUsage ==> l1.dailyUsage[k] == l2.dailyUsage[k]
    ensures DerivedUsage(l1, d, remaining) == DerivedUsage(l2, d, remaining)
  {
    var g1, g2 := GreatestBefore(l1.dailyUsage.Keys, d), GreatestBefore(l2.dailyUsage.Keys, d);
    if g1.Some? && g2.Some? {
      assert NotAfter(g1.value, g2.value) && NotAfter(g2.value, g1.value);
    }
  }

  /** The store change of `update_usage` once its input has parsed: write the
      entry with derived usage, and overwrite the cached balance and
      `last_updated` unconditionally. Other entries keep their old `used`:
      the edit does not cascade. */
  function Record(l: Ledger, d: Date, remaining: int): (r: Ledger)
    requires IsCalendarDate(d)
    ensures r.dailyUsage.Keys == l.dailyUsage.Keys + {d}
    ensures r.dailyUsage[d] == Entry(remaining, DerivedUsage(l, d, remaining))
    ensures forall k :: k in l.dailyUsage && k != d ==> r.dailyUsage[k] == l.dailyUsage[k]
    ensures r.remainingCredits == remaining && r.lastUpdated == d
    ensures r.settings == l.settings && r.notes == l.notes && r.nextReset == l.nextReset
  {
    l.(dailyUsage := l.dailyUsage[d := Entry(remaining, DerivedUsage(l, d, remaining))],
       remainingCredits := remaining,
       lastUpdated := d)
  }

  /** `update_usage`: parse the date and the amount (commas allowed), record
      the reading, and store the stripped note when it is not empty. Bad input
      leaves the ledger as it was. */
  function UpdateUsage(l: Ledger, dateText: string, remainingText: string, noteText: string)
    : (r: Result<Ledger, InputError>)
    ensures r.Ok? <==> ParseDate(dateText).Some? && ParseInt(StripCommas(remainingText)).Some?
    ensures r.Ok? ==>
      var d, remaining := ParseDate(dateText).value, ParseInt(StripCommas(remainingText)).value;
      && r.value.dailyUsage == Record(l, d, remaining).dailyUsage
      && r.value.remainingCredits == remaining
      && r.value.lastUpdated == d
      && r.value.settings == l.settings && r.value.nextReset == l.nextReset
      && (Strip(noteText) != [] ==> r.value.notes == l.notes[d := Strip(noteText)])
      && (Strip(noteText) == [] ==> r.value.notes == l.notes)
  {
    match ParseInt(StripCommas(remainingText))
    case None => Err(InvalidInput)
    case Some(remaining) =>
      match ParseDate(dateText)
      case None => Err(InvalidInput)
      case Some(d) =>
        var recorded := Record(l, d, remaining);
        var note := Strip(noteText);
        Ok(if note != [] then recorded.(notes := recorded.notes[d := note]) else recorded)
  }

  /** `update_usage` keeps the cache right exactly when the new date is the
      latest or the reading repeats the latest balance; a back-dated reading
      with a different balance leaves `remainingCredits` stale. */
  lemma RecordCacheConsistency(l: Ledger, d: Date, remaining: int)
    requires IsCalendarDate(d) && CacheConsistent(l)
    ensures CacheConsistent(Record(l, d, remaining)) <==>
      (forall k :: k in l.dailyUsage ==> NotAfter(k, d)) || LatestBalance(l) == remaining
  {
    var r := Record(l, d, remaining);
    var latest := Latest(r.dailyUsage.Keys);
    if forall k :: k in l.dailyUsage ==> NotAfter(k, d) {
      LatestUnique(r.dailyUsage.Keys, latest, d);
    } else {
      var k :| k in l.dailyUsage && Before(d, k);
      var m := Latest(l.dailyUsage.Keys);
      assert IsLatest(r.dailyUsage.Keys, m);
      LatestUnique(r.dailyUsage.Keys, latest, m);
    }
  }

  /** Write an entry and refresh the cached balance only when the entry's date
      is now the latest key: the store step shared by `save_edited_usage` and
      each row of `import_data`. */
  function Put(l: Ledger, d: Date, e: Entry): (r: Ledger)
    ensures r.dailyUsage == l.dailyUsage[d := e]
    ensures r.remainingCredits == (if IsLatest(r.dailyUsage.Keys, d) then e.remaining else l.remainingCredits)
    ensures r.settings == l.settings && r.notes == l.notes
    ensures r.nextReset == l.nextReset && r.lastUpdated == l.lastUpdated
  {
    var daily := l.dailyUsage[d := e];
    assert d in daily.Keys;
    var latest := Latest(daily.Keys);
    LatestIs(daily.Keys, d);
    l.(dailyUsage := daily, remainingCredits := if latest == d then e.remaining else l.remainingCredits)
  }

  /** Unlike `update_usage`, the conditional refresh never breaks the cache. */
  lemma PutKeepsCacheConsistent(l: Ledger, d: Date, e: Entry)
    ensures CacheConsistent(l) ==> CacheConsistent(Put(l, d, e))
  {
    var r := Put(l, d, e);
    var latest := Latest(r.dailyUsage.Keys);
    if latest != d {
      var m := Latest(l.dailyUsage.Keys);
      assert IsLatest(r.dailyUsage.Keys, m);
      LatestUnique(r.dailyUsage.Keys, latest, m);
    }
  }

  /** `save_edited_usage`: parse the amount, write the entry with derived
      usage, and update the cached balance only if `d` is the latest key. */
  function EditUsage(l: Ledger, d: Date, remainingText: string): (r: Result<Ledger, InputError>)
    requires IsCalendarDate(d)
    ensures r.Ok? <==> ParseInt(StripCommas(remainingText)).Some?
    ensures r.Ok? ==>
      var remaining := ParseInt(StripCommas(remainingText)).value;
      && r.value.dailyUsage == l.dailyUsage[d := Entry(remaining, DerivedUsage(l, d, remaining))]
      && (r.value.remainingCredits == remaining || r.value.remainingCredits == l.remainingCredits)
      && (IsLatest(r.value.dailyUsage.Keys, d) ==> r.value.remainingCredits == remaining)
      && (!IsLatest(r.value.dailyUsage.Keys, d) ==> r.value.remainingCredits == l.remainingCredits)
      && (CacheConsistent(l) ==> CacheConsistent(r.value))
      && r.value.notes == l.notes && r.value.settings == l.settings
      && r.value.nextReset == l.nextReset && r.value.lastUpdated == l.lastUpdated
  {
    match ParseInt(StripCommas(remainingText))
    case None => Err(InvalidInput)
    case Some(remaining) =>
      var e := Entry(remaining, DerivedUsage(l, d, remaining));
      PutKeepsCacheConsistent(l, d, e);
      Ok(Put(l, d, e))
  }

  /** `delete_usage_entry` and `delete_history_item` (after the user has
      confirmed): remove the entry and recompute the cached balance from the
      new latest entry, or reset it to the quota when none is left. Notes stay. */
  function DeleteEntry(l: Ledger, d: Date): (r: Ledger)
    ensures d !in l.dailyUsage ==> r == l
    ensures d in l.dailyUsage ==>
      && r.dailyUsage == l.dailyUsage - {d}
      && CacheConsistent(r)
      && (r.dailyUsage == map[] ==> r.remainingCredits == l.settings.totalCredits)
      && r.notes == l.notes && r.settings == l.settings
      && r.nextReset == l.nextReset && r.lastUpdated == l.lastUpdated
  {
    if d !in l.dailyUsage then l
    else
      var daily := l.dailyUsage - {d};
      l.(dailyUsage := daily,
         remainingCredits := if daily != map[] then daily[Latest(daily.Keys)].remaining
                             else l.settings.totalCredits)
  }

  /** Deleting a reading just added on a new date gives back the entries and
      the cached balance from before. */
  lemma DeleteUndoesRecord(l: Ledger, d: Date, remaining: int)
    requires IsCalendarDate(d) && d !in l.dailyUsage && CacheConsistent(l)
    ensures DeleteEntry(Record(l, d, remaining), d).dailyUsage == l.dailyUsage
    ensures DeleteEntry(Record(l, d, remaining), d).remainingCredits == l.remainingCredits
  {
    var r := DeleteEntry(Record(l, d, remaining), d);
    assert r.dailyUsage == l.dailyUsage;
  }

  /** `save_history_note` and the storing part of `save_day_note`: keep the
      stripped text, or remove the note when it is empty. */
  function SaveNote(l: Ledger, d: Date, text: string): (r: Ledger)
    ensures d in r.notes <==> Strip(text) != []
    ensures d in r.notes ==> r.notes[d] == Strip(text)
    ensures forall k :: k != d ==> (k in r.notes <==> k in l.notes)
    ensures forall k :: k != d && k in l.notes ==> r.notes[k] == l.notes[k]
    ensures NotesNonEmpty(l) ==> NotesNonEmpty(r)
    ensures r.dailyUsage == l.dailyUsage && r.remainingCredits == l.remainingCredits
    ensures r.settings == l.settings && r.nextReset == l.nextReset && r.lastUpdated == l.lastUpdated
  {
    PutNote(l, d, Strip(text))
  }

  /** Stores `note` for `d`, or clears the day's note when it is empty. */
  function PutNote(l: Ledger, d: Date, note: string): (r: Ledger)
    ensures r.dailyUsage == l.dailyUsage && r.remainingCredits == l.remainingCredits
  {
    if note != [] then l.(notes := l.notes[d := note]) else l.(notes := l.notes - {d})
  }

  lemma PutNoteIdempotent(l: Ledger, d: Date, note: string)
    ensures PutNote(PutNote(l, d, note), d, note) == PutNote(l, d, note)
  {
    var once := PutNote(l, d, note);
    if note != [] {
      assert once.notes[d := note] == once.notes;
    } else {
      assert once.notes - {d} == once.notes;
    }
  }

  /** `save_day_note`: without a selected day nothing is saved. */
  function SaveDayNote(l: Ledger, selected: Option<Date>, text: string): (r: Ledger)
    ensures selected.None? ==> r == l
    ensures selected.Some? ==> (selected.value in r.notes <==> Strip(text) != [])
    ensures selected.Some? && selected.value in r.notes ==> r.notes[selected.value] == Strip(text)
    ensures selected.Some? ==> forall k :: k != selected.value ==> (k in r.notes <==> k in l.notes)
    ensures selected.Some? ==> forall k :: k != selected.value && k in l.notes ==> r.notes[k] == l.notes[k]
    ensures r.dailyUsage == l.dailyUsage && r.remainingCredits == l.remainingCredits
    ensures r.settings == l.settings && r.nextReset == l.nextReset && r.lastUpdated == l.lastUpdated
  {
    match selected
    case None => l
    case Some(d) => SaveNote(l, d, text)
  }

  /** Saving the same note twice is the same as saving it once. */
  lemma SaveNoteIdempotent(l: Ledger, d: Date, text: string)
    ensures SaveNote(SaveNote(l, d, text), d, text) == SaveNote(l, d, text)
  {
    PutNoteIdempotent(l, d, Strip(text));
  }

  /** `reset_data`: keep the settings, clear entries and notes, restore the full
      quota, and recompute `next_reset` from `today` (which `datetime` refuses
      when the reset day does not exist in that month). */
  function ResetData(l: Ledger, today: Date): (r: Result<Ledger, CalendarError>)
    requires ValidDate(today)
    ensures r.Ok? <==> ValidDate(Period.StoredNextReset(today, l.settings.resetDay))
    ensures r.Ok? ==>
      && r.value.settings == l.settings
      && r.value.dailyUsage == map[] && r.value.notes == map[]
      && r.value.remainingCredits == l.settings.totalCredits
      && CacheConsistent(r.value)
      && r.value.nextReset == Period.StoredNextReset(today, l.settings.resetDay)
      && Period.DaysUntil(today, r.value.nextReset) >= 0
      && r.value.lastUpdated == today
  {
    var next := Period.StoredNextReset(today, l.settings.resetDay);
    if !ValidDate(next) then Err(NoSuchResetDate)
    else
      Period.DaysUntilStoredReset(today, l.settings.resetDay);
      Ok(Ledger(l.settings, l.settings.totalCredits, next, today, map[], map[]))
  }

  /** `initialize_default_data`: a million credits resetting on the 29th, a 20%
      low-credit threshold, the light theme, projections and notifications
      on, and no readings. With the 29th fixed, `datetime` refuses it on
      1-28 February of common years and on 30-31 January before them. */
  function DefaultLedger(today: Date): (r: Result<Ledger, CalendarError>)
    requires ValidDate(today)
    ensures r.Ok? <==> ValidDate(Period.StoredNextReset(today, DefaultResetDay))
    ensures r.Ok? ==>
      && r.value.settings.totalCredits == DefaultTotalCredits
      && r.value.settings.resetDay == DefaultResetDay
      && r.value.settings.lowCreditThreshold == DefaultThreshold
      && r.value.dailyUsage == map[] && r.value.notes == map[]
      && CacheConsistent(r.value)
      && r.value.nextReset == Period.StoredNextReset(today, DefaultResetDay)
  {
    var next := Period.StoredNextReset(today, DefaultResetDay);
    if !ValidDate(next) then Err(NoSuchResetDate)
    else
      var settings := Settings(DefaultTotalCredits, DefaultResetDay, DefaultThreshold, "light", true, true);
      Ok(Ledger(settings, DefaultTotalCredits, next, today, map[], map[]))
  }

  /** A first run on 10 February 2025 cannot build the default store, since
      29 February 2025 does not exist. */
  lemma DefaultLedgerFailsInFebruary()
    ensures DefaultLedger(Date(2025, 2, 10)).Err?
  {
  }
}

=== FILE: ledger_laws.dfy ===
/** Laws about sequences of readings entered through `update_usage`: the
    telescoping sum of derived usage, and the order dependence that comes
    from edits not cascading to later entries. */
module LedgerLaws {
  import opened Dates
  import opened KeyOrder
  import opened Wrappers
  import opened CreditLedger

  /** One reading typed into the dashboard: a date and the balance seen. */
  datatype Reading = Reading(date: Date, remaining: int)

  predicate AllValid(rs: seq<Reading>)
  {
    forall i :: 0 <= i < |rs| ==> ValidDate(rs[i].date)
  }

  predicate IncreasingDates(rs: seq<Reading>)
  {
    forall i, j :: 0 <= i < j < |rs| ==> Before(rs[i].date, rs[j].date)
  }

  /** `update_usage` applied to each reading in turn. */
  function RecordAll(l: Ledger, rs: seq<Reading>): Ledger
    requires AllValid(rs)
    decreases |rs|
  {
    if rs == [] then l
    else
      var last := rs[|rs| - 1];
      Record(RecordAll(l, rs[..|rs| - 1]), last.date, last.remaining)
  }

  /** The set of the readings' dates. */
  function DatesOf(rs: seq<Reading>): (ds: set<Date>)
    ensures forall i :: 0 <= i < |rs| ==> rs[i].date in ds
    ensures forall x :: x in ds ==> exists i :: 0 <= i < |rs| && rs[i].date == x
    decreases |rs|
  {
    if rs == [] then {} else DatesOf(rs[..|rs| - 1]) + {rs[|rs| - 1].date}
  }

  /** The last of increasing readings has the latest date. */
  lemma LastIsLatest(rs: seq<Reading>)
    requires IncreasingDates(rs) && rs != []
    ensures IsLatest(DatesOf(rs), rs[|rs| - 1].date)
  {
    forall x | x in DatesOf(rs)
      ensures NotAfter(x, rs[|rs| - 1].date)
    {
      var i :| 0 <= i < |rs| && rs[i].date == x;
      if i < |rs| - 1 {
        assert Before(rs[i].date, rs[|rs| - 1].date);
      }
    }
  }

  /** The sum of the `used` values stored for the readings' dates. */
  function UsedSum(daily: map<Date, Entry>, rs: seq<Reading>): int
    requires forall i :: 0 <= i < |rs| ==> rs[i].date in daily
    decreases |rs|
  {
    if rs == [] then 0 else UsedSum(daily, rs[..|rs| - 1]) + daily[rs[|rs| - 1].date].used
  }

  lemma {:induction false} UsedSumFrame(d1: map<Date, Entry>, d2: map<Date, Entry>, rs: seq<Reading>)
    requires forall i :: 0 <= i < |rs| ==> rs[i].date in d1 && rs[i].date in d2
    requires forall i :: 0 <= i < |rs| ==> d1[rs[i].date] == d2[rs[i].date]
    ensures UsedSum(d1, rs) == UsedSum(d2, rs)
    decreases |rs|
  {
    if rs != [] {
      UsedSumFrame(d1, d2, rs[..|rs| - 1]);
    }
  }

  /** The ledger holds one entry per reading, with that reading's balance. */
  predicate HoldsReadings(r: Ledger, rs: seq<Reading>)
  {
    && r.dailyUsage.Keys == DatesOf(rs)
    && forall i :: 0 <= i < |rs| ==> rs[i].date in r.dailyUsage && r.dailyUsage[rs[i].date].remaining == rs[i].remaining
  }

  /** Every date of `ds` is before `d`. */
  predicate AllBefore(ds: set<Date>, d: Date)
  {
    forall k :: k in ds ==> Before(k, d)
  }

  lemma SplitLast(rs: seq<Reading>)
    requires rs != []
    ensures rs == rs[..|rs| - 1] + [rs[|rs| - 1]]
  {
  }

  /** Dropping the last of increasing readings keeps them increasing, and
      every earlier date is before the last one. */
  lemma IncreasingSplit(rs: seq<Reading>)
    requires IncreasingDates(rs) && rs != []
    ensures IncreasingDates(rs[..|rs| - 1])
    ensures AllBefore(DatesOf(rs[..|rs| - 1]), rs[|rs| - 1].date)
  {
    var init := rs[..|rs| - 1];
    forall k | k in DatesOf(init)
      ensures Before(k, rs[|rs| - 1].date)
    {
      var i :| 0 <= i < |init| && init[i].date == k;
      assert init[i] == rs[i];
    }
  }

  /** One more reading on a later date adds its entry and keeps the others. */
  lemma RecordStepEntries(before: Ledger, init: seq<Reading>, last: Reading)
    requires IsCalendarDate(last.date)
    requires HoldsReadings(before, init)
    requires AllBefore(DatesOf(init), last.date)
    ensures HoldsReadings(Record(before, last.date, last.remaining), init + [last])
  {
    var rs := init + [last];
    assert rs[..|rs| - 1] == init;
    assert DatesOf(rs) == DatesOf(init) + {last.date};
  }

  /** Readings on increasing dates into an empty ledger leave exactly one
      entry per reading, holding that reading's balance. */
  lemma {:induction false} RecordAllEntries(l: Ledger, rs: seq<Reading>)
    requires l.dailyUsage == map[] && AllValid(rs) && IncreasingDates(rs)
    ensures HoldsReadings(RecordAll(l, rs), rs)
    ensures RecordAll(l, rs).settings == l.settings && KeysValid(RecordAll(l, rs))
    decreases |rs|
  {
    if rs != [] {
      var init, last := rs[..|rs| - 1], rs[|rs| - 1];
      IncreasingSplit(rs);
      RecordAllEntries(l, init);
      SplitLast(rs);
      RecordStepEntries(RecordAll(l, init), init, last);
    }
  }

  /** Adding a later reading extends the telescoping sum by one step: its
      derived usage starts from the previous last balance (or the quota). */
  lemma UsedSumStep(before: Ledger, init: seq<Reading>, last: Reading)
    requires IsCalendarDate(last.date) && KeysValid(before)
    requires HoldsReadings(before, init)
    requires AllBefore(DatesOf(init), last.date)
    requires init != [] ==>
      && IsLatest(DatesOf(init), init[|init| - 1].date)
      && UsedSum(before.dailyUsage, init) == before.settings.totalCredits - init[|init| - 1].remaining
    ensures forall i :: 0 <= i < |init + [last]| ==> (init + [last])[i].date in Record(before, last.date, last.remaining).dailyUsage
    ensures UsedSum(Record(before, last.date, last.remaining).dailyUsage, init + [last])
            == before.settings.totalCredits - last.remaining
  {
    var after := Record(before, last.date, last.remaining);
    var rs := init + [last];
    assert rs[..|rs| - 1] == init;
    UsedSumFrame(after.dailyUsage, before.dailyUsage, init);
    if init == [] {
      assert GreatestBefore(before.dailyUsage.Keys, last.date) == None;
    } else {
      GreatestBeforeOfEarlierKeys(before.dailyUsage.Keys, last.date, init[|init| - 1].date);
    }
  }

  /** The usages stored for increasing readings add up to the quota minus the
      last balance. */
  lemma {:induction false} RecordAllUsedSum(l: Ledger, rs: seq<Reading>)
    requires l.dailyUsage == map[] && AllValid(rs) && IncreasingDates(rs) && rs != []
    ensures forall i :: 0 <= i < |rs| ==> rs[i].date in RecordAll(l, rs).dailyUsage
    ensures UsedSum(RecordAll(l, rs).dailyUsage, rs) == l.settings.totalCredits - rs[|rs| - 1].remaining
    decreases |rs|
  {
    var init, last := rs[..|rs| - 1], rs[|rs| - 1];
    IncreasingSplit(rs);
    RecordAllEntries(l, init);
    if init != [] {
      RecordAllUsedSum(l, init);
      LastIsLatest(init);
    }
    SplitLast(rs);
    UsedSumStep(RecordAll(l, init), init, last);
  }

  /** Entering readings on strictly increasing dates, starting from an empty
      ledger, the derived usages telescope: they sum to the quota minus the
      last balance, and the cached balance is that last balance. */
  lemma Telescoping(l: Ledger, rs: seq<Reading>)
    requires l.dailyUsage == map[] && AllValid(rs) && IncreasingDates(rs) && rs != []
    ensures forall i :: 0 <= i < |rs| ==> rs[i].date in RecordAll(l, rs).dailyUsage
    ensures UsedSum(RecordAll(l, rs).dailyUsage, rs) == l.settings.totalCredits - rs[|rs| - 1].remaining
    ensures RecordAll(l, rs).remainingCredits == rs[|rs| - 1].remaining
    ensures CacheConsistent(RecordAll(l, rs))
  {
    RecordAllEntries(l, rs);
    RecordAllUsedSum(l, rs);
    LastIsLatest(rs);
    LatestIs(RecordAll(l, rs).dailyUsage.Keys, rs[|rs| - 1].date);
  }

  /** The same three readings entered in a different order leave a different
      `used` on the last day, because a back-dated reading does not update
      the entries after it. */
  lemma EditsDoNotCascade(l: Ledger)
    requires l.dailyUsage == map[] && l.settings.totalCredits == 100
    ensures Record(Record(Record(l, Date(2025, 1, 1), 90), Date(2025, 1, 2), 80), Date(2025, 1, 3), 70)
              .dailyUsage[Date(2025, 1, 3)].used == 10
    ensures Record(Record(Record(l, Date(2025, 1, 3), 70), Date(2025, 1, 1), 90), Date(2025, 1, 2), 80)
              .dailyUsage[Date(2025, 1, 3)].used == 30
  {
    var d1, d2, d3 := Date(2025, 1, 1), Date(2025, 1, 2), Date(2025, 1, 3);
    assert PrevDay(d3) == d2;
    assert GreatestBefore(l.dailyUsage.Keys, d3) == None;
  }
}

=== FILE: numerals.dfy ===
/** Decimal integers as text: the subset of Python's `int(text)` and `str(n)`
    the ledger uses for balances, usages and settings, and the comma
    stripping applied to typed-in amounts. */
module Numerals {
  import opened Wrappers

  predicate IsDigit(c: char)
  {
    '0' <= c <= '9'
  }

  predicate AllDigits(s: string)
  {
    forall i :: 0 <= i < |s| ==> IsDigit(s[i])
  }

  function DigitValue(c: char): (v: nat)
    requires IsDigit(c)
    ensures v < 10
  {
    (c as int) - ('0' as int)
  }

  function DigitChar(v: nat): (c: char)
    requires v < 10
    ensures IsDigit(c) && DigitValue(c) == v
  {
    (('0' as int) + v) as char
  }

  /** The value of a run of decimal digits, most significant digit first. */
  function DigitsValue(s: string): nat
    requires AllDigits(s)
  {
    if s == [] then 0 else 10 * DigitsValue(s[..|s| - 1]) + DigitValue(s[|s| - 1])
  }

  lemma DigitsValueSnoc(s: string, c: char)
    requires AllDigits(s) && IsDigit(c)
    ensures AllDigits(s + [c])
    ensures DigitsValue(s + [c]) == 10 * DigitsValue(s) + DigitValue(c)
  {
    assert (s + [c])[..|s|] == s;
  }

  /** The shortest digit string for `n` (`"0"` for zero). */
  function NatText(n: nat): (s: string)
    ensures |s| >= 1 && AllDigits(s)
    ensures DigitsValue(s) == n
    ensures |s| > 1 ==> s[0] != '0'
  {
    if n < 10 then [DigitChar(n)]
    else
      var prefix := NatText(n / 10);
      DigitsValueSnoc(prefix, DigitChar(n % 10));
      prefix + [DigitChar(n % 10)]
  }

  /** Python's `str(n)` for an integer. */
  function FormatInt(n: int): (s: string)
    ensures |s| >= 1
    ensures s[0] == '-' <==> n < 0
    ensures n >= 0 ==> AllDigits(s) && DigitsValue(s) == n
    ensures n < 0 ==> AllDigits(s[1..]) && DigitsValue(s[1..]) == -n
  {
    if n < 0 then "-" + NatText(-n) else NatText(n)
  }

  /** Optional sign followed by at least one digit: the integer spellings
      the model accepts. */
  predicate IsIntegerText(s: string)
  {
    if |s| > 0 && (s[0] == '-' || s[0] == '+') then |s| > 1 && AllDigits(s[1..])
    else |s| > 0 && AllDigits(s)
  }

  /** Python's `int(s)`; `None` is the `ValueError` it raises. */
  function ParseInt(s: string): (r: Option<int>)
    ensures r.Some? <==> IsIntegerText(s)
    ensures r.Some? && AllDigits(s) ==> r.value == DigitsValue(s)
    ensures r.Some? && s[0] == '-' ==> r.value == -(DigitsValue(s[1..]) as int)
    ensures r.Some? && s[0] == '+' ==> r.value == DigitsValue(s[1..])
  {
    if |s| > 0 && (s[0] == '-' || s[0] == '+') then
      var body := s[1..];
      if body != [] && AllDigits(body) then
        Some(if s[0] == '-' then -(DigitsValue(body) as int) else DigitsValue(body))
      else None
    else if s != [] && AllDigits(s) then Some(DigitsValue(s))
    else None
  }

  /** Reading back what `str(n)` wrote gives `n`: the CSV export's numbers
      survive the import. */
  lemma ParseFormatInt(n: int)
    ensures ParseInt(FormatInt(n)) == Some(n)
  {
    var s := FormatInt(n);
    if n < 0 {
      assert s[0] == '-' && s[1..] == NatText(-n);
    }
  }

  /** `s.replace(',', '')`. */
  function StripCommas(s: string): (r: string)
    ensures |r| <= |s|
    ensures ',' !in r
    ensures ',' !in s ==> r == s
  {
    if s == [] then []
    else (if s[0] == ',' then [] else [s[0]]) + StripCommas(s[1..])
  }

  /** Every character but the separator survives `replace(',', '')`. */
  lemma {:induction false} StripCommasKeeps(s: string)
    ensures forall c :: c in StripCommas(s) <==> c in s && c != ','
    decreases |s|
  {
    if s != [] {
      StripCommasKeeps(s[1..]);
      assert s == [s[0]] + s[1..];
    }
  }

  /** `replace(',', '')` on a text with a known first character. */
  lemma StripCommasCons(c: char, t: string)
    ensures StripCommas([c] + t) == (if c == ',' then [] else [c]) + StripCommas(t)
  {
    assert ([c] + t)[0] == c && ([c] + t)[1..] == t;
  }

  /** `s.replace(',', '')` distributes over concatenation. */
  lemma {:induction false} StripCommasConcat(a: string, b: string)
    ensures StripCommas(a + b) == StripCommas(a) + StripCommas(b)
    decreases |a|
  {
    if a == [] {
      assert a + b == b;
      assert StripCommas(a) == [];
    } else {
      var t := a[1..];
      var h := if a[0] == ',' then [] else [a[0]];
      assert a + b == [a[0]] + (t + b);
      assert a == [a[0]] + t;
      calc {
        StripCommas(a + b);
        StripCommas([a[0]] + (t + b));
        { StripCommasCons(a[0], t + b); }
        h + StripCommas(t + b);
        { StripCommasConcat(t, b); }
        h + (StripCommas(t) + StripCommas(b));
        (h + StripCommas(t)) + StripCommas(b);
        { StripCommasCons(a[0], t); }
        StripCommas([a[0]] + t) + StripCommas(b);
        StripCommas(a) + StripCommas(b);
      }
    }
  }

  /** `v` in exactly three digits. */
  function ThreeDigits(v: nat): (s: string)
    requires v < 1000
    ensures |s| == 3 && AllDigits(s)
  {
    [DigitChar(v / 100), DigitChar(v / 10 % 10), DigitChar(v % 10)]
  }

  /** `f"{n:,}"` for a non-negative `n`: digits in groups of three. */
  function GroupedNat(n: nat): string
  {
    if n < 1000 then NatText(n) else GroupedNat(n / 1000) + "," + ThreeDigits(n % 1000)
  }

  /** `f"{n:,}"`: how balances and usages are displayed. */
  function Grouped(n: int): string
  {
    if n < 0 then "-" + GroupedNat(-n) else GroupedNat(n)
  }

  /** The last three decimal digits of `n` are those of `n % 1000`. */
  lemma ThousandsDigits(n: nat)
    ensures n / 10 / 10 == n / 100 && n / 100 / 10 == n / 1000
    ensures n / 100 % 10 == n % 1000 / 100
    ensures n / 10 % 10 == n % 1000 / 10 % 10
    ensures n % 10 == n % 1000 % 10
  {
  }

  /** The last three digits of `str(n)` split off as `ThreeDigits`. */
  lemma NatTextThousands(n: nat)
    requires n >= 1000
    ensures NatText(n) == NatText(n / 1000) + ThreeDigits(n % 1000)
  {
    ThousandsDigits(n);
    calc {
      NatText(n);
      NatText(n / 10) + [DigitChar(n % 10)];
      NatText(n / 100) + [DigitChar(n / 10 % 10)] + [DigitChar(n % 10)];
      NatText(n / 1000) + [DigitChar(n / 100 % 10)] + [DigitChar(n / 10 % 10)] + [DigitChar(n % 10)];
    }
  }

  /** Removing the separators from a displayed figure gives `str(n)` back. */
  lemma {:induction false} StripGroupedNat(n: nat)
    ensures StripCommas(GroupedNat(n)) == NatText(n)
    decreases n
  {
    if n >= 1000 {
      var high, low := GroupedNat(n / 1000), ThreeDigits(n % 1000);
      assert GroupedNat(n) == high + "," + low;
      StripGroupedNat(n / 1000);
      StripCommasConcat(high + ",", low);
      StripCommasConcat(high, ",");
      assert StripCommas(",") == "";
      assert StripCommas(low) == low;
      NatTextThousands(n);
      calc {
        StripCommas(high + "," + low);
        StripCommas(high + ",") + StripCommas(low);
        StripCommas(high) + StripCommas(",") + low;
        { assert StripCommas(high) + "" == StripCommas(high); }
        NatText(n / 1000) + low;
      }
    }
  }

  /** A displayed figure typed back into an amount field reads as the same
      number: `int(f"{n:,}".replace(',', '')) == n`. */
  lemma GroupedReadsBack(n: int)
    ensures StripCommas(Grouped(n)) == FormatInt(n)
    ensures ParseInt(StripCommas(Grouped(n))) == Some(n)
  {
    if n < 0 {
      StripGroupedNat(-n);
      StripCommasConcat("-", GroupedNat(-n));
    } else {
      StripGroupedNat(n);
    }
    ParseFormatInt(n);
  }
}

=== FILE: pacing.dfy ===
/** Pacing figures: the dashboard's daily target, "extra credits available"
    and status light, the per-day Over Budget / Warning / On Track rule, and
    the analytics panel's totals, extremes and end-of-period projection. */
module Pacing {
  import opened Dates
  import opened Wrappers
  import opened CreditLedger
  import Period

  /** `get_usage_status`, most severe first. */
  datatype UsageStatus = Critical | OverBudget | OnTrack | UnderBudget

  function Severity(s: UsageStatus): nat
  {
    match s
    case Critical => 3
    case OverBudget => 2
    case OnTrack => 1
    case UnderBudget => 0
  }

  /** `get_usage_status`: the first matching band of `extra` wins. */
  function UsageStatusOf(extra: real, target: real): (s: UsageStatus)
    ensures s == Critical <==> extra < -target * 5.0
    ensures target >= 0.0 ==> (s == OverBudget <==> -target * 5.0 <= extra < 0.0)
    ensures target >= 0.0 ==> (s == OnTrack <==> 0.0 <= extra < target * 3.0)
    ensures target >= 0.0 ==> (s == UnderBudget <==> extra >= target * 3.0)
  {
    if extra < -target * 5.0 then Critical
    else if extra < 0.0 then OverBudget
    else if extra < target * 3.0 then OnTrack
    else UnderBudget
  }

  /** More credits in hand never gives a more severe status. */
  lemma UsageStatusMonotone(e1: real, e2: real, target: real)
    requires target >= 0.0 && e1 <= e2
    ensures Severity(UsageStatusOf(e2, target)) <= Severity(UsageStatusOf(e1, target))
  {
  }

  /** The per-day colour rule of the calendar, the history list and the
      charts. */
  datatype DayStatus = DayOverBudget | DayWarning | DayOnTrack

  /** Over budget above 1.2 times the target, a warning above the target,
      otherwise on track. */
  function DayStatusOf(used: int, target: real): (s: DayStatus)
    ensures s == DayOverBudget <==> used as real > target * 1.2
    ensures target >= 0.0 ==> (s == DayWarning <==> target < used as real <= target * 1.2)
    ensures target >= 0.0 ==> (s == DayOnTrack <==> used as real <= target)
  {
    if used as real > target * 1.2 then DayOverBudget
    else if used as real > target then DayWarning
    else DayOnTrack
  }

  function DaySeverity(s: DayStatus): nat
  {
    match s
    case DayOverBudget => 2
    case DayWarning => 1
    case DayOnTrack => 0
  }

  /** Using more never gives a milder day status. */
  lemma DayStatusMonotone(u1: int, u2: int, target: real)
    requires target >= 0.0 && u1 <= u2
    ensures DaySeverity(DayStatusOf(u1, target)) <= DaySeverity(DayStatusOf(u2, target))
  {
  }

  /** The daily target the dashboard, calendar, history and analytics use:
      the quota spread over the days of the month `next_reset` falls in. */
  function DisplayTarget(l: Ledger): (t: real)
    requires 1 <= l.nextReset.month <= 12
    ensures t * DaysIn(MonthOf(l.nextReset)) as real == l.settings.totalCredits as real
    ensures l.settings.totalCredits >= 0 ==> t >= 0.0
  {
    l.settings.totalCredits as real / DaysIn(MonthOf(l.nextReset)) as real
  }

  /** The dashboard's figures. */
  datatype Dashboard = Dashboard(
    used: int,
    daysUntilReset: int,
    dailyTarget: real,
    extraAvailable: real,
    extraShown: real,
    status: UsageStatus)

  /** `update_dashboard_display` without the widgets: used credits, days to
      the stored reset, the daily target, the signed extra credits (ideal use
      so far minus actual use), the figure shown for them (never below zero)
      and the status, which is judged on the signed value. */
  function DashboardOf(l: Ledger, today: Date): (d: Dashboard)
    requires ValidDate(today) && 1 <= l.nextReset.month <= 12
    requires Period.PeriodExists(today, l.settings.resetDay)
    ensures d.used == l.settings.totalCredits - l.remainingCredits
    ensures d.daysUntilReset == Period.DaysUntil(today, l.nextReset)
    ensures d.dailyTarget == DisplayTarget(l)
    ensures d.extraAvailable
            == Period.IdealUsage(l.settings.totalCredits, l.settings.resetDay, today) - d.used as real
    ensures d.extraShown >= 0.0
    ensures d.extraAvailable > 0.0 ==> d.extraShown == d.extraAvailable
    ensures d.extraAvailable <= 0.0 ==> d.extraShown == 0.0
    ensures d.status == UsageStatusOf(d.extraAvailable, d.dailyTarget)
  {
    var used := l.settings.totalCredits - l.remainingCredits;
    var target := DisplayTarget(l);
    var ideal := Period.IdealUsage(l.settings.totalCredits, l.settings.resetDay, today);
    var extra := ideal - used as real;
    Dashboard(used, Period.DaysUntil(today, l.nextReset), target, extra,
              if extra > 0.0 then extra else 0.0, UsageStatusOf(extra, target))
  }

  /** Why `update_dashboard_display` raises instead of showing the dashboard. */
  datatype RefreshError =
    | ZeroQuota   // the usage percentage divides by a zero quota
    | NoSuchDate  // `strptime` on the next reset, or `datetime` for a period end, raises ValueError

  /** `update_dashboard_display` with its failures: it divides by the quota
      first, then parses the stored next reset, then builds both ends of the
      current period for `calculate_ideal_usage`. The `PeriodExists`
      requirement of `DashboardOf` and `Period.IdealUsage` is that last
      ValueError. */
  function RefreshDashboard(l: Ledger, today: Date): (r: Result<Dashboard, RefreshError>)
    requires ValidDate(today)
    ensures r == Err(ZeroQuota) <==> l.settings.totalCredits == 0
    ensures r == Err(NoSuchDate) <==>
      l.settings.totalCredits != 0
      && !(ValidDate(l.nextReset) && Period.PeriodExists(today, l.settings.resetDay))
    ensures r.Ok? ==> ValidDate(l.nextReset) && Period.PeriodExists(today, l.settings.resetDay)
                      && r.value == DashboardOf(l, today)
  {
    if l.settings.totalCredits == 0 then Err(ZeroQuota)
    else if !ValidDate(l.nextReset) || !Period.PeriodExists(today, l.settings.resetDay) then Err(NoSuchDate)
    else Ok(DashboardOf(l, today))
  }

  /** With resets on the 29th, the current period of a day from 29 January
      to 28 March of a common year starts or ends on 29 February, which does
      not exist; every other day of the year has its period. */
  lemma {:induction false} ResetDay29Gap(today: Date)
    requires ValidDate(today) && !IsLeapYear(today.year) && MinYear < today.year < MaxYear
    ensures !Period.PeriodExists(today, 29) <==>
      || (today.month == 1 && today.day >= 29)
      || today.month == 2
      || (today.month == 3 && today.day < 29)
  {
    var p := Period.CurrentPeriod(today, 29);
    if today.month == 1 && today.day >= 29 {
      assert p.nextReset == Date(today.year, 2, 29);
    } else if today.month == 2 {
      assert p.start == Date(today.year, 2, 29) || p.nextReset == Date(today.year, 2, 29);
    } else if today.month == 3 && today.day < 29 {
      assert p.start == Date(today.year, 2, 29);
    } else {
      assert p.start.month != 2 && p.nextReset.month != 2;
      assert MinYear <= p.start.year && p.nextReset.year <= MaxYear;
    }
  }

  /** Before anything has been used the status is never a warning colour. */
  lemma UnusedQuotaIsOnPace(l: Ledger, today: Date)
    requires ValidDate(today) && 1 <= l.nextReset.month <= 12
    requires Period.PeriodExists(today, l.settings.resetDay)
    requires l.settings.totalCredits > 0 && l.remainingCredits == l.settings.totalCredits
    ensures DashboardOf(l, today).status in {OnTrack, UnderBudget}
  {
    var d := DashboardOf(l, today);
    assert d.used == 0 && d.extraAvailable >= 0.0;
    assert d.dailyTarget >= 0.0;
  }

  /** Behind pace, the dashboard shows 0 extra credits while the status,
      judged on the signed figure, is Over Budget or Critical. */
  lemma ShownExtraHidesDeficit(l: Ledger, today: Date)
    requires ValidDate(today) && 1 <= l.nextReset.month <= 12
    requires Period.PeriodExists(today, l.settings.resetDay)
    requires l.settings.totalCredits > 0
    requires DashboardOf(l, today).extraAvailable < 0.0
    ensures DashboardOf(l, today).extraShown == 0.0
    ensures DashboardOf(l, today).status in {OverBudget, Critical}
  {
  }

  /** The dashboard's target and the ideal-usage pace use different day
      counts: with resets on the 29th, on 15 April 2025 the dashboard divides
      by April's 30 days while the period from 29 March has 31. */
  lemma TargetBasesDiffer()
    ensures Period.StoredNextReset(Date(2025, 4, 15), 29) == Date(2025, 4, 29)
    ensures DaysIn(MonthOf(Date(2025, 4, 29))) == 30
    ensures Period.PeriodProgress(Date(2025, 4, 15), 29).0 == 31
  {
  }

  // ---------------------------------------------------------------------
  // Analytics statistics

  function Sum(xs: seq<int>): int
    decreases |xs|
  {
    if xs == [] then 0 else Sum(xs[..|xs| - 1]) + xs[|xs| - 1]
  }

  /** The positive values, in order. */
  function Positives(xs: seq<int>): (ps: seq<int>)
    ensures |ps| <= |xs|
    ensures forall i :: 0 <= i < |ps| ==> ps[i] > 0
    ensures forall x :: x in ps <==> x in xs && x > 0
    decreases |xs|
  {
    if xs == [] then []
    else Positives(xs[..|xs| - 1]) + (if xs[|xs| - 1] > 0 then [xs[|xs| - 1]] else [])
  }

  /** The sum of positive values is positive when there is one. */
  lemma {:induction false} SumOfPositives(xs: seq<int>)
    requires forall i :: 0 <= i < |xs| ==> xs[i] > 0
    ensures Sum(xs) >= |xs|
    decreases |xs|
  {
    if xs != [] {
      SumOfPositives(xs[..|xs| - 1]);
    }
  }

  /** `total / count` as a real number. */
  function Mean(total: int, count: int): (m: real)
    requires count > 0
    ensures m * count as real == total as real
    ensures total > 0 ==> m > 0.0
  {
    total as real / count as real
  }

  /** A non-empty run of positive values has a positive sum. */
  lemma PositiveSum(ps: seq<int>)
    requires ps != [] && forall i :: 0 <= i < |ps| ==> ps[i] > 0
    ensures Sum(ps) > 0
  {
    SumOfPositives(ps);
  }

  /** Python's `any(usage_data)`: some usage is non-zero. */
  predicate AnyNonZero(xs: seq<int>)
  {
    exists i :: 0 <= i < |xs| && xs[i] != 0
  }

  lemma {:induction false} AllZeroHasNoPositives(xs: seq<int>)
    requires !AnyNonZero(xs)
    ensures Positives(xs) == []
    decreases |xs|
  {
    if xs != [] {
      var init := xs[..|xs| - 1];
      assert forall i :: 0 <= i < |init| ==> init[i] == xs[i];
      AllZeroHasNoPositives(init);
      assert xs[|xs| - 1] == 0;
    }
  }

  /** `avg_daily` as written: the total (negative days included) divided by
      the number of positive days, guarded only by `any(usage_data)`. `None`
      is the `ZeroDivisionError` raised when every non-zero usage is
      negative. */
  function AvgDailyAsWritten(usage: seq<int>): (r: Option<real>)
    ensures r.None? <==> AnyNonZero(usage) && Positives(usage) == []
  {
    if AnyNonZero(usage) then
      if |Positives(usage)| == 0 then None
      else Some(Sum(usage) as real / |Positives(usage)| as real)
    else Some(0.0)
  }

  /** A period whose only reading went up (a top-up, usage -5) crashes the
      analytics statistics. */
  lemma AvgDailyDivisionByZero()
    ensures AvgDailyAsWritten([-5]).None?
  {
    assert Positives([-5]) == [];
  }

  /** `avg_daily` guarded by the count it divides by: zero without positive
      days, otherwise the total over the number of positive days. */
  function AvgDaily(usage: seq<int>): (avg: real)
    ensures Positives(usage) == [] ==> avg == 0.0
    ensures Positives(usage) != [] ==> avg * |Positives(usage)| as real == Sum(usage) as real
  {
    if |Positives(usage)| == 0 then 0.0 else Mean(Sum(usage), |Positives(usage)|)
  }

  /** The guarded average is defined everywhere and agrees with the source
      wherever the source does not crash. */
  lemma AvgDailyCorrected(usage: seq<int>)
    ensures AvgDailyAsWritten(usage).Some? ==> AvgDailyAsWritten(usage).value == AvgDaily(usage)
  {
    if !AnyNonZero(usage) {
      AllZeroHasNoPositives(usage);
    }
  }

  /** `usage_data.index(max(usage_data))`: the first day with the highest usage. */
  method HighestDay(usage: seq<int>) returns (k: nat)
    requires usage != []
    ensures k < |usage|
    ensures forall j :: 0 <= j < |usage| ==> usage[j] <= usage[k]
    ensures forall j :: 0 <= j < k ==> usage[j] < usage[k]
  {
    k := 0;
    var i := 1;
    while i < |usage|
      invariant 1 <= i <= |usage| && k < i
      invariant forall j :: 0 <= j < i ==> usage[j] <= usage[k]
      invariant forall j :: 0 <= j < k ==> usage[j] < usage[k]
    {
      if usage[i] > usage[k] {
        k := i;
      }
      i := i + 1;
    }
  }

  /** The lowest-day scan: start at the first positive day (or day 0) and move
      to any later positive day with strictly smaller usage. The result is
      the first day with the smallest positive usage, or 0 without one. */
  method LowestPositiveDay(usage: seq<int>) returns (k: nat)
    requires usage != []
    ensures k < |usage|
    ensures (forall j :: 0 <= j < |usage| ==> usage[j] <= 0) ==> k == 0
    ensures (exists j :: 0 <= j < |usage| && usage[j] > 0) ==>
      && usage[k] > 0
      && (forall j :: 0 <= j < |usage| && usage[j] > 0 ==> usage[k] <= usage[j])
      && (forall j :: 0 <= j < k && usage[j] > 0 ==> usage[j] > usage[k])
  {
    k := 0;
    var f := 0;
    while f < |usage| && usage[f] <= 0
      invariant 0 <= f <= |usage|
      invariant forall j :: 0 <= j < f ==> usage[j] <= 0
    {
      f := f + 1;
    }
    if f < |usage| {
      k := f;
    }
    var i := 0;
    while i < |usage|
      invariant 0 <= i <= |usage| && k < |usage|
      invariant forall j :: 0 <= j < f ==> usage[j] <= 0
      invariant f < |usage| ==> usage[k] > 0 && f <= k
      invariant f == |usage| ==> k == 0
      invariant forall j :: 0 <= j < i && usage[j] > 0 ==> usage[k] <= usage[j]
      invariant forall j :: 0 <= j < k && usage[j] > 0 ==> usage[j] > usage[k]
      invariant k < i || k == f || (f == |usage| && k == 0)
    {
      if usage[i] > 0 && usage[i] < usage[k] {
        k := i;
      }
      i := i + 1;
    }
  }

  /** Days whose usage is above the target. */
  function CountOver(usage: seq<int>, target: real): (n: nat)
    ensures n <= |usage|
    decreases |usage|
  {
    if usage == [] then 0
    else CountOver(usage[..|usage| - 1], target) + (if usage[|usage| - 1] as real > target then 1 else 0)
  }

  /** Days with some usage, but not above the target. */
  function CountUnder(usage: seq<int>, target: real): (n: nat)
    ensures n <= |usage|
    decreases |usage|
  {
    if usage == [] then 0
    else
      var u := usage[|usage| - 1];
      CountUnder(usage[..|usage| - 1], target) + (if 0 < u && u as real <= target then 1 else 0)
  }

  /** Days without usage. */
  function CountIdle(usage: seq<int>): (n: nat)
    decreases |usage|
  {
    if usage == [] then 0 else CountIdle(usage[..|usage| - 1]) + (if usage[|usage| - 1] <= 0 then 1 else 0)
  }

  /** With a non-negative target every day is over, under or idle, exactly
      once. */
  lemma {:induction false} DayCountsPartition(usage: seq<int>, target: real)
    requires target >= 0.0
    ensures CountOver(usage, target) + CountUnder(usage, target) + CountIdle(usage) == |usage|
    decreases |usage|
  {
    if usage != [] {
      DayCountsPartition(usage[..|usage| - 1], target);
    }
  }

  /** `usage_data[-7:]`. */
  function LastSeven(xs: seq<int>): (r: seq<int>)
    ensures |r| == if |xs| < 7 then |xs| else 7
    ensures r == xs[|xs| - |r|..]
  {
    if |xs| <= 7 then xs else xs[|xs| - 7..]
  }

  /** `m` is the mean of `xs`. */
  predicate IsMeanOf(m: real, xs: seq<int>)
  {
    m * |xs| as real == Sum(xs) as real
  }

  /** The mean of a non-empty run of positive values, itself positive. */
  function PositiveMean(ps: seq<int>): (m: real)
    requires ps != [] && forall i :: 0 <= i < |ps| ==> ps[i] > 0
    ensures m > 0.0
    ensures IsMeanOf(m, ps)
  {
    PositiveSum(ps);
    Mean(Sum(ps), |ps|)
  }

  /** The mean of the positive usages among the last seven days. */
  function RecentAverage(usage: seq<int>): (avg: real)
    requires Positives(LastSeven(usage)) != []
    ensures avg > 0.0
    ensures IsMeanOf(avg, Positives(LastSeven(usage)))
  {
    PositiveMean(Positives(LastSeven(usage)))
  }

  /** The analytics projection to the end of the period. */
  datatype Projection =
    | NoProjection
    | ResetReached(finalBalance: int, usedSoFar: int)
    | InsufficientData(recommended: real)
    | Projected(endBalance: real, projectedUsage: real, recommended: real)

  /** `p` projects a balance of `last`, with `used` spent so far, forward
      by `days` days at `avg` a day: the balance left, never below zero and
      never above a non-negative `last`, the usage by then, and the even
      daily share of `last`. */
  predicate ProjectsForward(p: Projection, last: int, used: int, avg: real, days: int)
  {
    var spend := avg * days as real;
    && p.Projected?
    && p.endBalance >= 0.0
    && (last >= 0 ==> p.endBalance <= last as real)
    && (p.endBalance == 0.0 || p.endBalance == last as real - spend)
    && (last as real - spend >= 0.0 ==> p.endBalance == last as real - spend)
    && p.projectedUsage == used as real + spend
    && p.recommended * days as real == last as real
  }

  function ProjectForward(last: int, used: int, avg: real, days: int): (p: Projection)
    requires avg > 0.0 && days > 0
    ensures ProjectsForward(p, last, used, avg, days)
  {
    var spend := avg * days as real;
    var projected := last as real - spend;
    Projected(if projected < 0.0 then 0.0 else projected,
              used as real + spend,
              last as real / days as real)
  }

  /** The projection of `update_analytics_stats`: on or after the stored reset
      day report "Reset day reached"; without positive usage in the last
      seven days report "Insufficient data" and fall back to the target;
      otherwise project the recent average forward, never below zero, and
      recommend spreading the last balance evenly over the days left. */
  function ProjectionOf(usage: seq<int>, remaining: seq<int>, target: real, daysUntilReset: int)
    : (p: Projection)
    ensures remaining == [] <==> p == NoProjection
    ensures remaining != [] && daysUntilReset <= 0 ==>
      p == ResetReached(remaining[|remaining| - 1], Sum(usage))
    ensures remaining != [] && daysUntilReset > 0 && Positives(LastSeven(usage)) == [] ==>
      p == InsufficientData(target)
    ensures p.Projected? <==> remaining != [] && daysUntilReset > 0 && Positives(LastSeven(usage)) != []
    ensures p.Projected? ==>
      ProjectsForward(p, remaining[|remaining| - 1], Sum(usage), RecentAverage(usage), daysUntilReset)
  {
    if remaining == [] then NoProjection
    else
      var last := remaining[|remaining| - 1];
      if daysUntilReset <= 0 then ResetReached(last, Sum(usage))
      else if Positives(LastSeven(usage)) == [] then InsufficientData(target)
      else ProjectForward(last, Sum(usage), RecentAverage(usage), daysUntilReset)
  }

  /** The analytics statistics. */
  datatype Stats =
    | NoData
    | Stats(
        totalUsed: int,
        avgDaily: real,
        highestDay: Option<nat>,
        lowestDay: Option<nat>,
        daysOver: nat,
        daysUnder: nat,
        projection: Projection)

  /** `k` is the first day with the highest usage. */
  predicate IsFirstHighest(usage: seq<int>, k: nat)
  {
    && k < |usage|
    && (forall j :: 0 <= j < |usage| ==> usage[j] <= usage[k])
    && (forall j :: 0 <= j < k ==> usage[j] < usage[k])
  }

  /** `k` is the first day with the smallest positive usage. */
  predicate IsFirstLowestPositive(usage: seq<int>, k: nat)
  {
    && k < |usage|
    && usage[k] > 0
    && (forall j :: 0 <= j < |usage| && usage[j] > 0 ==> usage[k] <= usage[j])
    && (forall j :: 0 <= j < k && usage[j] > 0 ==> usage[j] > usage[k])
  }

  /** What the statistics panel shows for a non-empty series: the total, the
      guarded average, the extremes (only when some usage is non-zero; the
      lowest day falls back to day 0 when no usage is positive), the days
      over and under the target, and the projection. */
  predicate Summarises(s: Stats, usage: seq<int>, remaining: seq<int>, target: real, daysUntilReset: int)
    requires s.Stats?
  {
    && s.totalUsed == Sum(usage)
    && s.avgDaily == AvgDaily(usage)
    && (s.highestDay.Some? <==> AnyNonZero(usage))
    && (s.lowestDay.Some? <==> AnyNonZero(usage))
    && (s.highestDay.Some? ==> IsFirstHighest(usage, s.highestDay.value))
    && (s.lowestDay.Some? && Positives(usage) != [] ==> IsFirstLowestPositive(usage, s.lowestDay.value))
    && (AnyNonZero(usage) && Positives(usage) == [] ==> s.lowestDay == Some(0))
    && s.daysOver == CountOver(usage, target)
    && s.daysUnder == CountUnder(usage, target)
    && s.projection == ProjectionOf(usage, remaining, target, daysUntilReset)
  }

  /** `update_analytics_stats`, with `avg_daily` guarded (see `AvgDaily`). Days
      are indexes into the series; the extremes are reported only when some
      usage is non-zero. */
  method AnalyticsStats(usage: seq<int>, remaining: seq<int>, target: real, daysUntilReset: int)
    returns (s: Stats)
    ensures usage == [] <==> s == NoData
    ensures s.Stats? ==> Summarises(s, usage, remaining, target, daysUntilReset)
  {
    if usage == [] {
      return NoData;
    }
    var highest: Option<nat> := None;
    var lowest: Option<nat> := None;
    if AnyNonZero(usage) {
      var h := HighestDay(usage);
      var m := LowestPositiveDay(usage);
      highest, lowest := Some(h), Some(m);
      if Positives(usage) != [] {
        var x := Positives(usage)[0];
        assert x in usage;
      } else {
        forall j | 0 <= j < |usage|
          ensures usage[j] <= 0
        {
          assert usage[j] in usage && usage[j] !in Positives(usage);
        }
      }
    }
    s := Stats(Sum(usage), AvgDaily(usage), highest, lowest, CountOver(usage, target),
               CountUnder(usage, target), ProjectionOf(usage, remaining, target, daysUntilReset));
  }
}

=== FILE: period.dfy ===
/** Billing periods: the period a date falls in and the pro-rata "ideal"
    usage so far (`calculate_ideal_usage`), and the `next_reset` date the
    store keeps, which is computed by a slightly different rule. */
module Period {
  import opened Dates

  /** A period runs from `start` (a reset) up to, not including, `nextReset`. */
  datatype Period = Period(start: Date, nextReset: Date)

  /** The period containing `today` for the given reset day. Before the reset
      day it began last month; from the reset day on it began this month. */
  function CurrentPeriod(today: Date, resetDay: int): (p: Period)
    requires 1 <= today.month <= 12
    ensures p.start.day == resetDay && p.nextReset.day == resetDay
    ensures 1 <= p.start.month <= 12
    ensures MonthOf(p.nextReset) == NextMonth(MonthOf(p.start))
    ensures NotAfter(p.start, today) && Before(today, p.nextReset)
    ensures p.start == today <==> today.day == resetDay
  {
    var m := MonthOf(today);
    if today.day < resetDay then
      MonthStepsInverse(m);
      Period(DayOf(PrevMonth(m), resetDay), DayOf(m, resetDay))
    else
      Period(DayOf(m, resetDay), DayOf(NextMonth(m), resetDay))
  }

  /** Both ends of the period exist as dates; otherwise `datetime` raises. */
  predicate PeriodExists(today: Date, resetDay: int)
    requires 1 <= today.month <= 12
  {
    var p := CurrentPeriod(today, resetDay);
    ValidDate(p.start) && ValidDate(p.nextReset)
  }

  /** With resets on the 29th, the period of 10 March 2025 would start on
      29 February 2025, which does not exist. */
  lemma MarchTenthHasNoPeriod()
    ensures CurrentPeriod(Date(2025, 3, 10), 29).start == Date(2025, 2, 29)
    ensures !PeriodExists(Date(2025, 3, 10), 29)
  {
  }

  /** `total_days`: a period is exactly as long as the month it starts in, and
      `days_passed` lies in `[0, total_days)`. */
  lemma PeriodLength(today: Date, resetDay: int)
    requires ValidDate(today) && PeriodExists(today, resetDay)
    ensures var p := CurrentPeriod(today, resetDay);
      && DayNumber(p.nextReset) - DayNumber(p.start) == DaysIn(MonthOf(p.start))
      && 0 <= DayNumber(today) - DayNumber(p.start) < DaysIn(MonthOf(p.start))
  {
    var p := CurrentPeriod(today, resetDay);
    DayNumberNextMonth(MonthOf(p.start), resetDay);
    DayNumberOrder(p.start, today);
    DayNumberOrder(today, p.nextReset);
  }

  /** `total_days` and `days_passed` of `calculate_ideal_usage`: the period
      is as long as the month it starts in, and today lies inside it. */
  function PeriodProgress(today: Date, resetDay: int): (progress: (int, int))
    requires ValidDate(today) && PeriodExists(today, resetDay)
    ensures progress.0 == DaysIn(MonthOf(CurrentPeriod(today, resetDay).start))
    ensures 0 <= progress.1 < progress.0
    ensures progress.1 == 0 <==> today.day == resetDay
  {
    var p := CurrentPeriod(today, resetDay);
    PeriodLength(today, resetDay);
    DayNumberOrder(p.start, today);
    (DayNumber(p.nextReset) - DayNumber(p.start), DayNumber(today) - DayNumber(p.start))
  }

  /** `calculate_ideal_usage`: the credits a perfectly even pace would have
      used by `today`, `total_credits / total_days * days_passed`. It is zero
      on the reset day itself and stays below the quota. */
  function IdealUsage(totalCredits: int, resetDay: int, today: Date): (ideal: real)
    requires ValidDate(today) && PeriodExists(today, resetDay)
    ensures totalCredits >= 0 ==> 0.0 <= ideal
    ensures totalCredits > 0 ==> ideal < totalCredits as real
    ensures ideal == 0.0 <==> today.day == resetDay || totalCredits == 0
  {
    var progress := PeriodProgress(today, resetDay);
    ProRataShare(totalCredits, progress.0, progress.1)
  }

  /** `total / length * elapsed` in exact arithmetic. */
  function ProRataShare(total: int, length: int, elapsed: int): (share: real)
    requires 0 <= elapsed < length
    ensures total >= 0 ==> 0.0 <= share
    ensures total > 0 ==> share < total as real
    ensures share == 0.0 <==> elapsed == 0 || total == 0
  {
    ProRata(total as real, length as real, elapsed as real);
    (total as real / length as real) * elapsed as real
  }

  /** A pro-rata share `total / length * elapsed` of a quota, for an elapsed
      time inside the period. */
  lemma ProRata(total: real, length: real, elapsed: real)
    requires 0.0 <= elapsed < length
    ensures total >= 0.0 ==> 0.0 <= (total / length) * elapsed
    ensures total > 0.0 ==> (total / length) * elapsed < total
    ensures (total / length) * elapsed == 0.0 <==> total == 0.0 || elapsed == 0.0
  {
    var rate := total / length;
    assert rate * length == total;
    if total > 0.0 {
      assert rate > 0.0;
      assert rate * elapsed < rate * length;
    } else if total < 0.0 {
      assert rate < 0.0;
    }
  }

  /** The `next_reset` the store records when it is initialised, when the
      settings are saved and when the data is reset: the reset day of this
      month if today is on or before it, otherwise of next month. Unlike
      `CurrentPeriod` the comparison is `<=`. */
  function StoredNextReset(today: Date, resetDay: int): (r: Date)
    requires 1 <= today.month <= 12
    ensures r.day == resetDay
    ensures NotAfter(today, r)
    ensures MonthOf(r) == MonthOf(today) <==> today.day <= resetDay
  {
    var m := MonthOf(today);
    if today.day <= resetDay then DayOf(m, resetDay)
    else DayOf(NextMonth(m), resetDay)
  }

  /** The two reset rules agree except on the reset day itself, where the
      stored date is today while the period calculation already looks a
      month ahead. */
  lemma StoredResetVersusPeriod(today: Date, resetDay: int)
    requires 1 <= today.month <= 12
    ensures StoredNextReset(today, resetDay) == CurrentPeriod(today, resetDay).nextReset
            <==> today.day != resetDay
    ensures today.day == resetDay ==> StoredNextReset(today, resetDay) == today
  {
  }

  /** `(next_reset - today).days`. */
  function DaysUntil(today: Date, nextReset: Date): int
    requires 1 <= today.month <= 12 && 1 <= nextReset.month <= 12
  {
    DayNumber(nextReset) - DayNumber(today)
  }

  /** Freshly stored, `next_reset` is never in the past, and the days until
      it are zero exactly on the reset day, the case the analytics report as
      "Reset day reached". */
  lemma DaysUntilStoredReset(today: Date, resetDay: int)
    requires ValidDate(today) && ValidDate(StoredNextReset(today, resetDay))
    ensures DaysUntil(today, StoredNextReset(today, resetDay)) >= 0
    ensures DaysUntil(today, StoredNextReset(today, resetDay)) == 0 <==> today.day == resetDay
  {
    DayNumberOrder(today, StoredNextReset(today, resetDay));
  }

  /** With resets on the 29th, 15 April 2025 lies in the 31-day period from
      29 March to 29 April. */
  lemma AprilExample()
    ensures CurrentPeriod(Date(2025, 4, 15), 29) == Period(Date(2025, 3, 29), Date(2025, 4, 29))
    ensures DayNumber(Date(2025, 4, 29)) - DayNumber(Date(2025, 3, 29)) == 31
  {
    DaysBeforeMonthNext(2025, 3);
  }
}

=== FILE: query.dfy ===
/** The history list's queries: the date-range presets of the history and
    analytics views, the case-insensitive search, and the listing of matching
    entries latest first. */
module Query {
  import opened Dates
  import opened Wrappers
  import opened KeyOrder
  import opened Text
  import opened DateText
  import opened CreditLedger
  import opened Pacing

  /** An inclusive range of days. */
  datatype Range = Range(start: Date, end: Date)

  /** The history filter keeps an entry unless it is before the start or
      after the end. */
  predicate InRange(d: Date, r: Range)
  {
    NotAfter(r.start, d) && NotAfter(d, r.end)
  }

  /** "Current Month": the first of today's month up to today. */
  function CurrentMonthRange(today: Date): (r: Range)
    ensures forall d: Date :: d.day >= 1 ==>
      (InRange(d, r) <==> MonthOf(d) == MonthOf(today) && d.day <= today.day)
  {
    Range(Date(today.year, today.month, 1), today)
  }

  /** "Previous Month": the whole month before today's, with January going
      back to 1-31 December of the year before. */
  function PreviousMonthRange(today: Date): (r: Range)
    requires 1 <= today.month <= 12
    ensures forall d :: IsCalendarDate(d) ==>
      (InRange(d, r) <==> MonthOf(d) == PrevMonth(MonthOf(today)))
  {
    if today.month == 1 then Range(Date(today.year - 1, 12, 1), Date(today.year - 1, 12, 31))
    else Range(Date(today.year, today.month - 1, 1),
               Date(today.year, today.month - 1, DaysInMonth(today.year, today.month - 1)))
  }

  /** "Last n Days": today and the n - 1 days before it. */
  function LastDays(today: Date, n: nat): (r: Range)
    requires IsCalendarDate(today) && n >= 1
    ensures IsCalendarDate(r.start) && r.end == today
    ensures DayNumber(today) - DayNumber(r.start) == n - 1
  {
    Range(DaysBack(today, n - 1), today)
  }

  /** A "Last n Days" range holds exactly the n days ending today. */
  lemma LastDaysMembership(today: Date, n: nat, d: Date)
    requires IsCalendarDate(today) && n >= 1 && IsCalendarDate(d)
    ensures InRange(d, LastDays(today, n)) <==>
      DayNumber(today) - n < DayNumber(d) <= DayNumber(today)
  {
    var r := LastDays(today, n);
    DayNumberOrder(r.start, d);
    DayNumberOrder(d, today);
  }

  /** The first day "All Time" starts from in the history view. */
  const HistoryEpoch: Date := Date(1900, 1, 1)

  datatype HistoryPreset =
    | HistoryAllTime
    | HistoryCurrentMonth
    | HistoryPreviousMonth
    | HistoryLastSevenDays
    | HistoryLastThirtyDays
    | HistoryCustom(from: string, to: string)

  /** The history view's range; a custom range whose bounds do not parse is
      the "Invalid date format" error. The list has already been cleared by
      then, so it is left empty (`HistoryDisplay`). */
  function HistoryRange(p: HistoryPreset, today: Date): (r: Result<Range, InputError>)
    requires IsCalendarDate(today)
    ensures r.Err? <==> p.HistoryCustom? && (ParseDate(p.from).None? || ParseDate(p.to).None?)
    ensures r.Ok? && !p.HistoryPreviousMonth? && !p.HistoryCustom? ==> r.value.end == today
    ensures r.Ok? && p.HistoryCustom? ==>
      r.value == Range(ParseDate(p.from).value, ParseDate(p.to).value)
    ensures p.HistoryAllTime? ==> r == Ok(Range(HistoryEpoch, today))
    ensures p.HistoryCurrentMonth? ==> r == Ok(CurrentMonthRange(today))
    ensures p.HistoryPreviousMonth? ==> r == Ok(PreviousMonthRange(today))
    ensures p.HistoryLastSevenDays? ==> r == Ok(LastDays(today, 7))
    ensures p.HistoryLastThirtyDays? ==> r == Ok(LastDays(today, 30))
  {
    match p
    case HistoryAllTime => Ok(Range(HistoryEpoch, today))
    case HistoryCurrentMonth => Ok(CurrentMonthRange(today))
    case HistoryPreviousMonth => Ok(PreviousMonthRange(today))
    case HistoryLastSevenDays => Ok(LastDays(today, 7))
    case HistoryLastThirtyDays => Ok(LastDays(today, 30))
    case HistoryCustom(from, to) =>
      match (ParseDate(from), ParseDate(to))
      case (Some(a), Some(b)) => Ok(Range(a, b))
      case _ => Err(InvalidInput)
  }

  datatype AnalyticsPreset =
    | AnalyticsAllTime
    | AnalyticsCurrentMonth
    | AnalyticsPreviousMonth
    | AnalyticsLastThirtyDays
    | AnalyticsLastNinetyDays

  /** The analytics view's range. "All Time" starts at the earliest entry, or
      30 days back when there is none. */
  function AnalyticsRange(l: Ledger, p: AnalyticsPreset, today: Date): (r: Range)
    requires IsCalendarDate(today)
    ensures !p.AnalyticsPreviousMonth? ==> r.end == today
    ensures p.AnalyticsAllTime? ==> r == AllTimeRange(l, today)
    ensures p.AnalyticsCurrentMonth? ==> r == CurrentMonthRange(today)
    ensures p.AnalyticsPreviousMonth? ==> r == PreviousMonthRange(today)
    ensures p.AnalyticsLastThirtyDays? ==> r == LastDays(today, 30)
    ensures p.AnalyticsLastNinetyDays? ==> r == LastDays(today, 90)
  {
    match p
    case AnalyticsCurrentMonth => CurrentMonthRange(today)
    case AnalyticsPreviousMonth => PreviousMonthRange(today)
    case AnalyticsLastThirtyDays => LastDays(today, 30)
    case AnalyticsLastNinetyDays => LastDays(today, 90)
    case AnalyticsAllTime => AllTimeRange(l, today)
  }

  /** The analytics "All Time" range: from the earliest entry to today, or
      the 30 days before today and today when there is no entry. It covers
      every entry up to today. */
  function AllTimeRange(l: Ledger, today: Date): (r: Range)
    requires IsCalendarDate(today)
    ensures r.end == today
    ensures forall k :: k in l.dailyUsage && NotAfter(k, today) ==> InRange(k, r)
    ensures l.dailyUsage != map[] ==> r.start in l.dailyUsage
    ensures l.dailyUsage == map[] ==>
      IsCalendarDate(r.start) && DayNumber(today) - DayNumber(r.start) == 30
  {
    if l.dailyUsage.Keys != {} then Range(Earliest(l.dailyUsage.Keys), today)
    else
      assert l.dailyUsage == map[];
      Range(DaysBack(today, 30), today)
  }

  /** The search box: an empty text matches everything, otherwise the text
      must occur, ignoring case, in the date key or in the note. */
  predicate MatchesSearch(search: string, d: Date, note: string)
    requires ValidDate(d)
  {
    search == [] || Contains(Lower(FormatDate(d)), Lower(search)) || Contains(Lower(note), Lower(search))
  }

  /** The search ignores the case of what is typed. */
  lemma SearchIgnoresCase(search: string, d: Date, note: string)
    requires ValidDate(d)
    ensures MatchesSearch(Lower(search), d, note) <==> MatchesSearch(search, d, note)
  {
    LowerIdempotent(search);
    assert Lower(search) == [] <==> search == [];
  }

  /** The note shown for a day, or the empty text. */
  function NoteOf(l: Ledger, d: Date): string
  {
    if d in l.notes then l.notes[d] else ""
  }

  /** An entry the history list shows. */
  predicate Shown(l: Ledger, r: Range, search: string, d: Date)
    requires KeysValid(l)
  {
    d in l.dailyUsage && InRange(d, r) && MatchesSearch(search, d, NoteOf(l, d))
  }

  /** The listed keys among `ds`, in the order of `ds`. */
  function ShownAmong(l: Ledger, r: Range, search: string, ds: seq<Date>): (out: seq<Date>)
    requires KeysValid(l)
    ensures forall d :: d in out <==> d in ds && Shown(l, r, search, d)
    ensures StrictlyDecreasing(ds) ==> StrictlyDecreasing(out)
  {
    if ds == [] then []
    else
      var rest := ShownAmong(l, r, search, ds[1..]);
      assert forall d :: d in ds[1..] ==> d in ds;
      if Shown(l, r, search, ds[0]) then
        PrependDecreasing(ds, rest);
        [ds[0]] + rest
      else rest
  }

  /** Keeping the head of a decreasing listing in front of a decreasing
      selection from its tail keeps the order. */
  lemma PrependDecreasing(ds: seq<Date>, rest: seq<Date>)
    requires ds != [] && forall d :: d in rest ==> d in ds[1..]
    requires StrictlyDecreasing(ds) ==> StrictlyDecreasing(rest)
    ensures StrictlyDecreasing(ds) ==> StrictlyDecreasing([ds[0]] + rest)
  {
    if StrictlyDecreasing(ds) {
      var out := [ds[0]] + rest;
      forall i, j | 0 <= i < j < |out|
        ensures Before(out[j], out[i])
      {
        if i == 0 {
          assert out[j] in ds[1..];
        }
      }
    }
  }

  /** One line of the history list: the entry's figures, its day status
      against the daily target, and its note. */
  datatype HistoryRow = HistoryRow(date: Date, remaining: int, used: int, status: DayStatus, note: string)

  function RowOf(l: Ledger, d: Date, target: real): HistoryRow
    requires d in l.dailyUsage
  {
    var e := l.dailyUsage[d];
    HistoryRow(d, e.remaining, e.used, DayStatusOf(e.used, target), NoteOf(l, d))
  }

  /** One row per listed day, in the order of the days. */
  function RowsFor(l: Ledger, ds: seq<Date>, target: real): (rows: seq<HistoryRow>)
    requires forall d :: d in ds ==> d in l.dailyUsage
    ensures |rows| == |ds|
    ensures forall i :: 0 <= i < |rows| ==> rows[i].date == ds[i] && rows[i] == RowOf(l, ds[i], target)
  {
    seq(|ds|, i requires 0 <= i < |ds| => RowOf(l, ds[i], target))
  }

  /** The history list: the entries in the range that match the search,
      latest first, each judged against the dashboard's daily target. */
  function HistoryRows(l: Ledger, r: Range, search: string): (rows: seq<HistoryRow>)
    requires KeysValid(l) && ValidDate(l.nextReset)
    ensures forall d :: (exists i :: 0 <= i < |rows| && rows[i].date == d) <==> Shown(l, r, search, d)
    ensures forall i :: 0 <= i < |rows| ==>
      rows[i].date in l.dailyUsage && rows[i] == RowOf(l, rows[i].date, DisplayTarget(l))
    ensures forall i, j :: 0 <= i < j < |rows| ==> Before(rows[j].date, rows[i].date)
  {
    var ds := ShownAmong(l, r, search, Descending(l.dailyUsage.Keys));
    assert StrictlyDecreasing(ds);
    RowsFor(l, ds, DisplayTarget(l))
  }

  /** `update_history_display`: the list is cleared before the range is
      read, so a custom range that does not parse leaves it empty; otherwise
      it holds the rows of the chosen range that match the search. */
  function HistoryDisplay(l: Ledger, p: HistoryPreset, search: string, today: Date): (rows: seq<HistoryRow>)
    requires IsCalendarDate(today) && KeysValid(l) && ValidDate(l.nextReset)
    ensures HistoryRange(p, today).Err? ==> rows == []
    ensures HistoryRange(p, today).Ok? ==>
      forall d :: (exists i :: 0 <= i < |rows| && rows[i].date == d)
                  <==> Shown(l, HistoryRange(p, today).value, search, d)
  {
    match HistoryRange(p, today)
    case Err(_) => []
    case Ok(r) => HistoryRows(l, r, search)
  }
}

=== FILE: series.dfy ===
/** The day-by-day series behind the dashboard graph and the analytics
    charts: every day of a range, with the recorded usage or 0, and the
    recorded balance or the last balance seen earlier in the range (the quota
    before the first one). */
module Series {
  import opened Dates
  import opened KeyOrder
  import opened CreditLedger
  import opened Pacing
  import opened Query
  import Period

  /** One day of a series. */
  datatype Point = Point(date: Date, used: int, remaining: int)

  /** The days from `start` to `end` inclusive, one after another; none when
      `start` is after `end`. */
  function Days(start: Date, end: Date): (ds: seq<Date>)
    requires IsCalendarDate(start) && IsCalendarDate(end)
    ensures |ds| == if Before(end, start) then 0 else DayNumber(end) - DayNumber(start) + 1
    ensures forall i :: 0 <= i < |ds| ==> IsCalendarDate(ds[i]) && DayNumber(ds[i]) == DayNumber(start) + i
    ensures ds != [] ==> ds[0] == start
    ensures forall i :: 0 < i < |ds| ==> ds[i] == NextDay(ds[i - 1])
    decreases DayNumber(end) - DayNumber(start)
  {
    if Before(end, start) then []
    else
      DayNumberOrder(start, end);
      DayNumberOrder(end, NextDay(start));
      [start] + Days(NextDay(start), end)
  }

  /** The days listed are exactly the calendar days of the range. */
  lemma DaysCoverRange(start: Date, end: Date, d: Date)
    requires IsCalendarDate(start) && IsCalendarDate(end) && IsCalendarDate(d)
    ensures d in Days(start, end) <==> InRange(d, Range(start, end))
  {
    var ds := Days(start, end);
    DayNumberOrder(start, d);
    DayNumberOrder(d, end);
    if InRange(d, Range(start, end)) {
      var i := DayNumber(d) - DayNumber(start);
      DayNumberOrder(ds[i], d);
    }
  }

  /** The series over `ds`: recorded days give their entry, other days usage
      0 and the previous day's balance, or the quota on the first day. */
  function SeriesOf(l: Ledger, ds: seq<Date>): (ps: seq<Point>)
    ensures |ps| == |ds|
    ensures forall i :: 0 <= i < |ds| ==> ps[i].date == ds[i]
    ensures forall i :: 0 <= i < |ds| ==>
      ps[i].used == (if ds[i] in l.dailyUsage then l.dailyUsage[ds[i]].used else 0)
    ensures forall i :: 0 <= i < |ds| && ds[i] in l.dailyUsage ==>
      ps[i].remaining == l.dailyUsage[ds[i]].remaining
    decreases |ds|
  {
    if ds == [] then []
    else
      var prev := SeriesOf(l, ds[..|ds| - 1]);
      var d := ds[|ds| - 1];
      var point :=
        if d in l.dailyUsage then Point(d, l.dailyUsage[d].used, l.dailyUsage[d].remaining)
        else Point(d, 0, if prev == [] then l.settings.totalCredits else prev[|prev| - 1].remaining);
      prev + [point]
  }

  /** The entries recorded from `start` up to and including `d`. */
  function KnownBy(l: Ledger, start: Date, d: Date): set<Date>
  {
    set k | k in l.dailyUsage && NotAfter(start, k) && NotAfter(k, d)
  }

  /** The balance as of `d` as far as the range starting at `start` knows:
      that of the latest entry from `start` to `d`, or the quota. */
  function BalanceAsOf(l: Ledger, start: Date, d: Date): int
  {
    var known := KnownBy(l, start, d);
    if known == {} then l.settings.totalCredits
    else
      assert Latest(known) in l.dailyUsage;
      l.dailyUsage[Latest(known)].remaining
  }

  /** One more day of a series: the earlier points stay, and the new one
      carries its entry, or the previous balance, or the quota. */
  lemma SeriesStep(l: Ledger, ds: seq<Date>)
    requires ds != []
    ensures SeriesOf(l, ds)[..|ds| - 1] == SeriesOf(l, ds[..|ds| - 1])
    ensures ds[|ds| - 1] !in l.dailyUsage ==>
      SeriesOf(l, ds)[|ds| - 1].remaining
      == (if |ds| == 1 then l.settings.totalCredits else SeriesOf(l, ds)[|ds| - 2].remaining)
  {
  }

  /** A recorded day's balance is its own. */
  lemma BalanceOnRecordedDay(l: Ledger, start: Date, d: Date)
    requires d in l.dailyUsage && NotAfter(start, d)
    ensures BalanceAsOf(l, start, d) == l.dailyUsage[d].remaining
  {
    var known := KnownBy(l, start, d);
    assert IsLatest(known, d);
    LatestIs(known, d);
  }

  /** Nothing is known on an unrecorded first day. */
  lemma BalanceOnUnrecordedStart(l: Ledger, start: Date)
    requires start !in l.dailyUsage
    ensures BalanceAsOf(l, start, start) == l.settings.totalCredits
  {
    assert KnownBy(l, start, start) == {};
  }

  /** An unrecorded day knows what the day before it knew. */
  lemma BalanceOnUnrecordedDay(l: Ledger, start: Date, p: Date)
    requires KeysValid(l) && IsCalendarDate(p) && NextDay(p) !in l.dailyUsage
    ensures BalanceAsOf(l, start, NextDay(p)) == BalanceAsOf(l, start, p)
  {
    var d := NextDay(p);
    forall k | k in l.dailyUsage
      ensures k in KnownBy(l, start, d) <==> k in KnownBy(l, start, p)
    {
      NothingBetweenDays(p, k);
    }
    assert KnownBy(l, start, d) == KnownBy(l, start, p);
  }

  /** A day-by-day series from `start` carries the latest balance seen in
      the range, and the quota before any. */
  lemma {:induction false} SeriesCarriesBalance(l: Ledger, start: Date, ds: seq<Date>)
    requires KeysValid(l)
    requires forall i :: 0 <= i < |ds| ==> IsCalendarDate(ds[i])
    requires ds != [] ==> ds[0] == start
    requires forall i :: 0 < i < |ds| ==> ds[i] == NextDay(ds[i - 1])
    ensures forall i :: 0 <= i < |ds| ==> NotAfter(start, ds[i])
    ensures forall i :: 0 <= i < |ds| ==> SeriesOf(l, ds)[i].remaining == BalanceAsOf(l, start, ds[i])
    decreases |ds|
  {
    if ds != [] {
      var n := |ds|;
      var init := ds[..n - 1];
      SeriesCarriesBalance(l, start, init);
      LastPointBalance(l, start, ds);
      var ps := SeriesOf(l, ds);
      forall i | 0 <= i < n - 1
        ensures NotAfter(start, ds[i])
        ensures ps[i].remaining == BalanceAsOf(l, start, ds[i])
      {
        assert ps[i] == SeriesOf(l, init)[i] && ds[i] == init[i];
      }
    }
  }

  /** The induction step of `SeriesCarriesBalance`: the last day. */
  lemma LastPointBalance(l: Ledger, start: Date, ds: seq<Date>)
    requires KeysValid(l) && ds != []
    requires forall i :: 0 <= i < |ds| ==> IsCalendarDate(ds[i])
    requires ds[0] == start
    requires forall i :: 0 < i < |ds| ==> ds[i] == NextDay(ds[i - 1])
    requires |ds| > 1 ==> NotAfter(start, ds[|ds| - 2])
    requires |ds| > 1 ==>
      SeriesOf(l, ds[..|ds| - 1])[|ds| - 2].remaining == BalanceAsOf(l, start, ds[|ds| - 2])
    ensures NotAfter(start, ds[|ds| - 1])
    ensures SeriesOf(l, ds)[|ds| - 1].remaining == BalanceAsOf(l, start, ds[|ds| - 1])
  {
    var n := |ds|;
    var d := ds[n - 1];
    SeriesStep(l, ds);
    if d in l.dailyUsage {
      BalanceOnRecordedDay(l, start, d);
    } else if n == 1 {
      BalanceOnUnrecordedStart(l, start);
    } else {
      assert SeriesOf(l, ds)[n - 2] == SeriesOf(l, ds[..n - 1])[n - 2];
      BalanceOnUnrecordedDay(l, start, ds[n - 2]);
    }
  }

  /** The series over a range: one point per day, each carrying the balance
      as of that day. */
  lemma RangeSeries(l: Ledger, r: Range)
    requires KeysValid(l) && IsCalendarDate(r.start) && IsCalendarDate(r.end)
    ensures var ps := SeriesOf(l, Days(r.start, r.end));
      forall i :: 0 <= i < |ps| ==> ps[i].remaining == BalanceAsOf(l, r.start, ps[i].date)
  {
    SeriesCarriesBalance(l, r.start, Days(r.start, r.end));
  }

  /** The dashboard graph: the 14 days ending today, each with its recorded
      usage or 0, and the balance carried forward from the first of the 14
      days (the quota before any entry among them). */
  function DashboardSeries(l: Ledger, today: Date): (ps: seq<Point>)
    requires IsCalendarDate(today)
    ensures |ps| == 14 && ps[13].date == today
    ensures forall i :: 0 <= i < 14 ==>
      IsCalendarDate(ps[i].date) && DayNumber(today) - DayNumber(ps[i].date) == 13 - i
    ensures ps == SeriesOf(l, Days(DaysBack(today, 13), today))
    ensures forall i :: 0 <= i < 14 ==>
      ps[i].used == (if ps[i].date in l.dailyUsage then l.dailyUsage[ps[i].date].used else 0)
    ensures KeysValid(l) ==> forall i :: 0 <= i < 14 ==>
      ps[i].remaining == BalanceAsOf(l, DaysBack(today, 13), ps[i].date)
  {
    var start := DaysBack(today, 13);
    DayNumberOrder(today, start);
    var ds := Days(start, today);
    assert |ds| == 14;
    DayNumberOrder(ds[13], today);
    if KeysValid(l) then
      RangeSeries(l, Range(start, today));
      SeriesOf(l, ds)
    else
      SeriesOf(l, ds)
  }

  /** The usage column of a series (`usage_data`). */
  function Usages(ps: seq<Point>): (us: seq<int>)
    ensures |us| == |ps| && forall i :: 0 <= i < |ps| ==> us[i] == ps[i].used
  {
    seq(|ps|, i requires 0 <= i < |ps| => ps[i].used)
  }

  /** The balance column of a series (`remaining_data`). */
  function Balances(ps: seq<Point>): (bs: seq<int>)
    ensures |bs| == |ps| && forall i :: 0 <= i < |ps| ==> bs[i] == ps[i].remaining
  {
    seq(|ps|, i requires 0 <= i < |ps| => ps[i].remaining)
  }

  /** The analytics panel: the series over the chosen range, then its
      statistics against the dashboard's daily target and the days left to
      the stored reset. */
  method Analytics(l: Ledger, p: AnalyticsPreset, today: Date) returns (ps: seq<Point>, s: Stats)
    requires KeysValid(l) && IsCalendarDate(today) && ValidDate(l.nextReset)
    ensures var r := AnalyticsRange(l, p, today);
      && IsCalendarDate(r.start)
      && ps == SeriesOf(l, Days(r.start, r.end))
    ensures forall i :: 0 <= i < |ps| ==>
      ps[i].remaining == BalanceAsOf(l, AnalyticsRange(l, p, today).start, ps[i].date)
    ensures s.NoData? <==> ps == []
    ensures s.Stats? ==>
      Summarises(s, Usages(ps), Balances(ps), DisplayTarget(l), Period.DaysUntil(today, l.nextReset))
  {
    var r := AnalyticsRange(l, p, today);
    assert IsCalendarDate(r.start) by {
      if p.AnalyticsAllTime? && l.dailyUsage != map[] {
        assert r.start in l.dailyUsage;
      }
    }
    ps := SeriesOf(l, Days(r.start, r.end));
    RangeSeries(l, r);
    s := AnalyticsStats(Usages(ps), Balances(ps), DisplayTarget(l), Period.DaysUntil(today, l.nextReset));
  }
}

=== FILE: settings.dfy ===
/** The settings form: reading the three numeric fields, the range checks,
    and the recomputed next reset date. */
module SettingsPanel {
  import opened Dates
  import opened Wrappers
  import opened Numerals
  import opened CreditLedger
  import Period
  import Pacing

  /** The form's fields as typed. */
  datatype Form = Form(
    totalText: string,
    resetDayText: string,
    thresholdText: string,
    theme: string,
    showProjections: bool,
    notifications: bool)

  /** What the form reports instead of "Settings updated successfully". */
  datatype SettingsError =
    | InvalidNumber        // the "Please enter valid numeric values" of `except ValueError`
    | ResetDayOutOfRange
    | ThresholdOutOfRange
    | DivisionByZero       // the dashboard refresh raises ZeroDivisionError, which nothing catches

  /** The numbers the form holds, when all three read: the quota may contain
      thousands separators, the other two may not. */
  function FormNumbers(f: Form): Option<(int, int, int)>
  {
    match (ParseInt(StripCommas(f.totalText)), ParseInt(f.resetDayText), ParseInt(f.thresholdText))
    case (Some(total), Some(reset), Some(threshold)) => Some((total, reset, threshold))
    case _ => None
  }

  /** The three numbers read and pass the two range checks. */
  predicate InRange(f: Form)
  {
    && FormNumbers(f).Some?
    && 1 <= FormNumbers(f).value.1 <= 31
    && 0 <= FormNumbers(f).value.2 <= 100
  }

  /** `save_settings`: the ledger afterwards and the error shown, if any. A
      field that does not read, or a reset day outside 1-31, or a threshold
      outside 0-100 changes nothing. Otherwise the settings are written first
      and the next reset is recomputed with the `<=` rule; when that date
      does not exist the "valid numeric values" error is shown, but the new
      settings stay in place with the old next reset. When it exists the
      ledger is saved and the dashboard refreshed, and a failing refresh
      leaves the saved ledger behind: a zero quota ends the handler with an
      uncaught division by zero, and a current period with a day that does
      not exist is again reported as invalid numbers. The quota itself is
      not checked. */
  function SaveSettings(l: Ledger, f: Form, today: Date): (r: (Ledger, Option<SettingsError>))
    requires ValidDate(today)
    ensures FormNumbers(f).None? ==> r == (l, Some(InvalidNumber))
    ensures FormNumbers(f).Some? && !(1 <= FormNumbers(f).value.1 <= 31) ==>
      r == (l, Some(ResetDayOutOfRange))
    ensures FormNumbers(f).Some? && 1 <= FormNumbers(f).value.1 <= 31
            && !(0 <= FormNumbers(f).value.2 <= 100) ==>
      r == (l, Some(ThresholdOutOfRange))
    ensures r.1.None? <==>
      && InRange(f)
      && ValidDate(Period.StoredNextReset(today, FormNumbers(f).value.1))
      && FormNumbers(f).value.0 != 0
      && Period.PeriodExists(today, FormNumbers(f).value.1)
    ensures r.1 == Some(DivisionByZero) <==>
      && InRange(f)
      && ValidDate(Period.StoredNextReset(today, FormNumbers(f).value.1))
      && FormNumbers(f).value.0 == 0
    ensures InRange(f) ==>
      var (total, reset, threshold) := FormNumbers(f).value;
      var next := Period.StoredNextReset(today, reset);
      && r.0.settings == Settings(total, reset, threshold, f.theme, f.showProjections, f.notifications)
      && r.0.dailyUsage == l.dailyUsage && r.0.notes == l.notes
      && r.0.remainingCredits == l.remainingCredits && r.0.lastUpdated == l.lastUpdated
      && r.0.nextReset == (if ValidDate(next) then next else l.nextReset)
    ensures r.1.None? ==> Pacing.RefreshDashboard(r.0, today).Ok?
  {
    match FormNumbers(f)
    case None => (l, Some(InvalidNumber))
    case Some((total, reset, threshold)) =>
      if reset < 1 || reset > 31 then (l, Some(ResetDayOutOfRange))
      else if threshold < 0 || threshold > 100 then (l, Some(ThresholdOutOfRange))
      else
        var applied := l.(settings := Settings(total, reset, threshold, f.theme, f.showProjections, f.notifications));
        var next := Period.StoredNextReset(today, reset);
        if !ValidDate(next) then (applied, Some(InvalidNumber))
        else
          var saved := applied.(nextReset := next);
          match Pacing.RefreshDashboard(saved, today)
          case Ok(_) => (saved, None)
          case Err(ZeroQuota) => (saved, Some(DivisionByZero))
          case Err(NoSuchDate) => (saved, Some(InvalidNumber))
  }

  /** A saved form leaves a next reset that is today or later, falls on the
      reset day, and is today exactly on the reset day itself. */
  lemma SavedResetIsAhead(l: Ledger, f: Form, today: Date)
    requires ValidDate(today)
    requires SaveSettings(l, f, today).1.None?
    ensures var next := SaveSettings(l, f, today).0.nextReset;
      && next.day == FormNumbers(f).value.1
      && Period.DaysUntil(today, next) >= 0
      && (Period.DaysUntil(today, next) == 0 <==> today.day == FormNumbers(f).value.1)
  {
    Period.DaysUntilStoredReset(today, FormNumbers(f).value.1);
  }

  /** Moving the reset day to the 29th on 30 January 2025 applies the new
      settings but leaves the old next reset, since 29 February 2025 does not
      exist. */
  lemma StaleResetOnMissingDay(l: Ledger)
    requires l.settings.resetDay != 29
    ensures var f := Form("5", "29", "20", "light", true, true);
      var r := SaveSettings(l, f, Date(2025, 1, 30));
      && r.1 == Some(InvalidNumber)
      && r.0.settings.resetDay == 29
      && r.0.nextReset == l.nextReset
  {
    var f := Form("5", "29", "20", "light", true, true);
    assert StripCommas(f.totalText) == "5";
    assert FormNumbers(f) == Some((5, 29, 20));
    assert Period.StoredNextReset(Date(2025, 1, 30), 29) == Date(2025, 2, 29);
    assert !ValidDate(Date(2025, 2, 29));
  }

  /** A negative quota is accepted. */
  lemma NegativeQuotaAccepted(l: Ledger)
    ensures var f := Form("-5", "1", "0", "dark", false, false);
      var r := SaveSettings(l, f, Date(2025, 6, 1));
      r.1.None? && r.0.settings.totalCredits == -5
  {
    var f := Form("-5", "1", "0", "dark", false, false);
    assert StripCommas(f.totalText) == "-5";
    assert FormNumbers(f) == Some((-5, 1, 0));
  }

  /** Moving the reset day to the 29th on 10 March 2025 saves the settings
      and the next reset of 29 March, but the dashboard's period would start
      on 29 February 2025, so the form reports invalid numbers. */
  lemma MissingPeriodStartReported(l: Ledger)
    requires l.settings.totalCredits != 0
    ensures var f := Form("5", "29", "20", "light", true, true);
      var r := SaveSettings(l, f, Date(2025, 3, 10));
      && r.1 == Some(InvalidNumber)
      && r.0.settings.resetDay == 29
      && r.0.nextReset == Date(2025, 3, 29)
  {
    var f := Form("5", "29", "20", "light", true, true);
    assert StripCommas(f.totalText) == "5";
    assert FormNumbers(f) == Some((5, 29, 20));
    assert Period.StoredNextReset(Date(2025, 3, 10), 29) == Date(2025, 3, 29);
    assert Period.CurrentPeriod(Date(2025, 3, 10), 29).start == Date(2025, 2, 29);
  }

  /** A zero quota is saved, and the dashboard refresh that follows divides
      by it. */
  lemma ZeroQuotaSavedThenAborts(l: Ledger)
    ensures var f := Form("0", "1", "20", "light", true, true);
      var r := SaveSettings(l, f, Date(2025, 6, 1));
      && r.1 == Some(DivisionByZero)
      && r.0.settings.totalCredits == 0
      && r.0.nextReset == Date(2025, 6, 1)
  {
    var f := Form("0", "1", "20", "light", true, true);
    assert StripCommas(f.totalText) == "0";
    assert FormNumbers(f) == Some((0, 1, 20));
    assert Period.StoredNextReset(Date(2025, 6, 1), 1) == Date(2025, 6, 1);
  }
}

=== FILE: sorting.dfy ===
/** `sort_history_by_column`: the history list re-ordered by the text of one
    column, descending. Each tree item is a pair of its cell text and its item
    identifier; identifiers grow in insertion order and break ties. */
module ColumnSort {
  import opened Dates
  import opened Text
  import opened Numerals
  import opened DateText
  import opened Pacing
  import opened Query

  /** A tree item as the sort sees it: the column's cell text and the item's
      position in insertion order. */
  datatype Item = Item(cell: string, id: nat)

  /** Python's tuple order: by cell text, then by identifier. */
  predicate ItemLess(a: Item, b: Item)
  {
    LexLess(a.cell, b.cell) || (a.cell == b.cell && a.id < b.id)
  }

  lemma ItemLessIrreflexive(a: Item)
    ensures !ItemLess(a, a)
  {
    LexLessIrreflexive(a.cell);
  }

  lemma ItemLessTransitive(a: Item, b: Item, c: Item)
    requires ItemLess(a, b) && ItemLess(b, c)
    ensures ItemLess(a, c)
  {
    if LexLess(a.cell, b.cell) && LexLess(b.cell, c.cell) {
      LexLessTransitive(a.cell, b.cell, c.cell);
    }
  }

  lemma ItemLessTotal(a: Item, b: Item)
    requires a != b
    ensures ItemLess(a, b) || ItemLess(b, a)
  {
    if a.cell != b.cell {
      LexLessTotal(a.cell, b.cell);
    }
  }

  /** Greatest first: no item is below a later one. */
  predicate NonIncreasing(xs: seq<Item>)
  {
    forall i, j :: 0 <= i < j < |xs| ==> !ItemLess(xs[i], xs[j])
  }

  /** `x` placed in front of the first item below it. */
  function Insert(x: Item, xs: seq<Item>): (r: seq<Item>)
    requires NonIncreasing(xs)
    ensures multiset(r) == multiset(xs) + multiset{x}
    ensures NonIncreasing(r)
  {
    if xs == [] then [x]
    else if ItemLess(xs[0], x) then
      InsertInFront(x, xs);
      [x] + xs
    else
      var rest := Insert(x, xs[1..]);
      assert xs == [xs[0]] + xs[1..];
      KeepHead(xs[0], x, xs[1..], rest);
      [xs[0]] + rest
  }

  lemma InsertInFront(x: Item, xs: seq<Item>)
    requires NonIncreasing(xs) && xs != [] && ItemLess(xs[0], x)
    ensures NonIncreasing([x] + xs)
  {
    var r := [x] + xs;
    forall i, j | 0 <= i < j < |r|
      ensures !ItemLess(r[i], r[j])
    {
      if i == 0 {
        if ItemLess(x, r[j]) {
          if j == 1 {
            ItemLessTransitive(x, xs[0], x);
          } else {
            ItemLessTransitive(xs[0], x, r[j]);
          }
          ItemLessIrreflexive(x);
        }
      }
    }
  }

  lemma KeepHead(h: Item, x: Item, tail: seq<Item>, rest: seq<Item>)
    requires NonIncreasing([h] + tail) && !ItemLess(h, x)
    requires multiset(rest) == multiset(tail) + multiset{x} && NonIncreasing(rest)
    ensures NonIncreasing([h] + rest)
  {
    var r := [h] + rest;
    forall i, j | 0 <= i < j < |r|
      ensures !ItemLess(r[i], r[j])
    {
      if i == 0 {
        assert r[0] == h && r[j] == rest[j - 1];
        assert r[j] in multiset(rest);
        if r[j] != x {
          assert r[j] in tail;
          var k :| 0 <= k < |tail| && tail[k] == r[j];
          assert ([h] + tail)[0] == h && ([h] + tail)[k + 1] == r[j];
        }
      } else {
        assert r[i] == rest[i - 1] && r[j] == rest[j - 1];
      }
    }
  }

  /** `items.sort(reverse=True)`. */
  function SortDescending(xs: seq<Item>): (r: seq<Item>)
    ensures multiset(r) == multiset(xs)
    ensures NonIncreasing(r)
  {
    if xs == [] then []
    else
      assert xs == [xs[0]] + xs[1..];
      Insert(xs[0], SortDescending(xs[1..]))
  }

  /** There is only one greatest-first arrangement of a collection of items,
      so the sort's result does not depend on the order it was given. */
  lemma {:induction false} SortedUnique(a: seq<Item>, b: seq<Item>)
    requires multiset(a) == multiset(b) && NonIncreasing(a) && NonIncreasing(b)
    ensures a == b
    decreases |a|
  {
    assert |a| == |multiset(a)| == |b|;
    if a != [] {
      GreatestFirst(a, b);
      assert a == [a[0]] + a[1..] && b == [b[0]] + b[1..];
      assert multiset(a) == multiset{a[0]} + multiset(a[1..]);
      assert multiset(b) == multiset{b[0]} + multiset(b[1..]);
      assert multiset(a[1..]) == multiset(a) - multiset{a[0]};
      assert multiset(b[1..]) == multiset(b) - multiset{b[0]};
      TailNonIncreasing(a);
      TailNonIncreasing(b);
      SortedUnique(a[1..], b[1..]);
    }
  }

  lemma TailNonIncreasing(xs: seq<Item>)
    requires xs != [] && NonIncreasing(xs)
    ensures NonIncreasing(xs[1..])
  {
    forall i, j | 0 <= i < j < |xs| - 1
      ensures !ItemLess(xs[1..][i], xs[1..][j])
    {
      assert xs[1..][i] == xs[i + 1] && xs[1..][j] == xs[j + 1];
    }
  }

  /** Two greatest-first arrangements of the same items start alike. */
  lemma GreatestFirst(a: seq<Item>, b: seq<Item>)
    requires multiset(a) == multiset(b) && NonIncreasing(a) && NonIncreasing(b)
    requires a != [] && b != []
    ensures a[0] == b[0]
  {
    assert a[0] in multiset(b) && b[0] in multiset(a);
    var i :| 0 <= i < |a| && a[i] == b[0];
    var j :| 0 <= j < |b| && b[j] == a[0];
    if a[0] != b[0] {
      ItemLessTotal(a[0], b[0]);
    }
  }

  /** The sort yields the one greatest-first arrangement of its input. */
  lemma SortCharacterised(xs: seq<Item>, ys: seq<Item>)
    requires multiset(ys) == multiset(xs) && NonIncreasing(ys)
    ensures SortDescending(xs) == ys
  {
    SortedUnique(SortDescending(xs), ys);
  }

  /** The history list's columns. */
  datatype Column = DateColumn | RemainingColumn | UsedColumn | TargetColumn | StatusColumn | NoteColumn

  function StatusLabel(s: DayStatus): string
  {
    match s
    case DayOverBudget => "Over Budget"
    case DayWarning => "Warning"
    case DayOnTrack => "On Track"
  }

  /** The note column: the first 50 characters, marked when cut. */
  function ShortNote(note: string): (s: string)
    ensures |note| <= 50 ==> s == note
    ensures |note| > 50 ==> |s| == 53 && s[..50] == note[..50]
  {
    if |note| > 50 then note[..50] + "..." else note
  }

  /** The text of a row's cell. The target column holds the same text on
      every row, `targetText`. */
  function Cell(row: HistoryRow, c: Column, targetText: string): string
    requires ValidDate(row.date)
  {
    match c
    case DateColumn => FormatDate(row.date)
    case RemainingColumn => Grouped(row.remaining)
    case UsedColumn => Grouped(row.used)
    case TargetColumn => targetText
    case StatusColumn => StatusLabel(row.status)
    case NoteColumn => ShortNote(row.note)
  }

  /** The tree items of `rows` for column `c`, inserted in order from
      identifier `first` on. */
  function ItemsOf(rows: seq<HistoryRow>, c: Column, targetText: string, first: nat): (items: seq<Item>)
    requires forall i :: 0 <= i < |rows| ==> ValidDate(rows[i].date)
    ensures |items| == |rows|
    ensures forall i :: 0 <= i < |rows| ==>
      items[i] == Item(Cell(rows[i], c, targetText), first + i)
  {
    seq(|rows|, i requires 0 <= i < |rows| => Item(Cell(rows[i], c, targetText), first + i))
  }

  /** Sorting the date-ordered history list by its date column leaves it as
      it is: key text order is date order. */
  lemma SortByDateKeepsOrder(rows: seq<HistoryRow>, first: nat, targetText: string)
    requires forall i :: 0 <= i < |rows| ==> ValidDate(rows[i].date)
    requires forall i, j :: 0 <= i < j < |rows| ==> Before(rows[j].date, rows[i].date)
    ensures SortDescending(ItemsOf(rows, DateColumn, targetText, first))
            == ItemsOf(rows, DateColumn, targetText, first)
  {
    var items := ItemsOf(rows, DateColumn, targetText, first);
    forall i, j | 0 <= i < j < |items|
      ensures !ItemLess(items[i], items[j])
    {
      KeyOrderIsDateOrder(rows[j].date, rows[i].date);
      var a, b := items[j].cell, items[i].cell;
      assert LexLess(a, b);
      if LexLess(b, a) {
        LexLessTransitive(a, b, a);
        LexLessIrreflexive(a);
      }
      if a == b {
        LexLessIrreflexive(a);
      }
    }
    SortCharacterised(items, items);
  }

  /** Every row has the same target text, so sorting by that column only
      reverses the insertion order. */
  lemma SortByTargetReverses(rows: seq<HistoryRow>, first: nat, targetText: string)
    requires forall i :: 0 <= i < |rows| ==> ValidDate(rows[i].date)
    ensures var items := ItemsOf(rows, TargetColumn, targetText, first);
      SortDescending(items) == seq(|items|, i requires 0 <= i < |items| => items[|items| - 1 - i])
  {
    var items := ItemsOf(rows, TargetColumn, targetText, first);
    var rev := seq(|items|, i requires 0 <= i < |items| => items[|items| - 1 - i]);
    forall i, j | 0 <= i < j < |rev|
      ensures !ItemLess(rev[i], rev[j])
    {
      LexLessIrreflexive(targetText);
    }
    ReversedIsPermutation(items);
    SortCharacterised(items, rev);
  }

  lemma {:induction false} ReversedIsPermutation(xs: seq<Item>)
    ensures multiset(seq(|xs|, i requires 0 <= i < |xs| => xs[|xs| - 1 - i])) == multiset(xs)
    decreases |xs|
  {
    var rev := seq(|xs|, i requires 0 <= i < |xs| => xs[|xs| - 1 - i]);
    if xs != [] {
      var init := xs[..|xs| - 1];
      var revInit := seq(|init|, i requires 0 <= i < |init| => init[|init| - 1 - i]);
      ReversedIsPermutation(init);
      assert rev == [xs[|xs| - 1]] + revInit;
      assert xs == init + [xs[|xs| - 1]];
    }
  }

  /** Amount columns sort as text, not as numbers: 9,000 is listed above
      10,000 when sorting by remaining credits. */
  lemma AmountsSortAsText()
    ensures Grouped(9000) == "9,000" && Grouped(10000) == "10,000"
    ensures ItemLess(Item(Grouped(10000), 0), Item(Grouped(9000), 1))
  {
    assert NatText(9) == "9" && NatText(10) == "10";
    assert ThreeDigits(0) == "000";
  }
}

=== FILE: text.dfy ===
/** String helpers behind the history view: Python's `<` on strings (the
    column sort), `lower()` and `in` (the search box) and `strip()` (notes). */
module Text {

  /** Python's `a < b` on strings: the first differing character decides,
      and a proper prefix sorts first. */
  predicate LexLess(a: string, b: string)
    decreases |a|
  {
    |b| > 0 && (|a| == 0 || a[0] < b[0] || (a[0] == b[0] && LexLess(a[1..], b[1..])))
  }

  lemma {:induction false} LexLessIrreflexive(a: string)
    ensures !LexLess(a, a)
    decreases |a|
  {
    if |a| > 0 {
      LexLessIrreflexive(a[1..]);
    }
  }

  lemma {:induction false} LexLessTransitive(a: string, b: string, c: string)
    requires LexLess(a, b) && LexLess(b, c)
    ensures LexLess(a, c)
    decreases |a|
  {
    if |a| > 0 && a[0] == b[0] && b[0] == c[0] {
      LexLessTransitive(a[1..], b[1..], c[1..]);
    }
  }

  /** Any two different strings are ordered one way or the other. */
  lemma {:induction false} LexLessTotal(a: string, b: string)
    requires a != b
    ensures LexLess(a, b) || LexLess(b, a)
    decreases |a|
  {
    if |a| > 0 && |b| > 0 && a[0] == b[0] {
      assert a == [a[0]] + a[1..] && b == [b[0]] + b[1..];
      LexLessTotal(a[1..], b[1..]);
    }
  }

  /** Comparing two strings that start with equally long parts compares the
      parts first and the rests only when the parts are equal. */
  lemma {:induction false} LexLessConcat(p: string, x: string, q: string, y: string)
    requires |p| == |q|
    ensures LexLess(p + x, q + y) <==> LexLess(p, q) || (p == q && LexLess(x, y))
    decreases |p|
  {
    if |p| > 0 {
      assert (p + x)[1..] == p[1..] + x;
      assert (q + y)[1..] == q[1..] + y;
      LexLessConcat(p[1..], x, q[1..], y);
      if p[0] == q[0] {
        assert p == q <==> p[1..] == q[1..] by {
          assert p == [p[0]] + p[1..] && q == [q[0]] + q[1..];
        }
      }
    } else {
      assert p + x == x && q + y == y;
    }
  }

  /** ASCII `str.lower()` on one character. */
  function LowerChar(c: char): (r: char)
    ensures 'A' <= c <= 'Z' ==> r as int == c as int + 32
    ensures !('A' <= c <= 'Z') ==> r == c
    ensures !('A' <= r <= 'Z')
  {
    if 'A' <= c <= 'Z' then (c as int + 32) as char else c
  }

  /** `s.lower()`, character by character. */
  function Lower(s: string): (r: string)
    ensures |r| == |s|
    ensures forall i :: 0 <= i < |s| ==> r[i] == LowerChar(s[i])
  {
    if s == [] then [] else [LowerChar(s[0])] + Lower(s[1..])
  }

  /** Lower-casing twice is lower-casing once, so a search is insensitive to
      the case the user typed it in. */
  lemma LowerIdempotent(s: string)
    ensures Lower(Lower(s)) == Lower(s)
  {
  }

  /** `needle` occurs in `hay` starting at index `i`. */
  predicate OccursAt(hay: string, needle: string, i: int)
  {
    0 <= i && i + |needle| <= |hay| && hay[i..i + |needle|] == needle
  }

  /** Python's `needle in hay` for strings. */
  predicate Contains(hay: string, needle: string)
    decreases |hay|
  {
    |needle| <= |hay| && (hay[..|needle|] == needle || (|hay| > 0 && Contains(hay[1..], needle)))
  }

  /** The recursive scan finds exactly the occurrences there are. */
  lemma {:induction false} ContainsIffOccurs(hay: string, needle: string)
    ensures Contains(hay, needle) <==> exists i :: OccursAt(hay, needle, i)
    decreases |hay|
  {
    if |needle| <= |hay| {
      if hay[..|needle|] == needle {
        assert OccursAt(hay, needle, 0);
      } else if |hay| > 0 {
        ContainsIffOccurs(hay[1..], needle);
        forall i | 1 <= i && OccursAt(hay, needle, i)
          ensures OccursAt(hay[1..], needle, i - 1)
        {
          assert hay[1..][i - 1..i - 1 + |needle|] == hay[i..i + |needle|];
        }
        forall i | OccursAt(hay[1..], needle, i)
          ensures OccursAt(hay, needle, i + 1)
        {
          assert hay[1..][i..i + |needle|] == hay[i + 1..i + 1 + |needle|];
        }
      }
    }
  }

  /** The characters `str.strip()` removes (ASCII subset of `str.isspace()`). */
  predicate IsSpace(c: char)
  {
    c == ' ' || c == '\t' || c == '\n' || c == '\r' || c == '\U{0B}' || c == '\U{0C}'
    || ('\U{1C}' <= c <= '\U{1F}')
  }

  /** `s.lstrip()`. */
  function DropLeadingSpace(s: string): (r: string)
    ensures |r| <= |s| && r == s[|s| - |r|..]
    ensures r != [] ==> !IsSpace(r[0])
    ensures forall i :: 0 <= i < |s| - |r| ==> IsSpace(s[i])
    decreases |s|
  {
    if s != [] && IsSpace(s[0]) then DropLeadingSpace(s[1..]) else s
  }

  /** `s.rstrip()`. */
  function DropTrailingSpace(s: string): (r: string)
    ensures |r| <= |s| && r == s[..|r|]
    ensures r != [] ==> !IsSpace(r[|r| - 1])
    ensures forall i :: |r| <= i < |s| ==> IsSpace(s[i])
    decreases |s|
  {
    if s != [] && IsSpace(s[|s| - 1]) then DropTrailingSpace(s[..|s| - 1]) else s
  }

  /** `s.strip()`. The result is empty exactly when `s` is all white space. */
  function Strip(s: string): (r: string)
    ensures r == [] <==> forall i :: 0 <= i < |s| ==> IsSpace(s[i])
    ensures r != [] ==> !IsSpace(r[0]) && !IsSpace(r[|r| - 1])
  {
    var t := DropTrailingSpace(s);
    var r := DropLeadingSpace(t);
    assert forall i :: 0 <= i < |t| ==> t[i] == s[i];
    r
  }
}

=== FILE: wrappers.dfy ===
/** Failure-carrying return values used across the model in place of the
    source's exceptions and `None` returns. */
module Wrappers {

  /** An optional value: the source's `None` versus a present value. */
  datatype Option<+T> = None | Some(value: T) {

    /** The carried value, or `default` when there is none. */
    function GetOr(default: T): T
    {
      match this
      case Some(v) => v
      case None => default
    }
  }

  /** Either a value or the error the source would have reported instead. */
  datatype Result<+R, +E> = Ok(value: R) | Err(error: E) {

    /** True if this is an error. */
    predicate IsFailure()
    {
      Err?
    }

    /** Passes an error on with a different value type. */
    function PropagateFailure<U>(): Result<U, E>
      requires Err?
    {
      Err(error)
    }

    /** The value carried by `Ok`. */
    function Extract(): R
      requires Ok?
    {
      value
    }
  }
}
